=== FILE: README.md ===
# Savouri storefront: the chat-ordering core in Dafny

This project models the ordering assistant of the Savouri restaurant storefront, together with the stores and pages it works with.

- **Chat panel.** The chat component greets the guest and takes over a dish that a menu page hands to it. It answers typed messages in stages:
  - an allergy guard;
  - five direct menu rules;
  - a gateway to a language model, whose reply text is then post-processed into dish cards and a short lead-in.

  Its suggested-action buttons browse the menu, add dishes, place, confirm and clear the order.
- **Cart store.** An ordered list of cart lines, merged by menu item and customisations.
- **Restaurant store.** Items of a category, the featured list ranked by rating and review count, and the opening-hours check.
- **Chat panel store.** The open flag and the pending hand-over.
- **Pages.** The restaurant directory (search and cuisine filter), the restaurant sign-up form (slug, category and item editing, hours, submitted rows), the menu page (category tabs and dietary filters) and the order history ("order again", status badges, date formats).

Everything is a pure function over immutable values. Money is integer cents. A page or panel's state is one datatype, and each handler maps it to the next state. The gateway is a function parameter from the conversation to an optional reply text. The current day and minute are parameters too.

| Module | File |
|---|---|
| `Domain` | `domain.dfy` |
| `Seqs` | `seqs.dfy` |
| `Text` | `text.dfy` |
| `Cart` | `cart.dfy` |
| `ChatbotState` | `chatbot_state.dfy` |
| `Restaurant` | `restaurant.dfy` |
| `Browser` | `browser.dfy` |
| `RestaurantForm` | `form.dfy` |
| `MenuSection` | `menu_section.dfy` |
| `OrderHistory` | `order_history.dfy` |
| `Intent` | `intent.dfy` |
| `Sanitizer` | `sanitizer.dfy` |
| `Upsell` | `upsell.dfy` |
| `Chatbot` | `chatbot.dfy` |

Where the written description of the system and the code disagree, the model follows the code:

- **Allergy-looking gateway replies.** The check on the gateway's reply only stops the two fallback tiers. Cards named by `SHOW:` lines are still attached.
- **`new_order` button.** It appends an invitation message. It does not reset the conversation.
- **`add_item` confirmation.** Its count and total are computed from the cart before the add, plus the added dish. Its suggestions are also computed for the cart before the add. `Chatbot.AddItemReport` states how far that report is from the new cart when React defers the cart update. "Left out" describes the case where React applies it at once.
- **Checkout extras.** They are offered whether the cart already has suggestions or not. They are cut to three together with the suggestions.

## Model

| member | source | states |
|---|---|---|
| Cart.FindLine | src/contexts/CartContext.tsx:21-24 | The index found is the first line with the same menu item and customisations; none is found exactly when no line matches |
| Cart.AddToCart | src/contexts/CartContext.tsx:19-34 | A matching line has its quantity increased and every other line is unchanged; without a match the item is appended |
| Cart.AddToCartCount | src/contexts/CartContext.tsx:19-34 | Adding grows the item count by exactly the added quantity |
| Cart.AddToCartTotal | src/contexts/CartContext.tsx:57-65 | Adding grows the total by the added quantity at the unit price of the line it lands in: the existing line's captured price when merged, the item's own price when appended |
| Cart.AddToCartKeepsKeysUnique | src/contexts/CartContext.tsx:19-34 | Adding preserves the invariant that no two lines share a (menu item, customisations) pair, and grows the cart by a line exactly when nothing matched |
| Cart.RemoveFromCart | src/contexts/CartContext.tsx:36-38 | Exactly the lines of other menu items remain, in their order, whatever their customisations |
| Cart.UpdateQuantity | src/contexts/CartContext.tsx:40-51 | A quantity of zero or less removes the item; otherwise every line of the item takes the new quantity and every other field and line is unchanged |
| Cart.EditsKeepKeysUnique | src/contexts/CartContext.tsx:36-51 | Removing and updating preserve the key-uniqueness invariant |
| Cart.SumOfUpdate | src/contexts/CartContext.tsx:57-69 | Replacing one line changes a left-to-right sum by the difference of that line's terms |
| Cart.ClearCart | src/contexts/CartContext.tsx:53-55 | The cleared cart has count zero and total zero |
| Cart.AddTwiceMerges | src/contexts/CartContext.tsx:19-34 | The same line added twice to an empty cart is one line with the quantities summed |
| Cart.AddThenUpdateExample | src/contexts/CartContext.tsx:40-69 | One 10.00 item added and then set to three gives count 3 and total 30.00 |
| ChatbotState.OpenChatbot | src/contexts/ChatbotContext.tsx:18 | Opens the panel and leaves the pending item alone |
| ChatbotState.CloseChatbot | src/contexts/ChatbotContext.tsx:19 | Closes the panel and leaves the pending item alone |
| ChatbotState.AddItemToChatbot | src/contexts/ChatbotContext.tsx:21-24 | Records the handed-over item and opens the panel |
| ChatbotState.ClearPendingItem | src/contexts/ChatbotContext.tsx:26-28 | Drops the pending item and leaves the open flag alone |
| ChatbotState.RunMatchesReference | src/contexts/ChatbotContext.tsx:15-28 | After any sequence of calls, the pending slot holds the last hand-over not followed by a clear, and the open flag reflects the last open, close or hand-over |
| ChatbotState.AddThenClear | src/contexts/ChatbotContext.tsx:21-28 | A hand-over followed by its consumption leaves the panel open with nothing pending |
| Restaurant.ItemsByCategory | src/contexts/RestaurantContext.tsx:100-102 | Exactly the available items of the category, in catalogue order |
| Restaurant.RankCompare | src/contexts/RestaurantContext.tsx:107-112 | Negative exactly when the first item ranks above the second (higher rating, or equal rating and more reviews, missing values read as 0), positive exactly in the reverse case |
| Restaurant.SourceCompareInconsistent | src/contexts/RestaurantContext.tsx:107-112 | The comparator as written compares a missing rating unequal to a rating of 0 but their difference as 0, so "compares equal" is not transitive |
| Restaurant.RankCompareConsistent | src/contexts/RestaurantContext.tsx:107-112 | With both keys defaulted first, the comparator is a consistent total preorder, and it agrees with the written one whenever both ratings are present |
| Restaurant.InsertByRank | src/contexts/RestaurantContext.tsx:107-112 | Inserting keeps the elements (as a multiset) plus the new one, and keeps a ranked list ranked |
| Restaurant.SortByRank | src/contexts/RestaurantContext.tsx:107-112 | The sort is a permutation of its input and its result is ranked |
| Restaurant.SortByRankStable | src/contexts/RestaurantContext.tsx:107-112 | Items of equal rank keep their catalogue order, as with a stable `Array.prototype.sort` |
| Restaurant.RankedPrefix | src/contexts/RestaurantContext.tsx:113 | The first n of a ranked list are ranked, and none of the elements left out ranks above any element kept |
| Restaurant.FeaturedItems | src/contexts/RestaurantContext.tsx:104-114 | Exactly six featured, available items when at least six qualify, otherwise all of them, drawn from the candidates and ordered by the corrected comparator; all candidates when there are at most six; no candidate left out ranks above one kept |
| Restaurant.FeaturedStable | src/contexts/RestaurantContext.tsx:104-114 | Per rank, the featured list is a prefix of the catalogue's featured, available items of that rank |
| Restaurant.ClockRoundTrip | src/contexts/RestaurantContext.tsx:125-128 | A stored zero-padded "HH:MM" string reads back, through split and `Number`, as its minutes of the day |
| Restaurant.MinutesOfParts | src/contexts/RestaurantContext.tsx:125-128 | A clock string splitting into two numbers reads as hours times 60 plus minutes |
| Restaurant.IsOpen | src/contexts/RestaurantContext.tsx:116-131 | False without a current restaurant or on a day marked closed; otherwise open exactly when the minute lies in the inclusive interval between the parsed times, and false when a time is not a number |
| Restaurant.OvernightHoursNeverOpen | src/contexts/RestaurantContext.tsx:124-130 | Hours whose closing time is before their opening time are never open: there is no wrap past midnight |
| Restaurant.OpenAtBothEnds | src/contexts/RestaurantContext.tsx:130 | Open at the opening minute and at the closing minute, closed one minute after closing |
| Browser.CuisinesOf | src/components/RestaurantBrowser.tsx:71 | The cuisine of each listed restaurant, position by position |
| Browser.CuisineOptions | src/components/RestaurantBrowser.tsx:71 | "all" first, then every listed cuisine exactly once and nothing else, in order of first listing |
| Browser.FilterRestaurants | src/components/RestaurantBrowser.tsx:73-79 | Exactly the listed restaurants, in order, whose name, cuisine or city contains the query ignoring case and whose cuisine is the selected one (or "all" is selected) |
| Browser.EmptySearchShowsAll | src/components/RestaurantBrowser.tsx:73-79 | An empty search with "all" selected shows the whole list unchanged |
| Browser.LongerQueryNarrows | src/components/RestaurantBrowser.tsx:74-76 | A restaurant shown for a query is shown for every part of that query: typing more never adds results |
| Browser.EveryCuisineOptionNonEmpty | src/components/RestaurantBrowser.tsx:71-79 | Every cuisine option other than "all" keeps at least one restaurant under an empty search |
| Browser.IsOpen | src/components/RestaurantBrowser.tsx:81-95 | Closed when the day has no hours entry; otherwise the same answer as the restaurant store's check |
| RestaurantForm.Collapse | src/components/AddRestaurantForm.tsx:102 | Each run of characters outside `[a-z0-9]` becomes a single dash: the result has only slug characters and dashes, never two dashes in a row, and is empty only for an empty input |
| RestaurantForm.Slug | src/components/AddRestaurantForm.tsx:99-104 | Always a well-formed slug (lower-case letters, digits, single inner dashes, no dash at either end); empty when the lower-cased name has no letter or digit |
| RestaurantForm.SlugIdempotent | src/components/AddRestaurantForm.tsx:99-104 | Slugging a slug gives the same slug |
| RestaurantForm.SlugFixed | src/components/AddRestaurantForm.tsx:99-104 | Every well-formed slug is its own slug |
| RestaurantForm.PunctuationSlugEmpty | src/components/AddRestaurantForm.tsx:99-104 | A name made only of characters outside `[A-Za-z0-9]` gives the empty slug |
| RestaurantForm.HandleInputChange | src/components/AddRestaurantForm.tsx:106-111 | The field takes the value, the slug included when it is the field edited; changing the name also regenerates the slug from it; every other field keeps its value |
| RestaurantForm.HandleHoursChange | src/components/AddRestaurantForm.tsx:113-118 | Exactly the chosen field of the chosen day changes; every other day and field keeps its value |
| RestaurantForm.StoredDayAsWritten | src/components/AddRestaurantForm.tsx:228 | The hours as saved and then read through `is_closed`: times kept, closed flag always unset |
| RestaurantForm.ClosedDayReadsOpen | src/components/AddRestaurantForm.tsx:64-72 | A Monday ticked closed in the form, with its default 09:00-21:00 hours, reads as open at noon |
| RestaurantForm.StoredDay | src/contexts/RestaurantContext.tsx:122 | The hours saved under the key the readers check: the closed flag carries over |
| RestaurantForm.StoredDayHonoursClosed | src/contexts/RestaurantContext.tsx:122 | With the flag carried over, a day ticked closed is closed at every minute, and a day left open reads exactly as before |
| RestaurantForm.AddCategory | src/components/AddRestaurantForm.tsx:120-122 | One empty category appended; the others unchanged |
| RestaurantForm.RemoveCategory | src/components/AddRestaurantForm.tsx:124-126 | The category at the index is dropped and the others keep their order; an index outside the list changes nothing |
| RestaurantForm.UpdateCategory | src/components/AddRestaurantForm.tsx:128-132 | The chosen category becomes itself with exactly the chosen field replaced by the value; every other category is unchanged |
| RestaurantForm.UpdateCategoryUndo | src/components/AddRestaurantForm.tsx:128-132 | Typing a field's old text back in restores the category list exactly |
| RestaurantForm.AddMenuItem | src/components/AddRestaurantForm.tsx:134-159 | Only the chosen category changes: it gains the blank item (available, not featured, 15 minutes) at the end |
| RestaurantForm.RemoveMenuItem | src/components/AddRestaurantForm.tsx:161-167 | Only the chosen category changes: the item at the index is dropped and the rest keep their order |
| RestaurantForm.EditItemAt | src/components/AddRestaurantForm.tsx:169-180 | The edit applies to the item at that position and to nothing else |
| RestaurantForm.UpdateMenuItem | src/components/AddRestaurantForm.tsx:169-180 | The chosen field of the chosen item takes the new value; every other field, item and category is unchanged |
| RestaurantForm.ToggleTag | src/components/AddRestaurantForm.tsx:190-192 | The tag is present afterwards exactly when it was absent before; every other tag keeps its membership |
| RestaurantForm.ToggleTagTwice | src/components/AddRestaurantForm.tsx:190-192 | Toggling an absent tag twice restores the original list |
| RestaurantForm.ToggleMenuTag | src/components/AddRestaurantForm.tsx:182-201 | The chosen category becomes itself with only the chosen item's tag list replaced by its toggle; the tag is present afterwards exactly when it was absent before; every other item and category is unchanged |
| RestaurantForm.ParseAllergens | src/components/AddRestaurantForm.tsx:278 | Every stored allergen is non-empty, trimmed and free of commas; an empty field stores none |
| RestaurantForm.ParseAllergensRoundTrip | src/components/AddRestaurantForm.tsx:278 | A list of clean allergens written comma-separated is read back unchanged |
| RestaurantForm.PreparationMinutes | src/components/AddRestaurantForm.tsx:276 | Never 0: the parsed number when it is a non-zero number, otherwise 15 |
| RestaurantForm.ItemRowOf | src/components/AddRestaurantForm.tsx:266-280 | The row keeps the item's name and tags, and its position as sort order |
| RestaurantForm.RowsBy | src/components/AddRestaurantForm.tsx:262-283 | After the loop, the rows are exactly the filled-in items (name and price given), in order, each made from its own item |
| RestaurantForm.RowsUnique | src/components/AddRestaurantForm.tsx:262-283 | That description admits one row list only: two lists that both stand for exactly the filled-in items, in order, are equal |
| RestaurantForm.ItemRows | src/components/AddRestaurantForm.tsx:262-283 | One row per item with a name and a price, in increasing sort order, each made from the item at its sort order |
| RestaurantForm.SubmittedRows | src/components/AddRestaurantForm.tsx:242-283 | One category row per named category, in increasing order, with its position as sort order, its name, description and image (or null), and under it exactly the rows of that category's filled-in items, in order, each made from its own item |
| RestaurantForm.CategoryRowsUnique | src/components/AddRestaurantForm.tsx:242-283 | That description admits one row list only: two lists that both meet it are equal |
| MenuSection.TabItems | src/components/MenuSection.tsx:13-14 | The "all" tab (also when nothing is selected) shows the whole menu, unavailable items included; another tab shows exactly that category's available items |
| MenuSection.SortUnique | src/components/MenuSection.tsx:16-22 | Strictly sorted in code-point order, with exactly the input's strings |
| MenuSection.SortedUnique | src/components/MenuSection.tsx:16-22 | Two strictly sorted lists with the same elements are equal, so the tag list is determined by the set of tags |
| MenuSection.AvailableDietaryTags | src/components/MenuSection.tsx:16-22 | Exactly the tags some menu item carries, each once, in sort order |
| MenuSection.TagsIgnoreMenuOrder | src/components/MenuSection.tsx:16-22 | Reordering the menu does not change the tag list |
| MenuSection.FilteredItems | src/components/MenuSection.tsx:24-27 | For a tag, exactly the tab's items carrying it, in order |
| MenuSection.FilterAllShowsTab | src/components/MenuSection.tsx:24-27 | The "all" filter shows the tab's items unchanged |
| MenuSection.AvailableOptions | src/components/MenuSection.tsx:35-37 | The fixed dietary options, in their order, whose tag occurs in the list |
| MenuSection.OptionOfferedIffUsed | src/components/MenuSection.tsx:29-37 | A dietary button is offered exactly when some menu item carries its tag |
| OrderHistory.QuantityOrOne | src/components/OrderHistory.tsx:109 | Never 0: a stored non-zero quantity is kept, a missing or zero one becomes 1 |
| OrderHistory.LineOf | src/components/OrderHistory.tsx:105-111 | A missing id becomes the empty id, missing customisations become none, and the quantity is as above |
| OrderHistory.AddAll | src/components/OrderHistory.tsx:104-112 | Re-adding grows the count by the sum of the defaulted quantities and keeps the key-uniqueness invariant |
| OrderHistory.OrderAgain | src/components/OrderHistory.tsx:101-116 | An order without an item list changes nothing; otherwise the count grows by the defaulted quantities and the invariant is kept |
| OrderHistory.ReorderDistinctLines | src/components/OrderHistory.tsx:101-116 | Ordering again onto an empty cart, when no two stored lines share an item and customisations, gives exactly the stored lines, in order |
| OrderHistory.BadgesAgree | src/components/OrderHistory.tsx:53-85 | Two statuses get the same icon exactly when they are in the same group, and the same colour exactly when they are in the same group; unknown statuses form their own group |
| OrderHistory.GroupBadgesDistinct | src/components/OrderHistory.tsx:53-85 | Different status groups get different icons and different colours |
| OrderHistory.FormatOf | src/components/OrderHistory.tsx:87-99 | Time only exactly when the order is under 24 hours old; weekday and time exactly when it is 24 to under 168 hours old; month and day otherwise, including an unparsable date |
| OrderHistory.FormatMonotone | src/components/OrderHistory.tsx:87-99 | An older order never gets a more detailed format than a newer one |
| Intent.ContactOf | src/components/Chatbot.tsx:132 | Never empty: the restaurant's phone when it has one, otherwise a stock name |
| Intent.AllergyNotice | src/components/Chatbot.tsx:136 | The notice names the contact and contains the phrase "allergy concerns" |
| Intent.ClassifyPicksFirst | src/components/Chatbot.tsx:148-171 | The chain picks a rule exactly when the message mentions it and mentions no rule tried before it |
| Intent.ClassifyNone | src/components/Chatbot.tsx:148-171 | The chain picks no rule exactly when the message mentions none |
| Intent.FirstMatches | src/components/Chatbot.tsx:149-151 | Exactly the first n menu items that pass, in menu order (all of them when fewer than n pass): a prefix of the passing items |
| Intent.DirectItems | src/components/Chatbot.tsx:147-171 | None exactly when no rule applies; otherwise the first twelve items, in menu order, that the chosen rule keeps, or all of them when fewer qualify |
| Intent.DirectItemsAvailable | src/components/Chatbot.tsx:148-166 | Every rule but the popularity rule lists only available dishes |
| Intent.FishRulesPartition | src/components/Chatbot.tsx:158-166 | Each available item is kept by exactly one of the two fish rules, and together their filters hold each available item once |
| Intent.ShadowingWords | src/components/Chatbot.tsx:130 | "no fish" and "without fish" contain the whole word "fish"; "gluten-free" and "gluten free" contain the whole word "gluten" |
| Intent.AllergyGuardShadowsRules | src/components/Chatbot.tsx:130-171 | Because the allergy guard runs first, a message reaching the chain selects the gluten-free rule only through "glutenfree", the no-fish rule only through "no seafood", and the fish rule never through "fish" |
| Sanitizer.AllergyNoticeIsAllergyReply | src/components/Chatbot.tsx:237 | The panel's own allergy notice carries the allergy-reply signature, so a reply echoing it gets no automatic cards |
| Sanitizer.SplitShowLines | src/components/Chatbot.tsx:240-251 | The loop collects the names of the `SHOW:` lines and keeps the other lines, each in order |
| Sanitizer.SplitBy | src/components/Chatbot.tsx:244-251 | For any test, the loop collects the rewritten lines that pass and keeps those that fail, each in order |
| Sanitizer.NoShowLinesKeepsText | src/components/Chatbot.tsx:240-253 | A reply without `SHOW:` lines keeps its whole text, only trimmed, and asks for no dish |
| Sanitizer.CleanedLinesHaveNoShow | src/components/Chatbot.tsx:240-253 | None of the kept lines is a `SHOW:` line, and splitting their join gives them back |
| Sanitizer.FindByName | src/components/Chatbot.tsx:255 | The first menu item whose name equals the given name ignoring case; none exactly when no name matches |
| Sanitizer.Resolve | src/components/Chatbot.tsx:254-256 | At most one item per name, each from the menu |
| Sanitizer.ResolveFound | src/components/Chatbot.tsx:245-256 | When every `SHOW:` line names a dish, each line yields the first dish of that name ignoring case, in line order; when none does, no card is attached |
| Sanitizer.ResolveOne | src/components/Chatbot.tsx:245-256 | One `SHOW:` line yields the first dish of that name ignoring case, or nothing |
| Sanitizer.ResolveAppend | src/components/Chatbot.tsx:254-256 | Resolving keeps the order of the `SHOW:` lines: two runs of names resolve to the two results one after the other |
| Sanitizer.ResolveOwnName | src/components/Chatbot.tsx:254-256 | A `SHOW:` line naming a dish in any letter case attaches that dish when no other dish has the same name up to case |
| Sanitizer.DetectNames | src/components/Chatbot.tsx:262-270 | Exactly the menu items whose name occurs in the text as a whole word, ignoring case, in menu order |
| Sanitizer.QueryItems | src/components/Chatbot.tsx:272-313 | Nothing unless the message is a menu question; otherwise, when some available item passes the selected rule, the first twelve such items in menu order (all of them when fewer); when none does, the first six featured items in menu order if the message asks for popular dishes, and nothing if not |
| Sanitizer.QueryAfterDirectMiss | src/components/Chatbot.tsx:283-311 | After a dietary or fish rule found nothing directly, tier two finds nothing either, apart from the popular-dishes fallback |
| Sanitizer.QueryAfterPopularMiss | src/components/Chatbot.tsx:167-169 | After the popularity rule found nothing directly, tier two attaches nothing |
| Sanitizer.QueryWithoutRule | src/components/Chatbot.tsx:280-308 | When no rule applies, tier two of a menu question is the first twelve available items in menu order, or all of them when fewer, and nothing when none is available |
| Sanitizer.KeptLines | src/components/Chatbot.tsx:321-344 | The lines kept are exactly those, in order and with every repetition kept, that trimmed are non-empty, shorter than 150 characters, show no price, are not numbered and name no attached dish |
| Sanitizer.EndWithColon | src/components/Chatbot.tsx:354-357 | The result ends with a colon; a text ending in a colon is kept; otherwise one final comma or full stop is replaced by the colon |
| Sanitizer.EndWithColonIdempotent | src/components/Chatbot.tsx:354-357 | Applying the colon ending twice changes nothing more |
| Sanitizer.Simplify | src/components/Chatbot.tsx:346-357 | The lead-in ends with a colon and is the kept lines when they make ten characters or more, else the reply's first sentence when it is 11 to 199 characters, else the stock lead-in |
| Sanitizer.SimplifiedLinesClean | src/components/Chatbot.tsx:321-344 | Every kept line is non-empty, short, price-free, unnumbered and names no attached dish |
| Sanitizer.Detected | src/components/Chatbot.tsx:260-313 | Tier one when it finds something, otherwise tier two, and only menu items |
| Sanitizer.Sanitize | src/components/Chatbot.tsx:237-369 | Cards come from the menu; resolved `SHOW:` names win with the cleaned text; an allergy reply without them gets no cards; otherwise a non-allergy reply gets exactly the detected dishes (names in the cleaned text, else the query tier), and when there are any the text is the simplified lead-in, ending in a colon, built from the cleaned text, those cards and the raw reply; without cards the text is the cleaned reply |
| Sanitizer.PlainReplyNamingDishGetsCard | src/components/Chatbot.tsx:258-270 | A reply with no `SHOW:` line and no allergy warning that names a menu dish as a whole word gets that dish as a card, the cards being exactly the dishes it names, under a lead-in ending in a colon |
| Upsell.CartItemIds | src/components/Chatbot.tsx:68 | Exactly the menu item ids of the cart's lines |
| Upsell.FindById | src/components/Chatbot.tsx:70 | The menu item with that id, or none exactly when no item has it |
| Upsell.CartCategoryIds | src/components/Chatbot.tsx:69-71 | Exactly the non-empty categories of cart items found on the menu |
| Upsell.FindSection | src/components/Chatbot.tsx:73-81 | The first category of the restaurant whose lower-cased name contains the word, or none exactly when no such category exists |
| Upsell.SectionPicks | src/components/Chatbot.tsx:85-104 | Nothing unless the restaurant has the section and the cart does not touch it; then exactly the first offerable dishes of the menu up to the section's limit: of that category, not in the cart, featured when the section requires it |
| Upsell.Upsells | src/components/Chatbot.tsx:65-107 | Nothing for an empty cart; otherwise the drinks, then the starter, then the dessert, cut to three, so only the dessert is ever cut and only behind two drinks and a starter; none in the cart and none from a category the cart touches |
| Upsell.UpsellsFromSections | src/components/Chatbot.tsx:83-106 | Every suggestion is a beverage, a featured appetizer or a featured dessert of the restaurant |
| Upsell.SmallerItems | src/components/Chatbot.tsx:750-765 | The first two available side dishes under 10.00 that are not in the cart, in menu order; all of them when fewer than two qualify |
| Upsell.CheckoutOffers | src/components/Chatbot.tsx:767 | The upsells, then the first extras filling the places left up to three; none in the cart |
| Upsell.NoOffersIffNothingToOffer | src/components/Chatbot.tsx:767-769 | Nothing is offered at checkout exactly when there is no upsell and no extra |
| Chatbot.UpsellsFor | src/components/Chatbot.tsx:65-107 | Nothing without a restaurant or for an empty cart; at most three menu dishes not in the cart |
| Chatbot.GreetIfEmpty | src/components/Chatbot.tsx:22-37 | An open, empty panel with a restaurant starts with the greeting; otherwise nothing changes |
| Chatbot.ClearChat | src/components/Chatbot.tsx:384-400 | The conversation restarts with the greeting; the cart and the sign-in stay |
| Chatbot.GreetingShownOnce | src/components/Chatbot.tsx:22-37 | The greeting effect does nothing to a greeted or freshly cleared panel |
| Chatbot.ShowPendingItem | src/components/Chatbot.tsx:39-59 | A handed-over dish found on the menu is shown with its card and buttons and the hand-over is consumed; otherwise nothing changes |
| Chatbot.PendingItemShownOnce | src/components/Chatbot.tsx:39-59 | Running the hand-over effect again changes nothing |
| Chatbot.TurnsOf | src/components/Chatbot.tsx:198-201 | One turn per message, with its role and text, in order |
| Chatbot.GatewayTurns | src/components/Chatbot.tsx:197-207 | The gateway sees the earlier conversation followed by the new message |
| Chatbot.Answer | src/components/Chatbot.tsx:125-234 | The answer comes from the assistant with cards from the menu; an allergy question gets the allergy notice naming the contact, with no cards; otherwise a non-empty direct list is shown exactly, under the rule's canned text and without buttons; otherwise the answer is the gateway's reply to the earlier turns and the new message, sanitized, or the apology when the request fails |
| Chatbot.FromGateway | src/components/Chatbot.tsx:229-379 | A failed request gives the apology; otherwise the sanitised reply's text and cards |
| Chatbot.SendMessage | src/components/Chatbot.tsx:109-124 | A blank message, or no restaurant, changes nothing; otherwise exactly the user's message and the answer are appended |
| Chatbot.AnsweredWithoutGateway | src/components/Chatbot.tsx:129-185 | An allergy question, or one a direct rule answers, gets the same answer whatever the gateway would say |
| Chatbot.GatewaySeesConversation | src/components/Chatbot.tsx:197-234 | Otherwise the answer depends on the gateway only through its reply to the conversation plus the new message |
| Chatbot.DirectAnswerCards | src/components/Chatbot.tsx:173-185 | A direct answer lists exactly the rule's dishes: up to twelve, in menu order, each kept by the selected rule |
| Chatbot.GatewayFailure | src/components/Chatbot.tsx:370-379 | A failed request ends in the apology without cards |
| Chatbot.Append | src/components/Chatbot.tsx:600 | Messages are added at the end of the conversation and nothing else changes |
| Chatbot.AddOne | src/components/Chatbot.tsx:588-641 | Signed out, only a sign-in request is added; a dish not on the menu changes nothing |
| Chatbot.AddMany | src/components/Chatbot.tsx:642-698 | The same for a quantity of the dish |
| Chatbot.PlaceOrderStep | src/components/Chatbot.tsx:714-811 | Signed out, a sign-in request; an empty cart, a browsing offer; otherwise suggestions with the cart kept, or the order received and the cart cleared |
| Chatbot.CheckoutOffersFor | src/components/Chatbot.tsx:750-767 | At most three menu dishes, none in the cart |
| Chatbot.ClearCartStep | src/components/Chatbot.tsx:812-850 | An empty cart is reported; otherwise the cart is emptied and two messages are added |
| Chatbot.BrowseReply | src/components/Chatbot.tsx:506-711 | Each browsing button adds one assistant message: every featured dish, in menu order; the first six featured dishes, or the first six dishes when none is featured; the first twelve; the cart report exactly when the cart has items; the first six dishes of a category, in menu order; or the invitation to order again |
| Chatbot.FeaturedReply | src/components/Chatbot.tsx:506-518 | `show_featured` lists exactly the featured dishes, available or not, in menu order |
| Chatbot.MenuReply | src/components/Chatbot.tsx:519-536 | `show_menu` lists the first six featured dishes in menu order, or the first six dishes when none is featured |
| Chatbot.CategoryReply | src/components/Chatbot.tsx:699-711 | `show_category` lists the first six dishes of the category, available or not, in menu order, and all of them when fewer |
| Chatbot.ConfirmStep | src/components/Chatbot.tsx:851-867 | The receipt for the cart as it is is appended and the cart is emptied |
| Chatbot.Dispatch | src/components/Chatbot.tsx:492-880 | A button only appends to the conversation; only "sign in" opens the sign-in dialog; only the two add buttons, place order, clear cart and confirm order can change the cart; signed out, the add and place-order buttons leave it unchanged (clear cart and confirm order have no sign-in check); browsing buttons add exactly their reply |
| Chatbot.SignInGate | src/components/Chatbot.tsx:589-601 | Signed out, no ordering button changes the cart; each answers with a sign-in request |
| Chatbot.EmptyCartGate | src/components/Chatbot.tsx:732-745 | With nothing in the cart, placing or clearing the order only adds a browsing offer |
| Chatbot.ConfirmReportsAndClears | src/components/Chatbot.tsx:851-867 | Confirming always empties the cart and the receipt reports what it held |
| Chatbot.PlaceOrderOutcome | src/components/Chatbot.tsx:769-811 | A non-empty order either keeps the cart and shows suggestions, none already in the cart, with a confirming button, or empties the cart and reports its count and total |
| Chatbot.PlaceThenConfirm | src/components/Chatbot.tsx:769-867 | Declining the suggestions places the same order: the receipt reports the cart placed |
| Chatbot.AddItemReport | src/components/Chatbot.tsx:613-640 | After adding, the cart holds one more of the dish; read from the cart before the add, the reported count is the new count; the reported total is exact for a new line and off by the captured-price difference for a merged one; the suggested dishes are the upsells for the cart before the add, and the message offers more exactly when there are some |
| Chatbot.AddManyReport | src/components/Chatbot.tsx:642-698 | The same for a quantity, read from the cart before the add: the count is the new count, the total is exact unless the dish merges into a line captured at another unit price, and the suggestions are the upsells for the cart before the add |
| Chatbot.SharedSnapshot | src/contexts/CartContext.tsx:26-29 | The cart the confirmation reads when React applies the update at once: the new cart after a merge, because the bumped line object is shared, and the old cart after an append |
| Chatbot.SharedSnapshotCountsTwice | src/components/Chatbot.tsx:621-622 | Read that way, a merged add is counted twice: the reported count exceeds the new cart's count by the added quantity |
| Chatbot.FirstAddHasNoSuggestions | src/components/Chatbot.tsx:621-633 | Since suggestions are computed for the cart before the add, the first dish added to an empty cart never comes with suggestions |
| Chatbot.HandOverThenAdd | src/components/Chatbot.tsx:39-59 | The hand-over's "Add to Order" button adds the handed-over dish to the cart |
| Text.Trim | src/components/Chatbot.tsx:110 | The text between the leading and trailing ECMAScript white space, with nothing but white space cut on either side |
| Text.TrimIdempotent | src/components/Chatbot.tsx:245 | Trimming a trimmed string changes nothing |
| Text.LowerIdempotent | src/components/Chatbot.tsx:125 | Lower-casing twice is lower-casing once |
| Text.ParseInt | src/components/AddRestaurantForm.tsx:276 | No number exactly when no digits follow the leading white space and optional sign |
| Text.ParseIntDigits | src/components/AddRestaurantForm.tsx:276 | `parseInt` reads a leading run of digits and ignores what follows |
| Text.Split | src/components/Chatbot.tsx:240 | At least one piece, none containing the separator |
| Text.JoinSplit | src/components/Chatbot.tsx:240-253 | Joining the pieces of a split gives the string back |
| Text.SplitJoin | src/components/AddRestaurantForm.tsx:278 | Splitting a join of separator-free pieces gives the pieces back |
| Text.FirstSentence | src/components/Chatbot.tsx:350 | A prefix without `.`, `!` or `?`, ending at the first of them |

## Left out

- `get_recommendation` (src/components/Chatbot.tsx:492-504): it waits on a timer and then calls the send handler with the stale input value. Timers and React closures are not modelled, so `Chatbot.Dispatch` requires a different action.
- `generateResponse` (src/components/Chatbot.tsx:402-490) is never called and is not modelled.
- `isTyping`, scrolling, message ids and timestamps, focus handling and the `alert` of `handleOrderAgain` are presentation only.
- The restaurant and menu context sent with each gateway request (src/components/Chatbot.tsx:189-195, 214-227): the gateway parameter stands for the whole server, prompt included.
- The gateway's HTTP status and JSON decoding are folded into one `None` reply.
- Chatbot.Dispatch: the `data` of `add_item_with_quantity` is a non-null object, so it is always accepted.
- Chatbot.AddItemReport: the confirmation is read from the cart as it was before the add. The source reports that when React defers `addToCart`'s updater. When React runs the updater at once and the dish merges into an existing line, the in-place `+=` (src/contexts/CartContext.tsx:28) shows through the line object the component still holds. The source then counts the added dish twice, in the count and in the total. `Chatbot.SharedSnapshot` and `Chatbot.SharedSnapshotCountsTwice` describe that snapshot, but `Chatbot.Dispatch` does not choose between the two schedules.
- Chatbot.AddManyReport: the same two schedules, for a quantity (src/components/Chatbot.tsx:677-678).
- Chatbot.SendMessage: the question and the answer are appended in one step. In the source the answer arrives after the awaited gateway call (src/components/Chatbot.tsx:209-234). Buttons pressed in the meantime act first, and the answer is appended after their messages. That interleaving is not modelled.
- Prices are integer cents. `toFixed(2)` text, the message wording built from the numbers and the `parseFloat` of a submitted price are not modelled. Messages keep the numbers as fields.
- Text.Lower: lower-cases ASCII letters only. Unicode case mapping, and the UTF-16 code units behind `length` and the default sort order, are not modelled; strings are sequences of code points.
- Text.HasWholeWord: the word boundary is `[A-Za-z0-9_]` on the raw text. Escaping of dish names inside the regular expression is assumed correct.
- Submission I/O: the datastore inserts, their errors, the restaurant row itself, and the `restaurant_id`, `category_id` and `is_active` columns. `RestaurantForm.SubmittedRows` covers the remaining contents of the category and item rows and the order they are written in; a failed insert that stops the loop part-way is not modelled.
- The current day and minute of `isOpen` are parameters; `Date` and time zones are not modelled.
- Restaurant.FeaturedItems: orders the featured dishes with the corrected comparator `Restaurant.RankCompare`, not the one at src/contexts/RestaurantContext.tsx:107-112. The two disagree on ordinary input: for [B (rating 0, 1 review), A (no rating, 5 reviews)] the source's comparator returns 0 and keeps [B, A], while the model gives [A, B]. The source's comparator is not a consistent order (see Findings), so on longer lists `sort`'s result with it depends on the engine's sorting algorithm.
- Restaurant.IsOpen: requires that the current restaurant lists the given day. When it does not, the source throws a TypeError reading `is_closed` of undefined (src/contexts/RestaurantContext.tsx:119-122); that error path is not modelled.
- Restaurant.NumberOf: reads a time part as `Number` does only for runs of decimal digits, possibly padded with white space. Other text JavaScript's `Number` accepts, such as "9.5", "+9", "1e1" or "0x9", is read as not a number here.
- OrderHistory.FormatOf: chooses the format only; the locale text is not produced.
- Images, colours, the landing page and the other pages are outside this core.

## Findings

| source | as written | input that shows it | evidently intended | confidence | as-written member | corrected member |
|---|---|---|---|---|---|---|
| src/contexts/RestaurantContext.tsx:107-112 | The comparator tests whether the raw ratings differ but subtracts them with missing values read as 0. | A has no rating and 5 reviews, B has rating 0 and 1 review, C has no rating and 1 review. A ties B, B ties C, but A sorts before C, so the order handed to `sort` is inconsistent. | Compare the defaulted ratings, then the defaulted review counts. | not executed | Restaurant.SourceCompareInconsistent | Restaurant.RankCompareConsistent |
| src/components/AddRestaurantForm.tsx:64-72 | The form stores each day's closed flag as `closed`, but both `isOpen` checks read `is_closed` (src/contexts/RestaurantContext.tsx:122, src/components/RestaurantBrowser.tsx:86). | Monday ticked closed with the default 09:00-21:00 hours reads as open at 12:00. | Store the flag under `is_closed`, so that a day ticked closed is closed. | not executed | RestaurantForm.ClosedDayReadsOpen | RestaurantForm.StoredDayHonoursClosed |

=== FILE: browser.dfy ===
/** The restaurant directory: the cuisine drop-down, the search-and-cuisine filter
    and the per-restaurant opening check. */
module Browser {
  import opened Domain
  import Seqs
  import Text
  import Ctx = Restaurant

  /** The cuisine of every listed restaurant, in list order. */
  function CuisinesOf(rs: seq<Restaurant>): (r: seq<string>)
    ensures |r| == |rs|
    ensures forall i :: 0 <= i < |rs| ==> r[i] == rs[i].cuisineType
  {
    seq(|rs|, i requires 0 <= i < |rs| => rs[i].cuisineType)
  }

  /** The drop-down options: "all" followed by each cuisine once, in order of first listing. */
  function CuisineOptions(rs: seq<Restaurant>): (r: seq<string>)
    ensures |r| >= 1 && r[0] == "all"
    ensures forall c :: c in r[1..] <==> exists i :: 0 <= i < |rs| && rs[i].cuisineType == c
    ensures forall i, j :: 1 <= i < j < |r| ==> r[i] != r[j]
    ensures forall i :: 1 <= i < |r| ==> r[i] in CuisinesOf(rs)
    ensures forall i, j :: 1 <= i < j < |r| ==>
              Seqs.FirstIndex(CuisinesOf(rs), r[i]) < Seqs.FirstIndex(CuisinesOf(rs), r[j])
  {
    var cs := CuisinesOf(rs);
    var d := Seqs.Distinct(cs);
    assert (["all"] + d)[1..] == d;
    assert forall i :: 1 <= i < |d| + 1 ==> (["all"] + d)[i] == d[i - 1];
    forall c | c in d ensures exists i :: 0 <= i < |rs| && rs[i].cuisineType == c {
      var i :| 0 <= i < |cs| && cs[i] == c;
    }
    forall c | (exists i :: 0 <= i < |rs| && rs[i].cuisineType == c) ensures c in d {
      var i :| 0 <= i < |rs| && rs[i].cuisineType == c;
      assert cs[i] == c;
    }
    ["all"] + d
  }

  /** The query occurs, ignoring case, in the name, the cuisine or the city. */
  predicate MatchesSearch(r: Restaurant, q: string) {
    || Text.Contains(Text.Lower(r.name), Text.Lower(q))
    || Text.Contains(Text.Lower(r.cuisineType), Text.Lower(q))
    || Text.Contains(Text.Lower(r.city), Text.Lower(q))
  }

  predicate MatchesCuisine(r: Restaurant, selected: string) {
    selected == "all" || r.cuisineType == selected
  }

  predicate Shown(q: string, selected: string, r: Restaurant) {
    MatchesSearch(r, q) && MatchesCuisine(r, selected)
  }

  /** `filteredRestaurants`: the listed restaurants, in order, that match both the search
      text and the chosen cuisine. */
  function FilterRestaurants(rs: seq<Restaurant>, q: string, selected: string): (r: seq<Restaurant>)
    ensures forall x :: x in r <==> x in rs && MatchesSearch(x, q) && MatchesCuisine(x, selected)
    ensures Seqs.IsSubseq(r, rs)
  {
    Seqs.FilterIsSubseq(rs, (x: Restaurant) => Shown(q, selected, x));
    Seqs.Filter(rs, (x: Restaurant) => Shown(q, selected, x))
  }

  /** The empty string occurs in every string. */
  lemma ContainsEmpty(s: string)
    ensures Text.Contains(s, "")
  {
    assert Text.SubstringAt(s, "", 0);
  }

  /** With an empty search and "all" selected, the whole list is shown, in order. */
  lemma EmptySearchShowsAll(rs: seq<Restaurant>)
    ensures FilterRestaurants(rs, "", "all") == rs
  {
    forall x | x in rs ensures Shown("", "all", x) {
      assert Text.Lower("") == "";
      ContainsEmpty(Text.Lower(x.name));
    }
    Seqs.FilterKeepsAll(rs, (x: Restaurant) => Shown("", "all", x));
  }

  /** Lower-casing commutes with taking a slice. */
  lemma LowerSlice(s: string, i: nat, j: nat)
    requires i <= j <= |s|
    ensures Text.Lower(s)[i..j] == Text.Lower(s[i..j])
  {
  }

  /** Occurrence is transitive: an occurrence of a string that contains `w` contains `w`. */
  lemma ContainsTrans(s: string, v: string, w: string)
    requires Text.Contains(s, v) && Text.Contains(v, w)
    ensures Text.Contains(s, w)
  {
    var i :| 0 <= i <= |s| - |v| && Text.SubstringAt(s, v, i);
    var j :| 0 <= j <= |v| - |w| && Text.SubstringAt(v, w, j);
    forall k | 0 <= k < |w| ensures s[i + j + k] == w[k] {
      assert s[i..i + |v|][j + k] == v[j + k];
      assert v[j..j + |w|][k] == w[k];
    }
    assert s[i + j..i + j + |w|] == w;
    assert Text.SubstringAt(s, w, i + j);
  }

  /** Case-insensitive occurrence survives lower-casing both sides. */
  lemma ContainsLower(v: string, w: string)
    requires Text.Contains(v, w)
    ensures Text.Contains(Text.Lower(v), Text.Lower(w))
  {
    var j :| 0 <= j <= |v| - |w| && Text.SubstringAt(v, w, j);
    LowerSlice(v, j, j + |w|);
    assert Text.SubstringAt(Text.Lower(v), Text.Lower(w), j);
  }

  /** Typing more narrows the list: every restaurant shown for a query is shown for
      any part of that query. */
  lemma LongerQueryNarrows(rs: seq<Restaurant>, q: string, part: string, selected: string)
    requires Text.Contains(q, part)
    ensures forall x :: x in FilterRestaurants(rs, q, selected) ==> x in FilterRestaurants(rs, part, selected)
  {
    ContainsLower(q, part);
    forall x | x in FilterRestaurants(rs, q, selected) ensures MatchesSearch(x, part) {
      if Text.Contains(Text.Lower(x.name), Text.Lower(q)) {
        ContainsTrans(Text.Lower(x.name), Text.Lower(q), Text.Lower(part));
      } else if Text.Contains(Text.Lower(x.cuisineType), Text.Lower(q)) {
        ContainsTrans(Text.Lower(x.cuisineType), Text.Lower(q), Text.Lower(part));
      } else {
        ContainsTrans(Text.Lower(x.city), Text.Lower(q), Text.Lower(part));
      }
    }
  }

  /** Every drop-down option other than "all" keeps at least one restaurant when the search is empty. */
  lemma EveryCuisineOptionNonEmpty(rs: seq<Restaurant>, k: nat)
    requires 1 <= k < |CuisineOptions(rs)|
    ensures |FilterRestaurants(rs, "", CuisineOptions(rs)[k])| > 0
  {
    var opts := CuisineOptions(rs);
    var c := opts[k];
    assert c in opts[1..] by { assert opts[1..][k - 1] == c; }
    var i :| 0 <= i < |rs| && rs[i].cuisineType == c;
    assert Text.Lower("") == "";
    ContainsEmpty(Text.Lower(rs[i].name));
    assert rs[i] in FilterRestaurants(rs, "", c);
  }

  /** `isOpen` of the directory: unlike the restaurant context, a restaurant whose hours
      lack today's entry is shown as closed. */
  function IsOpen(r: Restaurant, day: Weekday, now: int): (b: bool)
    ensures day !in r.hours ==> !b
    ensures day in r.hours ==> (b <==> Ctx.IsOpen(Some(r), day, now))
  {
    day in r.hours && Ctx.OpenDuring(r.hours[day], now)
  }
}

=== FILE: cart.dfy ===
/** The cart store: an ordered list of cart lines. Adding a line whose menu item
    and customisations equal an existing line's increments that line instead of
    appending, so no two lines share that pair. */
module Cart {
  import opened Domain
  import Seqs

  type Cart = seq<CartLine>

  /** Two lines are merged by `addToCart` when their item ids and customisations agree. */
  predicate SameKey(a: CartLine, b: CartLine) {
    a.menuItemId == b.menuItemId && a.customizations == b.customizations
  }

  /** The cart invariant: no two lines share a (menu item, customisations) pair. */
  predicate KeysUnique(c: Cart) {
    forall i, j :: 0 <= i < j < |c| ==> !SameKey(c[i], c[j])
  }

  function Quantity(l: CartLine): int { l.quantity }

  /** Sum of `f` over the lines, accumulated left to right as `reduce` does. */
  function SumOf(c: Cart, f: CartLine -> int): int
    decreases |c|
  {
    if |c| == 0 then 0 else SumOf(c[..|c| - 1], f) + f(c[|c| - 1])
  }

  function ModifierSum(cs: seq<Customization>): int
    decreases |cs|
  {
    if |cs| == 0 then 0 else ModifierSum(cs[..|cs| - 1]) + cs[|cs| - 1].priceModifier
  }

  /** Unit price of a line including its customisation modifiers. */
  function UnitPrice(l: CartLine): int { l.price + ModifierSum(l.customizations) }

  function LineTotal(l: CartLine): int { UnitPrice(l) * l.quantity }

  /** `getCartItemCount`. */
  function ItemCount(c: Cart): int { SumOf(c, Quantity) }

  /** `getCartTotal`. */
  function CartTotal(c: Cart): int { SumOf(c, LineTotal) }

  lemma {:induction false} SumOfUpdate(c: Cart, i: nat, x: CartLine, f: CartLine -> int)
    requires i < |c|
    ensures SumOf(c[i := x], f) == SumOf(c, f) - f(c[i]) + f(x)
    decreases |c|
  {
    var n := |c| - 1;
    if i < n {
      SumOfUpdate(c[..n], i, x, f);
      assert c[i := x][..n] == c[..n][i := x];
    } else {
      assert c[i := x][..n] == c[..n];
    }
  }

  lemma SumOfAppend(c: Cart, x: CartLine, f: CartLine -> int)
    ensures SumOf(c + [x], f) == SumOf(c, f) + f(x)
  {
    assert (c + [x])[..|c|] == c;
  }

  /** `findIndex` of a line that `item` would merge into. */
  function FindLine(c: Cart, item: CartLine): (r: Option<nat>)
    ensures r.Some? ==> r.value < |c| && SameKey(c[r.value], item)
                        && forall j :: 0 <= j < r.value ==> !SameKey(c[j], item)
    ensures r.None? ==> forall j :: 0 <= j < |c| ==> !SameKey(c[j], item)
    decreases |c|
  {
    if |c| == 0 then None
    else if SameKey(c[0], item) then Some(0)
    else match FindLine(c[1..], item)
      case None => None
      case Some(k) => Some(k + 1)
  }

  /** `addToCart`: increments the matching line by the item's quantity, or appends the item. */
  function AddToCart(c: Cart, item: CartLine): (r: Cart)
    ensures FindLine(c, item).None? ==> r == c + [item]
    ensures FindLine(c, item).Some? ==>
              var i := FindLine(c, item).value;
              |r| == |c| && r[i] == c[i].(quantity := c[i].quantity + item.quantity)
              && forall j :: 0 <= j < |c| && j != i ==> r[j] == c[j]
  {
    match FindLine(c, item)
    case None => c + [item]
    case Some(i) => c[i := c[i].(quantity := c[i].quantity + item.quantity)]
  }

  /** Adding grows the item count by exactly the added quantity. */
  lemma AddToCartCount(c: Cart, item: CartLine)
    ensures ItemCount(AddToCart(c, item)) == ItemCount(c) + item.quantity
  {
    match FindLine(c, item)
    case None => SumOfAppend(c, item, Quantity);
    case Some(i) => SumOfUpdate(c, i, c[i].(quantity := c[i].quantity + item.quantity), Quantity);
  }

  /** Adding grows the total by the added quantity at the unit price of the line it lands in:
      the existing line's captured price when merged, the item's own price when appended. */
  lemma AddToCartTotal(c: Cart, item: CartLine)
    ensures FindLine(c, item).None? ==> CartTotal(AddToCart(c, item)) == CartTotal(c) + LineTotal(item)
    ensures FindLine(c, item).Some? ==>
      CartTotal(AddToCart(c, item)) == CartTotal(c) + UnitPrice(c[FindLine(c, item).value]) * item.quantity
  {
    match FindLine(c, item)
    case None => SumOfAppend(c, item, LineTotal);
    case Some(i) =>
      var x := c[i].(quantity := c[i].quantity + item.quantity);
      assert AddToCart(c, item) == c[i := x];
      SumOfUpdate(c, i, x, LineTotal);
      LineTotalGrows(c[i], item.quantity);
  }

  lemma LineTotalGrows(l: CartLine, d: int)
    ensures LineTotal(l.(quantity := l.quantity + d)) == LineTotal(l) + UnitPrice(l) * d
  {
    var u := UnitPrice(l);
    assert UnitPrice(l.(quantity := l.quantity + d)) == u;
    assert u * (l.quantity + d) == u * l.quantity + u * d;
  }

  /** `addToCart` keeps the cart invariant and never changes the set of keys except by the new one. */
  lemma AddToCartKeepsKeysUnique(c: Cart, item: CartLine)
    ensures KeysUnique(c) ==> KeysUnique(AddToCart(c, item))
    ensures |AddToCart(c, item)| == if FindLine(c, item).Some? then |c| else |c| + 1
  {
  }

  /** `removeFromCart`: drops every line of that menu item, whatever its customisations. */
  function RemoveFromCart(c: Cart, id: string): (r: Cart)
    ensures forall l :: l in r <==> l in c && l.menuItemId != id
    ensures Seqs.IsSubseq(r, c)
  {
    Seqs.FilterIsSubseq(c, (l: CartLine) => l.menuItemId != id);
    Seqs.Filter(c, (l: CartLine) => l.menuItemId != id)
  }

  /** `updateQuantity`: a non-positive quantity removes the item; otherwise every line of that
      item takes the new quantity and nothing else changes. */
  function UpdateQuantity(c: Cart, id: string, q: int): (r: Cart)
    ensures q <= 0 ==> r == RemoveFromCart(c, id)
    ensures q > 0 ==> |r| == |c| && forall i :: 0 <= i < |c| ==>
              r[i].menuItemId == c[i].menuItemId && r[i].name == c[i].name && r[i].price == c[i].price
              && r[i].customizations == c[i].customizations
              && r[i].quantity == (if c[i].menuItemId == id then q else c[i].quantity)
  {
    if q <= 0 then RemoveFromCart(c, id)
    else seq(|c|, i requires 0 <= i < |c| => if c[i].menuItemId == id then c[i].(quantity := q) else c[i])
  }

  /** Removing and updating keep the cart invariant. */
  lemma EditsKeepKeysUnique(c: Cart, id: string, q: int)
    requires KeysUnique(c)
    ensures KeysUnique(RemoveFromCart(c, id))
    ensures KeysUnique(UpdateQuantity(c, id, q))
  {
    SubseqKeepsKeysUnique(RemoveFromCart(c, id), c);
  }

  lemma {:induction false} SubseqKeepsKeysUnique(a: Cart, b: Cart)
    requires Seqs.IsSubseq(a, b) && KeysUnique(b)
    ensures KeysUnique(a)
    decreases |b|
  {
    if |a| > 0 {
      if a[0] == b[0] {
        SubseqKeepsKeysUnique(a[1..], b[1..]);
        Seqs.SubseqMembers(a[1..], b[1..]);
        forall j | 0 < j < |a| ensures !SameKey(a[0], a[j]) {
          assert a[j] == a[1..][j - 1];
          assert a[j] in a[1..];
          assert a[j] in b[1..];
          var k :| 0 <= k < |b[1..]| && b[1..][k] == a[j];
          assert b[k + 1] == a[j];
        }
      } else {
        SubseqKeepsKeysUnique(a, b[1..]);
      }
    }
  }

  /** After `clearCart` the count and the total are both zero. */
  function ClearCart(): (r: Cart)
    ensures ItemCount(r) == 0 && CartTotal(r) == 0
  {
    []
  }

  /** Adding the same line twice to an empty cart gives one line with the quantities summed. */
  lemma AddTwiceMerges(x: CartLine)
    ensures AddToCart(AddToCart([], x), x) == [x.(quantity := x.quantity + x.quantity)]
    ensures ItemCount(AddToCart(AddToCart([], x), x)) == x.quantity + x.quantity
  {
    var c := AddToCart([], x);
    assert c == [x];
    assert FindLine(c, x) == Some(0);
    AddToCartCount(c, x);
    AddToCartCount([], x);
  }

  /** One item at 10.00 added once and then set to three: count 3, total 30.00. */
  lemma AddThenUpdateExample()
    ensures var c := UpdateQuantity(AddToCart([], CartLine("A", "Pizza", 1000, 1, [])), "A", 3);
            ItemCount(c) == 3 && CartTotal(c) == 3000
  {
    var x := CartLine("A", "Pizza", 1000, 1, []);
    var c := UpdateQuantity(AddToCart([], x), "A", 3);
    assert AddToCart([], x) == [x];
    assert c == [x.(quantity := 3)];
    assert c[..0] == [];
  }
}

=== FILE: chatbot.dfy ===
/** The ordering assistant's panel: the greeting, the hand-over of a dish from a
    menu page, sending a message through the allergy guard, the direct rules and
    the gateway, and the suggested-action buttons that browse the menu and edit,
    place, confirm and clear the order. The panel's conversation, the signed-in
    flag and the cart are one `Session` value; every handler maps a session to
    the next. */
module Chatbot {
  import opened Domain
  import Seqs
  import Text
  import Cart
  import Intent
  import Sanitizer
  import Upsell
  import ChatbotState

  /** What the panel reads from the restaurant store: the current restaurant (if loaded), its
      menu and its categories. */
  datatype Store = Store(restaurant: Option<Restaurant>, menu: seq<MenuItem>, categories: seq<MenuCategory>)

  /** The state the panel's handlers change: whether someone is signed in, the cart, the
      conversation and whether the sign-in dialog is open. */
  datatype Session = Session(signedIn: bool, cart: Cart.Cart, log: seq<Message>, authOpen: bool)

  function Say(body: Body, items: seq<MenuItem>, actions: seq<SuggestedAction>): Message {
    Message(Assistant, body, items, actions)
  }

  function UserSays(body: Body): Message {
    Message(User, body, [], [])
  }

  /** The id of the current restaurant, or none; `getUpsellItems` offers nothing without one. */
  function RestaurantId(st: Store): string {
    if st.restaurant.Some? then st.restaurant.value.id else ""
  }

  /** `getUpsellItems` for the cart `c`. */
  function UpsellsFor(st: Store, c: Cart.Cart): (r: seq<MenuItem>)
    ensures st.restaurant.None? || |c| == 0 ==> r == []
    ensures |r| <= 3 && forall x :: x in r ==> x in st.menu && x.id !in Upsell.CartItemIds(c)
  {
    if st.restaurant.None? then [] else Upsell.Upsells(c, st.menu, st.categories, RestaurantId(st))
  }

  // ----- Greeting and clearing -----

  function GreetingOf(r: Restaurant): Message {
    Say(Greeting(r.name, r.cuisineType), [], [
      SuggestedAction("Show Me Popular Dishes", ShowFeatured),
      SuggestedAction("Browse Full Menu", ShowMenu),
      SuggestedAction("Surprise Me!", GetRecommendation)
    ])
  }

  /** The greeting effect: an open panel with an empty conversation and a loaded restaurant
      starts with the greeting. */
  function GreetIfEmpty(s: Session, st: Store, open: bool): (r: Session)
    ensures r.cart == s.cart && r.signedIn == s.signedIn
    ensures open && |s.log| == 0 && st.restaurant.Some? ==> r.log == [GreetingOf(st.restaurant.value)]
    ensures !(open && |s.log| == 0 && st.restaurant.Some?) ==> r == s
  {
    if open && |s.log| == 0 && st.restaurant.Some? then s.(log := [GreetingOf(st.restaurant.value)]) else s
  }

  /** `handleClearChat`: the conversation starts over with the greeting; the cart stays. */
  function ClearChat(s: Session, st: Store): (r: Session)
    ensures r.cart == s.cart && r.signedIn == s.signedIn
    ensures st.restaurant.Some? ==> r.log == [GreetingOf(st.restaurant.value)]
    ensures st.restaurant.None? ==> r == s
  {
    if st.restaurant.Some? then s.(log := [GreetingOf(st.restaurant.value)]) else s
  }

  /** The greeting is shown once: the effect does nothing to a greeted or cleared panel. */
  lemma GreetingShownOnce(s: Session, st: Store, open: bool)
    ensures GreetIfEmpty(GreetIfEmpty(s, st, open), st, open) == GreetIfEmpty(s, st, open)
    ensures GreetIfEmpty(ClearChat(s, st), st, open) == ClearChat(s, st)
  {
  }

  // ----- Hand-over from a menu page -----

  /** The pending-item effect: a dish handed over by a page and found on the menu gets a
      message with its card and three buttons, and the hand-over is consumed; a dish not on
      the menu stays pending and nothing is said. */
  function ShowPendingItem(s: Session, st: Store, cs: ChatbotState.State): (r: (Session, ChatbotState.State))
    ensures r.0.cart == s.cart && r.0.signedIn == s.signedIn && r.1.isOpen == cs.isOpen
    ensures cs.pending.Some? && st.restaurant.Some? && Upsell.FindById(st.menu, cs.pending.value.id).Some? ==>
              var item := Upsell.FindById(st.menu, cs.pending.value.id).value;
              && r.1.pending.None?
              && r.0.log == s.log + [Say(ItemSelected(item.name), [item], ItemButtons(item))]
    ensures cs.pending.None? || st.restaurant.None? || Upsell.FindById(st.menu, cs.pending.value.id).None? ==>
              r == (s, cs)
  {
    if cs.pending.None? || st.restaurant.None? then (s, cs)
    else match Upsell.FindById(st.menu, cs.pending.value.id)
      case None => (s, cs)
      case Some(item) =>
        (s.(log := s.log + [Say(ItemSelected(item.name), [item], ItemButtons(item))]),
         ChatbotState.ClearPendingItem(cs))
  }

  function ItemButtons(item: MenuItem): seq<SuggestedAction> {
    [
      SuggestedAction("Add to Order", AddItem(item.id)),
      SuggestedAction("View Similar Items", ShowCategory(item.categoryId)),
      SuggestedAction("Keep Browsing", ShowMenu)
    ]
  }

  /** The effect consumes a hand-over once: running it again changes nothing. */
  lemma PendingItemShownOnce(s: Session, st: Store, cs: ChatbotState.State)
    ensures var r := ShowPendingItem(s, st, cs);
            ShowPendingItem(r.0, st, r.1) == r
  {
  }

  // ----- Sending a message -----

  /** A turn of the conversation as sent to the gateway. */
  datatype Turn = Turn(role: Role, content: Body)

  /** The gateway: the reply text for a conversation, or none when the request fails. */
  type Gateway = seq<Turn> -> Option<string>

  function TurnsOf(log: seq<Message>): (r: seq<Turn>)
    ensures |r| == |log| && forall k :: 0 <= k < |log| ==> r[k] == Turn(log[k].role, log[k].body)
  {
    seq(|log|, k requires 0 <= k < |log| => Turn(log[k].role, log[k].body))
  }

  /** The conversation the gateway receives: the messages before this one (the handler's
      snapshot) and then the new message. */
  function GatewayTurns(history: seq<Message>, input: string): (r: seq<Turn>)
    ensures |r| == |history| + 1 && r[|history|] == Turn(User, Text(input))
    ensures r[..|history|] == TurnsOf(history)
  {
    TurnsOf(history) + [Turn(User, Text(input))]
  }

  /** The assistant's answer to `input`, given the conversation before it. */
  function Answer(st: Store, input: string, history: seq<Message>, gateway: Gateway): (r: Message)
    requires st.restaurant.Some?
    ensures r.role == Assistant
    ensures forall x :: x in r.items ==> x in st.menu
    ensures Intent.IsAllergyQuery(Text.Lower(input)) ==>
              r.items == [] && r.body == AllergyWarning(Intent.ContactOf(st.restaurant.value.phone))
    ensures var q := Text.Lower(input);
            var direct := Intent.DirectItems(st.menu, q);
            !Intent.IsAllergyQuery(q) && direct.Some? && |direct.value| > 0 ==>
              r == Say(Canned(Intent.DirectText(Intent.Classify(q).value)), direct.value, [])
    ensures var q := Text.Lower(input);
            var direct := Intent.DirectItems(st.menu, q);
            !Intent.IsAllergyQuery(q) && !(direct.Some? && |direct.value| > 0) ==>
              r == FromGateway(st.menu, q, gateway(GatewayTurns(history, input)))
  {
    var q := Text.Lower(input);
    if Intent.IsAllergyQuery(q) then
      Say(AllergyWarning(Intent.ContactOf(st.restaurant.value.phone)), [], Intent.AllergyActions)
    else
      var direct := Intent.DirectItems(st.menu, q);
      if direct.Some? && |direct.value| > 0 then
        Seqs.SubseqMembers(direct.value, st.menu);
        Say(Canned(Intent.DirectText(Intent.Classify(q).value)), direct.value, [])
      else
        FromGateway(st.menu, q, gateway(GatewayTurns(history, input)))
  }

  /** The message made from the gateway's reply, or the apology when the request failed. */
  function FromGateway(menu: seq<MenuItem>, q: string, reply: Option<string>): (r: Message)
    ensures r.role == Assistant && r.actions == []
    ensures reply.None? ==> r == Say(Canned(ConnectionTrouble), [], [])
    ensures reply.Some? ==> r.body == Text(Sanitizer.Sanitize(menu, reply.value, q).content)
                            && r.items == Sanitizer.Sanitize(menu, reply.value, q).items
    ensures forall x :: x in r.items ==> x in menu
  {
    match reply
    case None => Say(Canned(ConnectionTrouble), [], [])
    case Some(raw) =>
      var rp := Sanitizer.Sanitize(menu, raw, q);
      Say(Text(rp.content), rp.items, [])
  }

  /** `handleSendMessage`: a blank message, or no restaurant, changes nothing; otherwise the
      user's message and the answer are appended, and nothing else changes. */
  function SendMessage(s: Session, st: Store, input: string, gateway: Gateway): (r: Session)
    ensures Text.Trim(input) == "" || st.restaurant.None? ==> r == s
    ensures r.cart == s.cart && r.signedIn == s.signedIn && r.authOpen == s.authOpen
    ensures Text.Trim(input) != "" && st.restaurant.Some? ==>
              && |r.log| == |s.log| + 2
              && r.log[..|s.log|] == s.log
              && r.log[|s.log|] == UserSays(Text(input))
              && r.log[|s.log| + 1] == Answer(st, input, s.log, gateway)
  {
    if Text.Trim(input) == "" || st.restaurant.None? then s
    else s.(log := s.log + [UserSays(Text(input)), Answer(st, input, s.log, gateway)])
  }

  /** An allergy question and a question a direct rule answers never reach the gateway: the
      answer is the same whatever the gateway would say. */
  lemma AnsweredWithoutGateway(st: Store, input: string, history: seq<Message>, g1: Gateway, g2: Gateway)
    requires st.restaurant.Some?
    requires var q := Text.Lower(input);
             Intent.IsAllergyQuery(q)
             || (Intent.DirectItems(st.menu, q).Some? && |Intent.DirectItems(st.menu, q).value| > 0)
    ensures Answer(st, input, history, g1) == Answer(st, input, history, g2)
  {
  }

  /** Otherwise the answer depends on the gateway only through its reply to the earlier
      conversation followed by the new message, which it receives exactly once. */
  lemma GatewaySeesConversation(st: Store, input: string, history: seq<Message>, g1: Gateway, g2: Gateway)
    requires st.restaurant.Some?
    requires g1(GatewayTurns(history, input)) == g2(GatewayTurns(history, input))
    ensures Answer(st, input, history, g1) == Answer(st, input, history, g2)
  {
  }

  /** A direct answer lists exactly the rule's dishes: at most twelve, in menu order, each kept
      by the rule the message selects; the popularity rule alone may list unavailable dishes. */
  lemma DirectAnswerCards(st: Store, input: string, history: seq<Message>, g: Gateway)
    requires st.restaurant.Some?
    requires var q := Text.Lower(input);
             !Intent.IsAllergyQuery(q)
             && Intent.DirectItems(st.menu, q).Some? && |Intent.DirectItems(st.menu, q).value| > 0
    ensures var r := Answer(st, input, history, g);
            var rule := Intent.Classify(Text.Lower(input)).value;
            && r.items == Intent.DirectItems(st.menu, Text.Lower(input)).value
            && |r.items| <= 12 && Seqs.IsSubseq(r.items, st.menu)
            && (forall x :: x in r.items ==> Intent.DirectKeeps(rule, x))
            && (rule != Intent.PopularRule ==> forall x :: x in r.items ==> x.isAvailable)
            && r.body == Canned(Intent.DirectText(rule))
  {
  }

  /** A failed gateway request ends in the apology, without cards. */
  lemma GatewayFailure(st: Store, input: string, history: seq<Message>, g: Gateway)
    requires st.restaurant.Some?
    requires var q := Text.Lower(input);
             !Intent.IsAllergyQuery(q)
             && !(Intent.DirectItems(st.menu, q).Some? && |Intent.DirectItems(st.menu, q).value| > 0)
    requires g(GatewayTurns(history, input)).None?
    ensures Answer(st, input, history, g) == Say(Canned(ConnectionTrouble), [], [])
  {
  }

  // ----- Suggested actions -----

  const BrowseButtons: seq<SuggestedAction> := [
    SuggestedAction("View Popular Items", ShowFeatured),
    SuggestedAction("Browse Menu", ShowMenu)
  ]

  const SignInButtons: seq<SuggestedAction> := [
    SuggestedAction("Sign In", ShowAuth),
    SuggestedAction("Keep Browsing", ShowMenu)
  ]

  const AfterAddButtons: seq<SuggestedAction> := [
    SuggestedAction("Place Order", PlaceOrder),
    SuggestedAction("View Cart", ShowCart),
    SuggestedAction("Keep Browsing", ShowMenu)
  ]

  const CheckoutButtons: seq<SuggestedAction> := [
    SuggestedAction("No Thanks, Place Order", ConfirmOrder),
    SuggestedAction("Keep Browsing", ShowMenu)
  ]

  function Append(s: Session, ms: seq<Message>): (r: Session)
    ensures r == s.(log := s.log + ms)
  {
    s.(log := s.log + ms)
  }

  /** The order receipt with the cart's count and total. */
  function Receipt(c: Cart.Cart): Message {
    Say(OrderReceived(Cart.ItemCount(c), Cart.CartTotal(c)), [], [SuggestedAction("Start New Order", NewOrder)])
  }

  /** `add_item`: signed-out users are asked to sign in; a dish on the menu is added once. The
      confirmation's count and total are the cart's before the add plus one dish, and its
      suggestions are computed for the cart before the add. */
  function AddOne(s: Session, st: Store, id: string): (r: Session)
    ensures r.signedIn == s.signedIn && r.authOpen == s.authOpen
    ensures !s.signedIn ==> r == Append(s, [Say(Canned(SignInToAdd), [], SignInButtons)])
    ensures s.signedIn && Upsell.FindById(st.menu, id).None? ==> r == s
  {
    if !s.signedIn then Append(s, [Say(Canned(SignInToAdd), [], SignInButtons)])
    else match Upsell.FindById(st.menu, id)
      case None => s
      case Some(item) =>
        var line := CartLine(item.id, item.name, item.price, 1, []);
        var newTotal := Cart.CartTotal(s.cart) + item.price;
        var newCount := Cart.ItemCount(s.cart) + 1;
        var ups := UpsellsFor(st, s.cart);
        var confirm := Say(AddedOne(item.name, item.price, newCount, newTotal, |ups| > 0), ups, AfterAddButtons);
        Append(s.(cart := Cart.AddToCart(s.cart, line)), [UserSays(AddRequest(item.name)), confirm])
  }

  /** `add_item_with_quantity`: as `add_item`, for `quantity` of the dish at once. */
  function AddMany(s: Session, st: Store, id: string, quantity: int): (r: Session)
    ensures r.signedIn == s.signedIn && r.authOpen == s.authOpen
    ensures !s.signedIn ==> r == Append(s, [Say(Canned(SignInToAdd), [], SignInButtons)])
    ensures s.signedIn && Upsell.FindById(st.menu, id).None? ==> r == s
  {
    if !s.signedIn then Append(s, [Say(Canned(SignInToAdd), [], SignInButtons)])
    else match Upsell.FindById(st.menu, id)
      case None => s
      case Some(item) =>
        var line := CartLine(item.id, item.name, item.price, quantity, []);
        var itemTotal := item.price * quantity;
        var newTotal := Cart.CartTotal(s.cart) + itemTotal;
        var newCount := Cart.ItemCount(s.cart) + quantity;
        var ups := UpsellsFor(st, s.cart);
        var confirm := Say(AddedMany(item.name, quantity, itemTotal, newCount, newTotal, |ups| > 0), ups,
                           AfterAddButtons + [SuggestedAction("Clear Cart", ClearCart)]);
        Append(s.(cart := Cart.AddToCart(s.cart, line)), [UserSays(AddQuantityRequest(item.name, quantity)), confirm])
  }

  /** `place_order`: signed-out users are asked to sign in; an empty cart is reported; a cart
      with something to suggest gets the suggestions and keeps waiting; otherwise the order is
      received and the cart cleared. */
  function PlaceOrderStep(s: Session, st: Store): (r: Session)
    ensures r.signedIn == s.signedIn && r.authOpen == s.authOpen
    ensures !s.signedIn ==> r == Append(s, [Say(Canned(SignInToOrder), [], [SuggestedAction("Sign In", ShowAuth)])])
    ensures s.signedIn && Cart.ItemCount(s.cart) == 0 ==> r == Append(s, [Say(Canned(EmptyCartHelp), [], BrowseButtons)])
    ensures s.signedIn && Cart.ItemCount(s.cart) != 0 ==>
              var offers := CheckoutOffersFor(st, s.cart);
              && |r.log| == |s.log| + 2
              && r.log[..|s.log|] == s.log
              && (|offers| > 0 ==> r.cart == s.cart && r.log[|s.log| + 1] == Say(Canned(BeforeCheckout), offers, CheckoutButtons))
              && (|offers| == 0 ==> r.cart == [] && r.log[|s.log| + 1] == Receipt(s.cart))
  {
    if !s.signedIn then Append(s, [Say(Canned(SignInToOrder), [], [SuggestedAction("Sign In", ShowAuth)])])
    else if Cart.ItemCount(s.cart) == 0 then Append(s, [Say(Canned(EmptyCartHelp), [], BrowseButtons)])
    else
      var offers := CheckoutOffersFor(st, s.cart);
      if |offers| > 0 then
        Append(s, [UserSays(Canned(PlaceMyOrder)), Say(Canned(BeforeCheckout), offers, CheckoutButtons)])
      else
        Append(s.(cart := Cart.ClearCart()), [UserSays(Canned(PlaceMyOrder)), Receipt(s.cart)])
  }

  /** `allUpsells` of `place_order`. */
  function CheckoutOffersFor(st: Store, c: Cart.Cart): (r: seq<MenuItem>)
    ensures |r| <= 3 && forall x :: x in r ==> x in st.menu && x.id !in Upsell.CartItemIds(c)
  {
    if st.restaurant.None? then
      var s := Upsell.SmallerItems(c, st.menu);
      Seqs.SubseqMembers(s, st.menu);
      Seqs.Take(s, 3)
    else Upsell.CheckoutOffers(c, st.menu, st.categories, RestaurantId(st))
  }

  /** `clear_cart`: an empty cart is reported; otherwise the cart is emptied. No sign-in needed. */
  function ClearCartStep(s: Session): (r: Session)
    ensures Cart.ItemCount(s.cart) == 0 ==> r == Append(s, [Say(Canned(AlreadyEmpty), [], BrowseButtons)])
    ensures Cart.ItemCount(s.cart) != 0 ==> r.cart == [] && |r.log| == |s.log| + 2
  {
    if Cart.ItemCount(s.cart) == 0 then Append(s, [Say(Canned(AlreadyEmpty), [], BrowseButtons)])
    else Append(s.(cart := Cart.ClearCart()), [UserSays(Canned(ClearMyCart)), Say(Canned(CartCleared), [], BrowseButtons)])
  }

  /** The buttons that only show something: they add one assistant message and change nothing
      else. */
  predicate IsBrowse(action: Action) {
    || action.ShowFeatured? || action.ShowMenu? || action.ShowAllItems? || action.ShowCart?
    || (action.ShowCategory? && action.categoryId != "") || action.NewOrder?
  }

  /** A category's dishes, available or not (`show_category` does not check availability). */
  function InCategory(cid: string): MenuItem -> bool {
    (x: MenuItem) => x.categoryId == cid
  }

  /** `show_featured`: every featured dish, available or not, in menu order. */
  function FeaturedReply(st: Store): (m: Message)
    ensures m.role == Assistant
    ensures forall x :: x in m.items <==> x in st.menu && x.isFeatured
    ensures Seqs.IsSubseq(m.items, st.menu)
  {
    Seqs.FilterIsSubseq(st.menu, Sanitizer.IsFeatured);
    Say(Canned(FeaturedIntro), Seqs.Filter(st.menu, Sanitizer.IsFeatured), [SuggestedAction("Browse Full Menu", ShowMenu)])
  }

  /** `show_menu`: six popular dishes, or the first six dishes when nothing is featured. */
  function MenuReply(st: Store): (m: Message)
    ensures m.role == Assistant && forall x :: x in m.items ==> x in st.menu
    ensures |m.items| <= 6
    ensures (exists x :: x in st.menu && x.isFeatured) ==> |m.items| > 0 && forall x :: x in m.items ==> x.isFeatured
    ensures var featured := Seqs.Filter(st.menu, Sanitizer.IsFeatured);
            (exists x :: x in st.menu && x.isFeatured) ==>
              |m.items| == (if |featured| < 6 then |featured| else 6) && m.items == featured[..|m.items|]
    ensures !(exists x :: x in st.menu && x.isFeatured) ==>
              |m.items| == (if |st.menu| < 6 then |st.menu| else 6)
              && forall k :: 0 <= k < |m.items| ==> m.items[k] == st.menu[k]
  {
    var popular := Intent.FirstMatches(st.menu, Sanitizer.IsFeatured, 6);
    var first := Seqs.Take(st.menu, 6);
    assert forall k :: 0 <= k < |first| ==> first[k] in st.menu;
    Say(Canned(if |popular| > 0 then PopularIntro else AvailableIntro),
        if |popular| > 0 then popular else first,
        [SuggestedAction("Show More", ShowAllItems), SuggestedAction("View Order", ShowCart)])
  }

  /** `show_category`: the first six dishes of the category, in menu order. */
  function CategoryReply(st: Store, cid: string): (m: Message)
    ensures m.role == Assistant && forall x :: x in m.items ==> x in st.menu
    ensures |m.items| <= 6 && forall x :: x in m.items ==> x.categoryId == cid
    ensures |m.items| < 6 ==> forall x :: x in st.menu && x.categoryId == cid ==> x in m.items
    ensures var dishes := Seqs.Filter(st.menu, InCategory(cid));
            |m.items| == (if |dishes| < 6 then |dishes| else 6) && m.items == dishes[..|m.items|]
  {
    Say(Canned(SimilarIntro), Intent.FirstMatches(st.menu, InCategory(cid), 6), [SuggestedAction("Keep Browsing", ShowMenu)])
  }

  /** The message a browsing button adds: every featured dish; six popular dishes, or the first
      six when nothing is featured; the first twelve; the cart's report; six dishes of a
      category; or the invitation to order again. */
  function BrowseReply(s: Session, st: Store, action: Action): (m: Message)
    requires IsBrowse(action)
    ensures m.role == Assistant && forall x :: x in m.items ==> x in st.menu
    ensures action.ShowFeatured? ==>
              (forall x :: x in m.items <==> x in st.menu && x.isFeatured) && Seqs.IsSubseq(m.items, st.menu)
    ensures action.ShowMenu? ==>
              && |m.items| <= 6
              && ((exists x :: x in st.menu && x.isFeatured) ==> |m.items| > 0 && forall x :: x in m.items ==> x.isFeatured)
              && (var featured := Seqs.Filter(st.menu, Sanitizer.IsFeatured);
                  (exists x :: x in st.menu && x.isFeatured) ==>
                    |m.items| == (if |featured| < 6 then |featured| else 6) && m.items == featured[..|m.items|])
              && (!(exists x :: x in st.menu && x.isFeatured) ==>
                    |m.items| == (if |st.menu| < 6 then |st.menu| else 6)
                    && forall k :: 0 <= k < |m.items| ==> m.items[k] == st.menu[k])
    ensures action.ShowAllItems? ==>
              |m.items| == (if |st.menu| < 12 then |st.menu| else 12)
              && forall k :: 0 <= k < |m.items| ==> m.items[k] == st.menu[k]
    ensures action.ShowCart? ==> m.items == [] && (m.body.CartReport? <==> Cart.ItemCount(s.cart) > 0)
    ensures action.ShowCategory? ==>
              && |m.items| <= 6
              && (forall x :: x in m.items ==> x.categoryId == action.categoryId)
              && (|m.items| < 6 ==> forall x :: x in st.menu && x.categoryId == action.categoryId ==> x in m.items)
              && (var dishes := Seqs.Filter(st.menu, InCategory(action.categoryId));
                  |m.items| == (if |dishes| < 6 then |dishes| else 6) && m.items == dishes[..|m.items|])
    ensures action.NewOrder? ==> m.items == []
  {
    match action
    case ShowFeatured => FeaturedReply(st)
    case ShowMenu => MenuReply(st)
    case ShowAllItems =>
      var first := Seqs.Take(st.menu, 12);
      assert forall k :: 0 <= k < |first| ==> first[k] in st.menu;
      Say(Canned(FullMenuIntro), first, [SuggestedAction("View Order", ShowCart)])
    case ShowCart =>
      var count := Cart.ItemCount(s.cart);
      if count > 0 then
        Say(CartReport(s.cart, count, Cart.CartTotal(s.cart)), [], [
          SuggestedAction("Place Order", PlaceOrder),
          SuggestedAction("Add More Items", ShowMenu),
          SuggestedAction("Clear Cart", ClearCart)
        ])
      else Say(Canned(EmptyCartHelp), [], BrowseButtons)
    case ShowCategory(cid) => CategoryReply(st, cid)
    case NewOrder =>
      Say(Canned(ReadyAgain), [], BrowseButtons)
  }

  /** `confirm_order`: the receipt for the cart as it is, which is then emptied, signed in or not. */
  function ConfirmStep(s: Session): (r: Session)
    ensures r.cart == [] && r.log == s.log + [Receipt(s.cart)]
  {
    Append(s.(cart := Cart.ClearCart()), [Receipt(s.cart)])
  }

  /** `handleSuggestedAction` for every button except the timed recommendation. */
  function Dispatch(s: Session, st: Store, action: Action): (r: Session)
    requires !action.GetRecommendation?
    ensures r.signedIn == s.signedIn
    ensures |s.log| <= |r.log| && r.log[..|s.log|] == s.log
    ensures r.authOpen != s.authOpen ==> action == ShowAuth
    ensures r.cart != s.cart ==>
              action.AddItem? || action.AddItemWithQuantity? || action == PlaceOrder
              || action == ClearCart || action == ConfirmOrder
    ensures !s.signedIn && (action.AddItem? || action.AddItemWithQuantity? || action == PlaceOrder) ==>
              r.cart == s.cart
    ensures IsBrowse(action) ==> r == Append(s, [BrowseReply(s, st, action)])
  {
    match action
    case AddItem(id) =>
      if id == "" then s else AddOne(s, st, id)
    case AddItemWithQuantity(id, quantity) =>
      AddMany(s, st, id, quantity)
    case ShowAuth =>
      s.(authOpen := true)
    case PlaceOrder =>
      PlaceOrderStep(s, st)
    case ClearCart =>
      ClearCartStep(s)
    case ConfirmOrder =>
      ConfirmStep(s)
    case ShowCategory(cid) =>
      if cid == "" then s else Append(s, [BrowseReply(s, st, action)])
    case ShowFeatured => Append(s, [BrowseReply(s, st, action)])
    case ShowMenu => Append(s, [BrowseReply(s, st, action)])
    case ShowAllItems => Append(s, [BrowseReply(s, st, action)])
    case ShowCart => Append(s, [BrowseReply(s, st, action)])
    case NewOrder => Append(s, [BrowseReply(s, st, action)])
  }

  // ----- Properties of the buttons -----

  /** Signed out, no button adds to or orders from the cart: each answers with a sign-in
      request carrying the sign-in button. */
  lemma SignInGate(s: Session, st: Store, action: Action)
    requires !s.signedIn
    requires (action.AddItem? && action.itemId != "") || action.AddItemWithQuantity? || action == PlaceOrder
    ensures var r := Dispatch(s, st, action);
            && r.cart == s.cart
            && |r.log| == |s.log| + 1
            && r.log[|s.log|].items == []
            && exists k :: 0 <= k < |r.log[|s.log|].actions| && r.log[|s.log|].actions[k].action == ShowAuth
  {
    var r := Dispatch(s, st, action);
    assert r.log[|s.log|].actions[0].action == ShowAuth;
  }

  /** With nothing in the cart, placing or clearing the order changes no cart and only adds a
      message offering to browse. */
  lemma EmptyCartGate(s: Session, st: Store, action: Action)
    requires s.signedIn && Cart.ItemCount(s.cart) == 0
    requires action == PlaceOrder || action == ClearCart
    ensures var r := Dispatch(s, st, action);
            && r.cart == s.cart
            && |r.log| == |s.log| + 1
            && r.log[|s.log|].items == []
            && r.log[|s.log|].actions == BrowseButtons
  {
  }

  /** Confirming always empties the cart, and the receipt reports what the cart held. */
  lemma ConfirmReportsAndClears(s: Session, st: Store)
    ensures var r := Dispatch(s, st, ConfirmOrder);
            && r.cart == []
            && r.log == s.log + [Say(OrderReceived(Cart.ItemCount(s.cart), Cart.CartTotal(s.cart)), [],
                                     [SuggestedAction("Start New Order", NewOrder)])]
  {
  }

  /** Placing a non-empty order either keeps the cart and shows suggestions, none of which is
      already in the cart, with a button that confirms; or, with nothing to suggest, empties the
      cart and reports its count and total. */
  lemma PlaceOrderOutcome(s: Session, st: Store)
    requires s.signedIn && Cart.ItemCount(s.cart) != 0
    ensures var r := Dispatch(s, st, PlaceOrder);
            var offers := CheckoutOffersFor(st, s.cart);
            && |r.log| == |s.log| + 2
            && (|offers| > 0 ==>
                  && r.cart == s.cart
                  && r.log[|s.log| + 1].items == offers
                  && r.log[|s.log| + 1].actions[0].action == ConfirmOrder
                  && forall x :: x in r.log[|s.log| + 1].items ==> x.id !in Upsell.CartItemIds(s.cart))
            && (|offers| == 0 ==>
                  && r.cart == []
                  && r.log[|s.log| + 1].body == OrderReceived(Cart.ItemCount(s.cart), Cart.CartTotal(s.cart)))
  {
    assert Dispatch(s, st, PlaceOrder) == PlaceOrderStep(s, st);
  }

  /** Declining the suggestions places the same order: the receipt after "place order" then
      "confirm" reports the cart as it was before either. */
  lemma PlaceThenConfirm(s: Session, st: Store)
    requires s.signedIn && Cart.ItemCount(s.cart) != 0
    requires |CheckoutOffersFor(st, s.cart)| > 0
    ensures var r := Dispatch(Dispatch(s, st, PlaceOrder), st, ConfirmOrder);
            && r.cart == []
            && r.log[|r.log| - 1].body == OrderReceived(Cart.ItemCount(s.cart), Cart.CartTotal(s.cart))
  {
    PlaceOrderOutcome(s, st);
    ConfirmReportsAndClears(Dispatch(s, st, PlaceOrder), st);
  }

  /** After `add_item` the cart holds the dish once more. Read from the cart before the add,
      the confirmation's count is the new cart's count; its total is the new cart's total when
      the dish gets a line of its own, and is off by the difference between the dish's price
      and the merged line's captured unit price otherwise. */
  lemma AddItemReport(s: Session, st: Store, id: string)
    requires s.signedIn && id != "" && Upsell.FindById(st.menu, id).Some?
    ensures var item := Upsell.FindById(st.menu, id).value;
            var line := CartLine(item.id, item.name, item.price, 1, []);
            var r := Dispatch(s, st, AddItem(id));
            var confirm := r.log[|s.log| + 1].body;
            && |r.log| == |s.log| + 2
            && r.cart == Cart.AddToCart(s.cart, line)
            && confirm.AddedOne?
            && r.log[|s.log| + 1].items == UpsellsFor(st, s.cart)
            && confirm.suggestsMore == (|UpsellsFor(st, s.cart)| > 0)
            && confirm.newCount == Cart.ItemCount(r.cart)
            && (Cart.FindLine(s.cart, line).None? ==> confirm.newTotal == Cart.CartTotal(r.cart))
            && (Cart.FindLine(s.cart, line).Some? ==>
                  confirm.newTotal == Cart.CartTotal(r.cart) + item.price - Cart.UnitPrice(s.cart[Cart.FindLine(s.cart, line).value]))
  {
    var item := Upsell.FindById(st.menu, id).value;
    var line := CartLine(item.id, item.name, item.price, 1, []);
    Cart.AddToCartCount(s.cart, line);
    Cart.AddToCartTotal(s.cart, line);
  }

  /** The same for `add_item_with_quantity`: the count is exact, and the total is exact unless the
      dish merges into a line captured at another unit price. */
  lemma AddManyReport(s: Session, st: Store, id: string, quantity: int)
    requires s.signedIn && Upsell.FindById(st.menu, id).Some?
    ensures var item := Upsell.FindById(st.menu, id).value;
            var line := CartLine(item.id, item.name, item.price, quantity, []);
            var r := Dispatch(s, st, AddItemWithQuantity(id, quantity));
            var confirm := r.log[|s.log| + 1].body;
            && |r.log| == |s.log| + 2
            && r.cart == Cart.AddToCart(s.cart, line)
            && confirm.AddedMany?
            && r.log[|s.log| + 1].items == UpsellsFor(st, s.cart)
            && confirm.suggestsMore == (|UpsellsFor(st, s.cart)| > 0)
            && confirm.newCount == Cart.ItemCount(r.cart)
            && (Cart.FindLine(s.cart, line).None? ==> confirm.newTotal == Cart.CartTotal(r.cart))
            && (Cart.FindLine(s.cart, line).Some? ==>
                  confirm.newTotal == Cart.CartTotal(r.cart)
                                      + (item.price - Cart.UnitPrice(s.cart[Cart.FindLine(s.cart, line).value])) * quantity)
  {
    var item := Upsell.FindById(st.menu, id).value;
    var line := CartLine(item.id, item.name, item.price, quantity, []);
    Cart.AddToCartCount(s.cart, line);
    Cart.AddToCartTotal(s.cart, line);
    assert Cart.LineTotal(line) == item.price * quantity;
  }

  /** The cart `getCartTotal` and `getCartItemCount` read when React runs `addToCart`'s updater
      at once. The updater copies the array but bumps the matching line object in place, and
      the component's `cart` holds that same object, so a merge shows through and an append
      does not. */
  function SharedSnapshot(c: Cart.Cart, line: CartLine): (r: Cart.Cart)
    ensures |r| == |c|
    ensures Cart.FindLine(c, line).None? ==> r == c
    ensures Cart.FindLine(c, line).Some? ==> r == Cart.AddToCart(c, line)
  {
    match Cart.FindLine(c, line)
    case None => c
    case Some(i) => c[i := c[i].(quantity := c[i].quantity + line.quantity)]
  }

  /** Read through the shared line, a merged add is counted twice: the count the confirmation
      would show exceeds the new cart's count by the added quantity. */
  lemma SharedSnapshotCountsTwice(c: Cart.Cart, line: CartLine)
    requires Cart.FindLine(c, line).Some?
    ensures Cart.ItemCount(SharedSnapshot(c, line)) + line.quantity
            == Cart.ItemCount(Cart.AddToCart(c, line)) + line.quantity
            == Cart.ItemCount(c) + 2 * line.quantity
  {
    Cart.AddToCartCount(c, line);
  }

  /** Because the suggestions are computed for the cart before the add, the first dish added to
      an empty cart never comes with suggestions. */
  lemma FirstAddHasNoSuggestions(s: Session, st: Store, id: string)
    requires s.signedIn && |s.cart| == 0 && id != "" && Upsell.FindById(st.menu, id).Some?
    ensures var r := Dispatch(s, st, AddItem(id));
            r.log[|s.log| + 1].items == [] && !r.log[|s.log| + 1].body.suggestsMore
  {
  }

  /** The hand-over's "Add to Order" button adds the handed-over dish (a dish with an empty id
      cannot be added). */
  lemma HandOverThenAdd(s: Session, st: Store, cs: ChatbotState.State)
    requires s.signedIn && st.restaurant.Some? && cs.pending.Some? && cs.pending.value.id != ""
    requires Upsell.FindById(st.menu, cs.pending.value.id).Some?
    ensures var shown := ShowPendingItem(s, st, cs).0;
            var msg := shown.log[|shown.log| - 1];
            var r := Dispatch(shown, st, msg.actions[0].action);
            Cart.ItemCount(r.cart) == Cart.ItemCount(s.cart) + 1
  {
    var item := Upsell.FindById(st.menu, cs.pending.value.id).value;
    var shown := ShowPendingItem(s, st, cs).0;
    var line := CartLine(item.id, item.name, item.price, 1, []);
    assert shown.log[|shown.log| - 1].actions[0].action == AddItem(item.id);
    assert Dispatch(shown, st, AddItem(item.id)) == AddOne(shown, st, item.id);
    Cart.AddToCartCount(shown.cart, line);
  }
}

=== FILE: chatbot_state.dfy ===
/** The chat panel's shared state: whether the panel is open and which menu item,
    if any, a page has handed to the assistant. */
module ChatbotState {
  import opened Domain

  datatype PendingItem = PendingItem(id: string, name: string)

  datatype State = State(isOpen: bool, pending: Option<PendingItem>)

  /** Closed, with nothing pending. */
  const Initial := State(false, None)

  function OpenChatbot(s: State): (r: State)
    ensures r.isOpen && r.pending == s.pending
  {
    s.(isOpen := true)
  }

  function CloseChatbot(s: State): (r: State)
    ensures !r.isOpen && r.pending == s.pending
  {
    s.(isOpen := false)
  }

  /** `addItemToChatbot`: records the item and opens the panel. */
  function AddItemToChatbot(s: State, id: string, name: string): (r: State)
    ensures r.isOpen && r.pending == Some(PendingItem(id, name))
  {
    State(true, Some(PendingItem(id, name)))
  }

  function ClearPendingItem(s: State): (r: State)
    ensures r.isOpen == s.isOpen && r.pending.None?
  {
    s.(pending := None)
  }

  /** The calls a page or the panel can make. */
  datatype Event = Open | Close | HandOver(id: string, name: string) | ClearPending

  function Step(s: State, e: Event): State {
    match e
    case Open => OpenChatbot(s)
    case Close => CloseChatbot(s)
    case HandOver(id, name) => AddItemToChatbot(s, id, name)
    case ClearPending => ClearPendingItem(s)
  }

  /** The state after the events, in order, starting from `s`. */
  function Run(s: State, es: seq<Event>): State
    decreases |es|
  {
    if |es| == 0 then s else Step(Run(s, es[..|es| - 1]), es[|es| - 1])
  }

  /** Reference reading of the pending slot: the item of the last `HandOver` when no
      `ClearPending` follows it, otherwise whatever was pending before, if nothing touched it. */
  function LastPending(start: Option<PendingItem>, es: seq<Event>): Option<PendingItem>
    decreases |es|
  {
    if |es| == 0 then start
    else match es[|es| - 1]
      case HandOver(id, name) => Some(PendingItem(id, name))
      case ClearPending => None
      case _ => LastPending(start, es[..|es| - 1])
  }

  /** Reference reading of the open flag: set by the last `Open` or `HandOver`, cleared by the
      last `Close`; `ClearPending` does not touch it. */
  function LastOpen(start: bool, es: seq<Event>): bool
    decreases |es|
  {
    if |es| == 0 then start
    else match es[|es| - 1]
      case Open => true
      case HandOver(_, _) => true
      case Close => false
      case ClearPending => LastOpen(start, es[..|es| - 1])
  }

  /** Any run of calls leaves the state both reference readings describe. */
  lemma {:induction false} RunMatchesReference(s: State, es: seq<Event>)
    ensures Run(s, es).pending == LastPending(s.pending, es)
    ensures Run(s, es).isOpen == LastOpen(s.isOpen, es)
    decreases |es|
  {
    if |es| > 0 {
      RunMatchesReference(s, es[..|es| - 1]);
    }
  }

  /** Handing over an item and consuming it leaves the panel open with nothing pending. */
  lemma AddThenClear(s: State, id: string, name: string)
    ensures Run(s, [HandOver(id, name), ClearPending]) == State(true, None)
  {
    assert [HandOver(id, name), ClearPending][..1] == [HandOver(id, name)];
    assert [HandOver(id, name)][..0] == [];
  }
}

=== FILE: domain.dfy ===
/** The entities shared by the storefront: restaurants and their opening hours,
    the menu catalogue, cart lines, and the chat transcript with its suggested
    actions. Prices are integer cents; ratings are integers on a scale chosen by
    the datastore. Fields that no modelled operation reads are omitted. */
module Domain {

  datatype Option<T> = None | Some(value: T)

  datatype Weekday = Monday | Tuesday | Wednesday | Thursday | Friday | Saturday | Sunday

  /** One day's opening hours as stored: clock strings such as "09:00" and a closed flag. */
  datatype DayHours = DayHours(open: string, close: string, isClosed: bool)

  datatype Restaurant = Restaurant(
    id: string,
    name: string,
    cuisineType: string,
    phone: string,
    city: string,
    hours: map<Weekday, DayHours>)

  datatype MenuCategory = MenuCategory(id: string, restaurantId: string, name: string)

  /** A catalogue entry. `averageRating` and `reviewCount` are optional in the datastore. */
  datatype MenuItem = MenuItem(
    id: string,
    categoryId: string,
    name: string,
    description: string,
    price: int,
    isAvailable: bool,
    isFeatured: bool,
    dietaryTags: seq<string>,
    averageRating: Option<int>,
    reviewCount: Option<int>)

  /** A customisation option chosen for a cart line. */
  datatype Customization = Customization(
    customizationId: string,
    customizationName: string,
    optionId: string,
    optionName: string,
    priceModifier: int)

  /** A cart line: the menu item it refers to, the name and unit price captured when
      it was added, a quantity and the chosen customisations. */
  datatype CartLine = CartLine(
    menuItemId: string,
    name: string,
    price: int,
    quantity: int,
    customizations: seq<Customization>)

  datatype Role = User | Assistant

  /** The suggested-action buttons and their payloads. An empty id stands for the
      source's falsy `data` (null or ''). */
  datatype Action =
    | ShowFeatured
    | ShowMenu
    | ShowAllItems
    | ShowCart
    | AddItem(itemId: string)
    | AddItemWithQuantity(itemId: string, quantity: int)
    | ShowCategory(categoryId: string)
    | ShowAuth
    | PlaceOrder
    | ConfirmOrder
    | ClearCart
    | NewOrder
    | GetRecommendation

  datatype SuggestedAction = SuggestedAction(caption: string, action: Action)

  /** The assistant's fixed wordings; `Wording` gives the text of each. */
  datatype Phrase =
    | FeaturedIntro | PopularIntro | AvailableIntro | FullMenuIntro | SimilarIntro
    | EmptyCartHelp | AlreadyEmpty | CartCleared | BeforeCheckout | ReadyAgain
    | SignInToAdd | SignInToOrder | ConnectionTrouble
    | VeganPicks | GlutenFreePicks | NoFishPicks | FishPicks | PopularPicks
    | PlaceMyOrder | ClearMyCart

  function Wording(p: Phrase): string {
    match p
    case FeaturedIntro => "Here are our most popular dishes that customers love. Click any item to add it to your order:"
    case PopularIntro => "Here are our most popular items. Click any item to add it to your order!"
    case AvailableIntro => "Here's what we have available. Click any item to add it to your order!"
    case FullMenuIntro => "Here's our full menu. Click any item to add it to your order!"
    case SimilarIntro => "Here are some similar items you might like. Click any item to add it to your order:"
    case EmptyCartHelp => "Your cart is empty. Let me help you find something delicious!"
    case AlreadyEmpty => "Your cart is already empty."
    case CartCleared => "Your cart has been cleared. Would you like to start a new order?"
    case BeforeCheckout => "Before you check out, would you like to add any of these to complete your meal? 🍟"
    case ReadyAgain => "Ready for another order? What can I get started for you today?"
    case SignInToAdd => "Please sign in to add items to your cart and place orders."
    case SignInToOrder => "Please sign in to place your order."
    case ConnectionTrouble => "I'm sorry, I'm having trouble connecting right now. Please try again in a moment."
    case VeganPicks => "Here are our vegan and vegetarian options:"
    case GlutenFreePicks => "Here are our gluten-free options:"
    case NoFishPicks => "Here are our dishes without fish:"
    case FishPicks => "Here are our fish options:"
    case PopularPicks => "Here are our most popular dishes:"
    case PlaceMyOrder => "Place my order"
    case ClearMyCart => "Clear my cart"
  }

  /** The text of a message. Free texts (what the user typed, the gateway's cleaned reply) are
      `Text`; fixed wordings are `Canned`; texts that the source builds from data keep that
      data as fields (the allergy warning keeps the contact it names). */
  datatype Body =
    | Text(text: string)
    | Canned(phrase: Phrase)
    | AllergyWarning(contact: string)
    | Greeting(restaurantName: string, cuisineType: string)
    | ItemSelected(itemName: string)
    | AddRequest(itemName: string)
    | AddQuantityRequest(itemName: string, quantity: int)
    | AddedOne(itemName: string, price: int, newCount: int, newTotal: int, suggestsMore: bool)
    | AddedMany(itemName: string, quantity: int, itemTotal: int, newCount: int, newTotal: int, suggestsMore: bool)
    | CartReport(lines: seq<CartLine>, count: int, total: int)
    | OrderReceived(count: int, total: int)

  /** A chat message; an empty `items` list stands for no attached cards. */
  datatype Message = Message(role: Role, body: Body, items: seq<MenuItem>, actions: seq<SuggestedAction>)
}

=== FILE: form.dfy ===
/** The restaurant sign-up form: slug generation from the name, the editable list of
    categories and their items (add, remove, edit, tag toggling), the allergen list
    parser and the choice of rows that submission writes. */
module RestaurantForm {
  import opened Domain
  import Seqs
  import Text
  import Restaurant

  // ----- Slug -----

  /** The characters `[a-z0-9]` that survive slug generation. */
  predicate SlugChar(c: char) {
    ('a' <= c <= 'z') || Text.IsDigit(c)
  }

  predicate SlugOrDash(s: string) {
    forall k :: 0 <= k < |s| ==> SlugChar(s[k]) || s[k] == '-'
  }

  /** Positions `k` and `k + 1` both hold a dash. */
  predicate DashPairAt(s: string, k: int)
    requires 0 <= k < |s| - 1
  {
    s[k] == '-' && s[k + 1] == '-'
  }

  predicate NoDoubleDash(s: string) {
    forall k :: 0 <= k < |s| - 1 ==> !DashPairAt(s, k)
  }

  /** Drops the leading characters outside `[a-z0-9]`. */
  function SkipNonSlug(s: string): (r: string)
    ensures |r| <= |s| && r == s[|s| - |r|..]
    ensures |r| > 0 ==> SlugChar(r[0])
    decreases |s|
  {
    if |s| > 0 && !SlugChar(s[0]) then SkipNonSlug(s[1..]) else s
  }

  /** Prefixing a slug character, or a dash before a non-dash, keeps the slug shape. */
  lemma ConsSlugOrDash(c: char, t: string)
    requires SlugOrDash(t) && NoDoubleDash(t) && (SlugChar(c) || c == '-')
    requires c == '-' && |t| > 0 ==> t[0] != '-'
    ensures SlugOrDash([c] + t) && NoDoubleDash([c] + t)
  {
    var r := [c] + t;
    forall k | 0 <= k < |r| ensures SlugChar(r[k]) || r[k] == '-' {
      if k > 0 { assert r[k] == t[k - 1]; }
    }
    forall k | 0 <= k < |r| - 1 ensures !DashPairAt(r, k) {
      if k > 0 { assert !DashPairAt(t, k - 1); }
    }
  }

  /** `replace(/[^a-z0-9]+/g, '-')`: every maximal run outside `[a-z0-9]` becomes one dash. */
  function Collapse(s: string): (r: string)
    ensures SlugOrDash(r) && NoDoubleDash(r)
    ensures |s| > 0 && SlugChar(s[0]) ==> |r| > 0 && r[0] == s[0]
    ensures |r| == 0 <==> |s| == 0
    decreases |s|
  {
    if |s| == 0 then ""
    else if SlugChar(s[0]) then
      var t := Collapse(s[1..]);
      ConsSlugOrDash(s[0], t);
      [s[0]] + t
    else
      var u := SkipNonSlug(s[1..]);
      var t := Collapse(u);
      ConsSlugOrDash('-', t);
      "-" + t
  }

  /** `replace(/(^-|-$)/g, '')`: one leading and one trailing dash removed. */
  function StripDashes(t: string): string {
    var a := if |t| > 0 && t[0] == '-' then t[1..] else t;
    if |a| > 0 && a[|a| - 1] == '-' then a[..|a| - 1] else a
  }

  /** A slice of a dash-or-slug string without double dashes keeps both properties. */
  lemma SliceSlugOrDash(t: string, i: nat, j: nat)
    requires i <= j <= |t| && SlugOrDash(t) && NoDoubleDash(t)
    ensures SlugOrDash(t[i..j]) && NoDoubleDash(t[i..j])
  {
    var u := t[i..j];
    forall k | 0 <= k < |u| ensures SlugChar(u[k]) || u[k] == '-' {
      assert u[k] == t[i + k];
    }
    forall k | 0 <= k < |u| - 1 ensures !DashPairAt(u, k) {
      assert !DashPairAt(t, i + k);
    }
  }

  lemma StripDashesSlug(c: string)
    requires SlugOrDash(c) && NoDoubleDash(c)
    ensures IsSlug(StripDashes(c))
  {
    var i := if |c| > 0 && c[0] == '-' then 1 else 0;
    var a := c[i..];
    assert |c| > 1 ==> !DashPairAt(c, 0);
    var j := if |a| > 0 && a[|a| - 1] == '-' then |c| - 1 else |c|;
    if |a| > 1 && a[|a| - 1] == '-' {
      assert !DashPairAt(c, |c| - 2);
    }
    SliceSlugOrDash(c, i, j);
    assert StripDashes(c) == c[i..j];
  }

  /** A well-formed slug: lower-case letters, digits and single inner dashes. */
  predicate IsSlug(s: string) {
    && SlugOrDash(s)
    && NoDoubleDash(s)
    && (|s| > 0 ==> s[0] != '-' && s[|s| - 1] != '-')
  }

  /** `generateSlug`. */
  function Slug(name: string): (r: string)
    ensures IsSlug(r)
    ensures (forall k :: 0 <= k < |Text.Lower(name)| ==> !SlugChar(Text.Lower(name)[k])) ==> r == ""
  {
    var c := Collapse(Text.Lower(name));
    StripDashesSlug(c);
    StripDashes(c)
  }

  /** A string with no runs outside `[a-z0-9]` longer than a single dash is left alone by `Collapse`. */
  lemma {:induction false} CollapseFixed(t: string)
    requires SlugOrDash(t) && NoDoubleDash(t)
    ensures Collapse(t) == t
    decreases |t|
  {
    if |t| > 0 {
      var u := t[1..];
      SlugTail(t);
      CollapseFixed(u);
      CollapseStep(t);
    }
  }

  lemma SlugTail(t: string)
    requires |t| > 0 && SlugOrDash(t) && NoDoubleDash(t)
    ensures SlugOrDash(t[1..]) && NoDoubleDash(t[1..])
    ensures !SlugChar(t[0]) ==> |t| == 1 || SlugChar(t[1])
  {
    assert |t| > 1 ==> !DashPairAt(t, 0);
    var u := t[1..];
    forall k | 0 <= k < |u| ensures SlugChar(u[k]) || u[k] == '-' {
      assert u[k] == t[k + 1];
    }
    forall k | 0 <= k < |u| - 1 ensures !DashPairAt(u, k) {
      assert !DashPairAt(t, k + 1);
    }
  }

  /** One step of `Collapse` on a string whose non-slug characters are isolated dashes. */
  lemma CollapseStep(t: string)
    requires |t| > 0 && (SlugChar(t[0]) || t[0] == '-')
    requires !SlugChar(t[0]) ==> |t| == 1 || SlugChar(t[1])
    requires Collapse(t[1..]) == t[1..]
    ensures Collapse(t) == t
  {
    var u := t[1..];
    if !SlugChar(t[0]) {
      SkipSlugStart(u);
      assert Collapse(t) == "-" + Collapse(SkipNonSlug(u));
      assert t == "-" + u;
    } else {
      assert Collapse(t) == [t[0]] + Collapse(u);
      assert t == [t[0]] + u;
    }
  }

  lemma SkipSlugStart(u: string)
    requires |u| > 0 ==> SlugChar(u[0])
    ensures SkipNonSlug(u) == u
  {
  }

  lemma LowerOfSlug(s: string)
    requires SlugOrDash(s)
    ensures Text.Lower(s) == s
  {
  }

  /** `generateSlug` is idempotent: a slug is its own slug. */
  lemma SlugIdempotent(name: string)
    ensures Slug(Slug(name)) == Slug(name)
  {
    SlugFixed(Slug(name));
  }

  /** Every well-formed slug is its own slug. */
  lemma SlugFixed(s: string)
    requires IsSlug(s)
    ensures Slug(s) == s
  {
    CollapseOfSlug(s);
    StripDashesOfSlug(s);
  }

  lemma StripDashesOfSlug(s: string)
    requires IsSlug(s)
    ensures StripDashes(s) == s
  {
  }

  lemma CollapseOfSlug(s: string)
    requires SlugOrDash(s) && NoDoubleDash(s)
    ensures Collapse(Text.Lower(s)) == s
  {
    LowerOfSlug(s);
    CollapseFixed(s);
  }

  /** A name without letters or digits gives the empty slug. */
  lemma PunctuationSlugEmpty(name: string)
    requires forall k :: 0 <= k < |name| ==> !SlugChar(name[k]) && !Text.IsUpper(name[k])
    ensures Slug(name) == ""
  {
  }

  /** The form fields, keyed by name; only their text values are modelled. */
  type FormData = map<string, string>

  /** `handleInputChange`: sets the field, and when it is the name also regenerates the slug. */
  function HandleInputChange(f: FormData, field: string, value: string): (r: FormData)
    ensures r.Keys == f.Keys + {field} + (if field == "name" then {"slug"} else {})
    ensures field != "slug" ==> r[field] == value
    ensures field == "name" ==> r["slug"] == Slug(value)
    ensures field == "slug" ==> r["slug"] == value
    ensures field != "name" && field != "slug" && "slug" in f ==> r["slug"] == f["slug"]
    ensures forall k :: k in f && k != field && k != "slug" ==> r[k] == f[k]
  {
    var g := f[field := value];
    if field == "name" then g["slug" := Slug(value)] else g
  }

  // ----- Opening hours -----

  /** One day of the form's hours. The form keeps the closed flag under the key `closed`. */
  datatype FormDay = FormDay(open: string, close: string, closed: bool)

  /** The form starts with every weekday filled in. */
  const InitialHours: map<Weekday, FormDay> := map[
    Monday := FormDay("09:00", "21:00", false),
    Tuesday := FormDay("09:00", "21:00", false),
    Wednesday := FormDay("09:00", "21:00", false),
    Thursday := FormDay("09:00", "21:00", false),
    Friday := FormDay("09:00", "21:00", false),
    Saturday := FormDay("10:00", "22:00", false),
    Sunday := FormDay("10:00", "20:00", false)
  ]

  /** One input of the hours editor: a clock field or the closed check box. */
  datatype HoursEdit = SetOpen(open: string) | SetClose(close: string) | SetClosed(closed: bool)

  /** `handleHoursChange`: one field of one day changes; the editor only offers days the
      hours already hold. */
  function HandleHoursChange(hours: map<Weekday, FormDay>, day: Weekday, e: HoursEdit): (r: map<Weekday, FormDay>)
    requires day in hours
    ensures r.Keys == hours.Keys
    ensures forall d :: d in hours && d != day ==> r[d] == hours[d]
    ensures r[day].open == (if e.SetOpen? then e.open else hours[day].open)
    ensures r[day].close == (if e.SetClose? then e.close else hours[day].close)
    ensures r[day].closed == (if e.SetClosed? then e.closed else hours[day].closed)
  {
    var d := hours[day];
    var d' := match e
      case SetOpen(v) => d.(open := v)
      case SetClose(v) => d.(close := v)
      case SetClosed(v) => d.(closed := v);
    hours[day := d']
  }

  /** The hours as submitted and then read back by the `isOpen` checks, which look for
      `is_closed`: the form's `closed` flag is not that key, so the flag reads as unset. */
  function StoredDayAsWritten(d: FormDay): (r: DayHours)
    ensures r.open == d.open && r.close == d.close && !r.isClosed
  {
    DayHours(d.open, d.close, false)
  }

  /** A day ticked closed in the form, with its default hours, reads as open at noon. */
  lemma ClosedDayReadsOpen()
    ensures var d := HandleHoursChange(InitialHours, Monday, SetClosed(true))[Monday];
            d.closed && Restaurant.OpenDuring(StoredDayAsWritten(d), 12 * 60)
  {
    var d := HandleHoursChange(InitialHours, Monday, SetClosed(true))[Monday];
    assert InitialHours[Monday] == FormDay("09:00", "21:00", false);
    NineToNineOpenAtNoon(d);
  }

  lemma NineToNineOpenAtNoon(d: FormDay)
    requires d.open == "09:00" && d.close == "21:00"
    ensures Restaurant.OpenDuring(StoredDayAsWritten(d), 12 * 60)
  {
    Restaurant.ClockCharsMinutes('0', '9', '0', '0');
    Restaurant.ClockCharsMinutes('2', '1', '0', '0');
    assert d.open == ['0', '9', ':', '0', '0'] && d.close == ['2', '1', ':', '0', '0'];
    assert Restaurant.DigitValue('9') == 9 && Restaurant.DigitValue('2') == 2;
    assert Restaurant.DigitValue('1') == 1 && Restaurant.DigitValue('0') == 0;
  }

  /** The hours stored under the key the readers use: the closed flag carries over. */
  function StoredDay(d: FormDay): (r: DayHours)
    ensures r.open == d.open && r.close == d.close && r.isClosed == d.closed
  {
    DayHours(d.open, d.close, d.closed)
  }

  /** With the flag stored under `is_closed`, a day ticked closed is closed at every minute, and
      a day left open is open exactly when the clock strings say so. */
  lemma StoredDayHonoursClosed(d: FormDay, now: int)
    ensures d.closed ==> !Restaurant.OpenDuring(StoredDay(d), now)
    ensures !d.closed ==> (Restaurant.OpenDuring(StoredDay(d), now) <==> Restaurant.OpenDuring(StoredDayAsWritten(d), now))
  {
  }

  // ----- Categories and items -----

  datatype FormItem = FormItem(
    name: string,
    description: string,
    price: string,
    imageUrl: string,
    isAvailable: bool,
    isFeatured: bool,
    preparationTime: string,
    calories: string,
    allergens: string,
    tags: seq<string>)

  datatype FormCategory = FormCategory(name: string, description: string, imageUrl: string, items: seq<FormItem>)

  /** The row `addMenuItem` appends. */
  const NewItem := FormItem("", "", "", "", true, false, "15", "", "", [])

  const NewCategory := FormCategory("", "", "", [])

  /** The form starts with one empty category. */
  const InitialCategories: seq<FormCategory> := [NewCategory]

  /** `addCategory`. */
  function AddCategory(cs: seq<FormCategory>): (r: seq<FormCategory>)
    ensures |r| == |cs| + 1 && r[..|cs|] == cs && r[|cs|] == NewCategory
  {
    cs + [NewCategory]
  }

  /** `removeCategory`: an index outside the list changes nothing. */
  function RemoveCategory(cs: seq<FormCategory>, i: int): (r: seq<FormCategory>)
    ensures 0 <= i < |cs| ==> r == cs[..i] + cs[i + 1..]
    ensures !(0 <= i < |cs|) ==> r == cs
  {
    Seqs.DropIndex(cs, i)
  }

  datatype CategoryField = CategoryName | CategoryDescription | CategoryImageUrl

  function SetCategoryField(c: FormCategory, field: CategoryField, value: string): FormCategory {
    match field
    case CategoryName => c.(name := value)
    case CategoryDescription => c.(description := value)
    case CategoryImageUrl => c.(imageUrl := value)
  }

  /** `updateCategory`: only the field of the category at that index changes. */
  function UpdateCategory(cs: seq<FormCategory>, i: int, field: CategoryField, value: string): (r: seq<FormCategory>)
    ensures |r| == |cs|
    ensures forall k :: 0 <= k < |cs| && k != i ==> r[k] == cs[k]
    ensures 0 <= i < |cs| ==> r[i].items == cs[i].items
    ensures 0 <= i < |cs| && field == CategoryName ==> r[i] == cs[i].(name := value)
    ensures 0 <= i < |cs| && field == CategoryDescription ==> r[i] == cs[i].(description := value)
    ensures 0 <= i < |cs| && field == CategoryImageUrl ==> r[i] == cs[i].(imageUrl := value)
  {
    Seqs.MapAt(cs, i, (c: FormCategory) => SetCategoryField(c, field, value))
  }

  /** The text a category field currently holds. */
  function CategoryFieldOf(c: FormCategory, field: CategoryField): string {
    match field
    case CategoryName => c.name
    case CategoryDescription => c.description
    case CategoryImageUrl => c.imageUrl
  }

  /** Typing the old text back into a category field restores the list exactly. */
  lemma UpdateCategoryUndo(cs: seq<FormCategory>, i: int, field: CategoryField, value: string)
    requires 0 <= i < |cs|
    ensures UpdateCategory(UpdateCategory(cs, i, field, value), i, field, CategoryFieldOf(cs[i], field)) == cs
  {
  }

  /** `addMenuItem`: the category at that index gains `NewItem` at the end. */
  function AddMenuItem(cs: seq<FormCategory>, ci: int): (r: seq<FormCategory>)
    ensures |r| == |cs|
    ensures forall k :: 0 <= k < |cs| && k != ci ==> r[k] == cs[k]
    ensures 0 <= ci < |cs| ==> r[ci].items == cs[ci].items + [NewItem] && r[ci].name == cs[ci].name
  {
    Seqs.MapAt(cs, ci, (c: FormCategory) => c.(items := c.items + [NewItem]))
  }

  /** `removeMenuItem`: the item at that index of that category is dropped, the rest keep their order. */
  function RemoveMenuItem(cs: seq<FormCategory>, ci: int, j: int): (r: seq<FormCategory>)
    ensures |r| == |cs|
    ensures forall k :: 0 <= k < |cs| && k != ci ==> r[k] == cs[k]
    ensures 0 <= ci < |cs| && 0 <= j < |cs[ci].items| ==>
              r[ci] == cs[ci].(items := cs[ci].items[..j] + cs[ci].items[j + 1..])
    ensures 0 <= ci < |cs| && !(0 <= j < |cs[ci].items|) ==> r == cs
  {
    var r := Seqs.MapAt(cs, ci, (c: FormCategory) => c.(items := Seqs.DropIndex(c.items, j)));
    assert 0 <= ci < |cs| && !(0 <= j < |cs[ci].items|) ==> r[ci] == cs[ci];
    r
  }

  /** One edit of `updateMenuItem`: a field and its new value. */
  datatype ItemEdit =
    | SetName(s: string)
    | SetDescription(s: string)
    | SetPrice(s: string)
    | SetImageUrl(s: string)
    | SetAvailable(b: bool)
    | SetFeatured(b: bool)
    | SetPreparationTime(s: string)
    | SetCalories(s: string)
    | SetAllergens(s: string)
    | SetTags(tags: seq<string>)

  function ApplyEdit(it: FormItem, e: ItemEdit): FormItem {
    match e
    case SetName(s) => it.(name := s)
    case SetDescription(s) => it.(description := s)
    case SetPrice(s) => it.(price := s)
    case SetImageUrl(s) => it.(imageUrl := s)
    case SetAvailable(b) => it.(isAvailable := b)
    case SetFeatured(b) => it.(isFeatured := b)
    case SetPreparationTime(s) => it.(preparationTime := s)
    case SetCalories(s) => it.(calories := s)
    case SetAllergens(s) => it.(allergens := s)
    case SetTags(t) => it.(tags := t)
  }

  /** Applies `f` to the item at (`ci`, `j`) and to nothing else. */
  function EditItemAt(cs: seq<FormCategory>, ci: int, j: int, f: FormItem -> FormItem): (r: seq<FormCategory>)
    ensures |r| == |cs|
    ensures forall k :: 0 <= k < |cs| && k != ci ==> r[k] == cs[k]
    ensures 0 <= ci < |cs| ==>
              r[ci].name == cs[ci].name && r[ci].description == cs[ci].description
              && r[ci].imageUrl == cs[ci].imageUrl && |r[ci].items| == |cs[ci].items|
              && forall k :: 0 <= k < |cs[ci].items| ==>
                   r[ci].items[k] == if k == j then f(cs[ci].items[k]) else cs[ci].items[k]
  {
    Seqs.MapAt(cs, ci, (c: FormCategory) => c.(items := Seqs.MapAt(c.items, j, f)))
  }

  /** `after` is `before` with exactly the field `e` names set to `e`'s value. */
  predicate EditedAsAsked(before: FormItem, after: FormItem, e: ItemEdit) {
    && after.name == (if e.SetName? then e.s else before.name)
    && after.description == (if e.SetDescription? then e.s else before.description)
    && after.price == (if e.SetPrice? then e.s else before.price)
    && after.imageUrl == (if e.SetImageUrl? then e.s else before.imageUrl)
    && after.isAvailable == (if e.SetAvailable? then e.b else before.isAvailable)
    && after.isFeatured == (if e.SetFeatured? then e.b else before.isFeatured)
    && after.preparationTime == (if e.SetPreparationTime? then e.s else before.preparationTime)
    && after.calories == (if e.SetCalories? then e.s else before.calories)
    && after.allergens == (if e.SetAllergens? then e.s else before.allergens)
    && after.tags == (if e.SetTags? then e.tags else before.tags)
  }

  /** `updateMenuItem`: the chosen field of the chosen item takes the new value; every other
      field, item and category is unchanged. */
  function UpdateMenuItem(cs: seq<FormCategory>, ci: int, j: int, e: ItemEdit): (r: seq<FormCategory>)
    ensures |r| == |cs|
    ensures forall k :: 0 <= k < |cs| && k != ci ==> r[k] == cs[k]
    ensures 0 <= ci < |cs| ==> |r[ci].items| == |cs[ci].items|
    ensures 0 <= ci < |cs| ==>
              r[ci].name == cs[ci].name && r[ci].description == cs[ci].description
              && r[ci].imageUrl == cs[ci].imageUrl
              && forall k :: 0 <= k < |cs[ci].items| && k != j ==> r[ci].items[k] == cs[ci].items[k]
    ensures 0 <= ci < |cs| && 0 <= j < |cs[ci].items| ==> EditedAsAsked(cs[ci].items[j], r[ci].items[j], e)
    ensures 0 <= ci < |cs| && 0 <= j < |cs[ci].items| && e.SetName? ==> r[ci].items[j].name == e.s
    ensures 0 <= ci < |cs| && 0 <= j < |cs[ci].items| ==> r[ci].items[j].tags == (if e.SetTags? then e.tags else cs[ci].items[j].tags)
  {
    EditItemAt(cs, ci, j, (it: FormItem) => ApplyEdit(it, e))
  }

  /** The tag list after one toggle: an absent tag is appended; a present tag is removed
      with all its copies. */
  function ToggleTag(tags: seq<string>, t: string): (r: seq<string>)
    ensures t in r <==> t !in tags
    ensures forall x :: x != t ==> (x in r <==> x in tags)
  {
    if t in tags then Seqs.Filter(tags, (x: string) => x != t) else tags + [t]
  }

  /** Toggling an absent tag twice gives the original list back. */
  lemma ToggleTagTwice(tags: seq<string>, t: string)
    requires t !in tags
    ensures ToggleTag(ToggleTag(tags, t), t) == tags
  {
    var p := (x: string) => x != t;
    Seqs.FilterAppend(tags, [t], p);
    Seqs.FilterKeepsAll(tags, p);
  }

  /** `toggleMenuTag`: flips whether the tag is on the target item; every other item
      and category is unchanged. */
  function ToggleMenuTag(cs: seq<FormCategory>, ci: int, j: int, t: string): (r: seq<FormCategory>)
    ensures |r| == |cs|
    ensures forall k :: 0 <= k < |cs| && k != ci ==> r[k] == cs[k]
    ensures 0 <= ci < |cs| ==> |r[ci].items| == |cs[ci].items|
    ensures 0 <= ci < |cs| ==> forall k :: 0 <= k < |cs[ci].items| && k != j ==> r[ci].items[k] == cs[ci].items[k]
    ensures 0 <= ci < |cs| && 0 <= j < |cs[ci].items| ==>
              (t in r[ci].items[j].tags <==> t !in cs[ci].items[j].tags)
              && r[ci].items[j].name == cs[ci].items[j].name
    ensures 0 <= ci < |cs| && 0 <= j < |cs[ci].items| ==>
              r[ci] == cs[ci].(items := cs[ci].items[j := cs[ci].items[j].(tags := ToggleTag(cs[ci].items[j].tags, t))])
  {
    EditItemAt(cs, ci, j, (it: FormItem) => it.(tags := ToggleTag(it.tags, t)))
  }

  // ----- Allergens -----

  /** A stored allergen: non-empty, not padded with white space, free of commas. */
  predicate CleanEntry(a: string) {
    a != "" && Text.Trim(a) == a && ',' !in a
  }

  predicate NonEmpty(a: string) { a != "" }

  /** `allergens ? allergens.split(',').map(a => a.trim()).filter(a => a) : []`. */
  function ParseAllergens(s: string): (r: seq<string>)
    ensures forall k :: 0 <= k < |r| ==> CleanEntry(r[k])
    ensures s == "" ==> r == []
  {
    if s == "" then []
    else
      TrimmedPiecesClean(Text.Split(s, ','));
      Seqs.Filter(Seqs.Map(Text.Split(s, ','), Text.Trim), NonEmpty)
  }

  /** Every non-empty trimmed piece of a comma split is a clean entry. */
  lemma TrimmedPiecesClean(parts: seq<string>)
    requires forall k :: 0 <= k < |parts| ==> ',' !in parts[k]
    ensures forall k :: 0 <= k < |Seqs.Filter(Seqs.Map(parts, Text.Trim), NonEmpty)| ==>
              CleanEntry(Seqs.Filter(Seqs.Map(parts, Text.Trim), NonEmpty)[k])
  {
    var pieces := Seqs.Map(parts, Text.Trim);
    var r := Seqs.Filter(pieces, NonEmpty);
    forall k | 0 <= k < |r| ensures CleanEntry(r[k]) {
      assert r[k] in pieces;
      var i :| 0 <= i < |pieces| && pieces[i] == r[k];
      TrimmedPieceClean(parts[i]);
    }
  }

  lemma TrimmedPieceClean(p: string)
    requires ',' !in p && Text.Trim(p) != ""
    ensures CleanEntry(Text.Trim(p))
  {
    var t := Text.Trim(p);
    assert Text.Trim(t) == t by {
      Text.TrimIdempotent(p);
    }
    assert ',' !in t by {
      forall k | 0 <= k < |t| ensures t[k] != ',' {
        assert t[k] == p[Text.LeadingSpace(p) + k];
      }
    }
  }

  lemma {:induction false} MapTrimClean(xs: seq<string>)
    requires forall k :: 0 <= k < |xs| ==> CleanEntry(xs[k])
    ensures Seqs.Map(xs, Text.Trim) == xs
  {
  }

  /** A list of clean allergens written comma-separated is read back unchanged. */
  lemma ParseAllergensRoundTrip(xs: seq<string>)
    requires forall k :: 0 <= k < |xs| ==> CleanEntry(xs[k])
    ensures ParseAllergens(Text.Join(xs, ',')) == xs
  {
    if |xs| > 0 {
      assert Text.Join(xs, ',') != "" by {
        JoinNonEmpty(xs);
      }
      Text.SplitJoin(xs, ',');
      MapTrimClean(xs);
      Seqs.FilterKeepsAll(xs, NonEmpty);
    }
  }

  lemma JoinNonEmpty(xs: seq<string>)
    requires |xs| > 0 && xs[0] != ""
    ensures |Text.Join(xs, ',')| > 0
  {
  }

  // ----- Submission -----

  /** A `menu_items` row as submitted; `price` keeps the entered text (its `parseFloat` is not modelled). */
  datatype ItemRow = ItemRow(
    name: string,
    description: string,
    price: string,
    imageUrl: Option<string>,
    isAvailable: bool,
    isFeatured: bool,
    dietaryTags: seq<string>,
    preparationTime: int,
    calories: Option<int>,
    allergens: seq<string>,
    sortOrder: nat)

  /** A `menu_categories` row together with the item rows inserted under it. */
  datatype CategoryRow = CategoryRow(
    name: string,
    description: string,
    imageUrl: Option<string>,
    sortOrder: nat,
    items: seq<ItemRow>)

  /** `x || null` for a text field. */
  function OrNull(s: string): Option<string> {
    if s == "" then None else Some(s)
  }

  /** `parseInt(preparationTime) || 15`: NaN and 0 both fall back to 15. */
  function PreparationMinutes(s: string): (r: int)
    ensures r != 0
    ensures Text.ParseInt(s).Some? && Text.ParseInt(s).value != 0 ==> r == Text.ParseInt(s).value
  {
    match Text.ParseInt(s)
    case Some(v) => if v == 0 then 15 else v
    case None => 15
  }

  /** `calories ? parseInt(calories) : null`; a NaN is stored as null. */
  function CaloriesOf(s: string): Option<int> {
    if s == "" then None else Text.ParseInt(s)
  }

  function ItemRowOf(it: FormItem, j: nat): (r: ItemRow)
    ensures r.name == it.name && r.sortOrder == j && r.dietaryTags == it.tags
  {
    ItemRow(it.name, it.description, it.price, OrNull(it.imageUrl), it.isAvailable, it.isFeatured,
            it.tags, PreparationMinutes(it.preparationTime), CaloriesOf(it.calories),
            ParseAllergens(it.allergens), j)
  }

  /** An item row is written only when both its name and its price are filled in. */
  predicate ItemSubmitted(it: FormItem) {
    it.name != "" && it.price != ""
  }

  /** `row` was made by `f` from the filled-in item at its sort order, which lies below `bound`. */
  predicate RowFor(items: seq<FormItem>, row: ItemRow, bound: int, f: (FormItem, nat) -> ItemRow) {
    && 0 <= row.sortOrder < bound
    && row.sortOrder < |items|
    && ItemSubmitted(items[row.sortOrder])
    && row == f(items[row.sortOrder], row.sortOrder)
  }

  /** Every row stands for a filled-in item below `j`. */
  predicate RowsSound(items: seq<FormItem>, rows: seq<ItemRow>, j: int, f: (FormItem, nat) -> ItemRow) {
    forall k :: 0 <= k < |rows| ==> RowFor(items, rows[k], j, f)
  }

  /** The rows are in strictly increasing sort order. */
  predicate RowsIncreasing(rows: seq<ItemRow>) {
    forall k, l :: 0 <= k < l < |rows| ==> rows[k].sortOrder < rows[l].sortOrder
  }

  /** Every filled-in item below `j` has a row. */
  predicate RowsComplete(items: seq<FormItem>, rows: seq<ItemRow>, j: int) {
    forall i :: 0 <= i < j && i < |items| && ItemSubmitted(items[i]) ==>
      exists k :: 0 <= k < |rows| && rows[k].sortOrder == i
  }

  /** The loop state after the first `j` items: the rows written so far are exactly the
      filled-in items below `j`, in order. */
  predicate RowsUpTo(items: seq<FormItem>, rows: seq<ItemRow>, j: int, f: (FormItem, nat) -> ItemRow) {
    && 0 <= j <= |items|
    && RowsSound(items, rows, j, f)
    && RowsIncreasing(rows)
    && RowsComplete(items, rows, j)
  }

  lemma RowsStep(items: seq<FormItem>, rows: seq<ItemRow>, j: int, f: (FormItem, nat) -> ItemRow)
    requires forall it, n :: f(it, n).sortOrder == n
    requires RowsUpTo(items, rows, j, f) && j < |items|
    ensures RowsUpTo(items, if ItemSubmitted(items[j]) then rows + [f(items[j], j)] else rows, j + 1, f)
  {
    if ItemSubmitted(items[j]) {
      var next := rows + [f(items[j], j)];
      assert next[|rows|].sortOrder == j;
      assert RowsSound(items, next, j + 1, f) by {
        forall m | 0 <= m < |rows|
          ensures RowFor(items, next[m], j + 1, f)
        {
          assert next[m] == rows[m];
          assert RowFor(items, rows[m], j, f);
        }
      }
      assert RowsIncreasing(next) by {
        forall k | 0 <= k < |rows|
          ensures next[k].sortOrder < j
        {
          assert next[k] == rows[k];
          assert RowFor(items, rows[k], j, f);
        }
      }
      assert RowsComplete(items, next, j + 1) by {
        forall i | 0 <= i < j && ItemSubmitted(items[i])
          ensures exists m :: 0 <= m < |next| && next[m].sortOrder == i
        {
          var m :| 0 <= m < |rows| && rows[m].sortOrder == i;
          assert next[m] == rows[m];
        }
      }
    } else {
      assert RowsSound(items, rows, j + 1, f) by {
        forall m | 0 <= m < |rows|
          ensures RowFor(items, rows[m], j + 1, f)
        {
          assert RowFor(items, rows[m], j, f);
        }
      }
    }
  }

  /** When the last item below `j` is filled in, its row is the last row. */
  lemma RowsLast(items: seq<FormItem>, rows: seq<ItemRow>, j: int, f: (FormItem, nat) -> ItemRow)
    requires 0 < j <= |items| && ItemSubmitted(items[j - 1])
    requires RowsSound(items, rows, j, f) && RowsIncreasing(rows) && RowsComplete(items, rows, j)
    ensures |rows| > 0 && rows[|rows| - 1].sortOrder == j - 1 && rows[|rows| - 1] == f(items[j - 1], j - 1)
  {
    var k :| 0 <= k < |rows| && rows[k].sortOrder == j - 1;
    assert RowFor(items, rows[|rows| - 1], j, f);
    assert k == |rows| - 1;
    assert RowFor(items, rows[k], j, f);
  }

  /** Without its last row, which stands for item `j - 1`, the rows are those below `j - 1`. */
  lemma RowsFront(items: seq<FormItem>, rows: seq<ItemRow>, j: int, f: (FormItem, nat) -> ItemRow)
    requires 0 < j && RowsUpTo(items, rows, j, f)
    requires |rows| > 0 && rows[|rows| - 1].sortOrder == j - 1
    ensures RowsUpTo(items, rows[..|rows| - 1], j - 1, f)
  {
    var front := rows[..|rows| - 1];
    forall m | 0 <= m < |front|
      ensures RowFor(items, front[m], j - 1, f)
    {
      assert front[m] == rows[m];
      assert RowFor(items, rows[m], j, f);
    }
    forall i | 0 <= i < j - 1 && i < |items| && ItemSubmitted(items[i])
      ensures exists m :: 0 <= m < |front| && front[m].sortOrder == i
    {
      var m :| 0 <= m < |rows| && rows[m].sortOrder == i;
      assert front[m].sortOrder == i;
    }
  }

  /** When item `j - 1` is not filled in, the rows are already those below `j - 1`. */
  lemma RowsSkipLast(items: seq<FormItem>, rows: seq<ItemRow>, j: int, f: (FormItem, nat) -> ItemRow)
    requires 0 < j && RowsUpTo(items, rows, j, f) && !ItemSubmitted(items[j - 1])
    ensures RowsUpTo(items, rows, j - 1, f)
  {
    forall m | 0 <= m < |rows|
      ensures RowFor(items, rows[m], j - 1, f)
    {
      assert RowFor(items, rows[m], j, f);
    }
  }

  /** The loop state pins the rows down: two row lists that both stand for exactly the
      filled-in items below `j`, in order, are the same list. */
  lemma {:induction false} RowsUnique(items: seq<FormItem>, a: seq<ItemRow>, b: seq<ItemRow>, j: int,
                                       f: (FormItem, nat) -> ItemRow)
    requires RowsUpTo(items, a, j, f) && RowsUpTo(items, b, j, f)
    ensures a == b
    decreases j
  {
    if j == 0 {
      assert |a| == 0 && |b| == 0;
    } else {
      if ItemSubmitted(items[j - 1]) {
        assert |a| > 0 && |b| > 0 && a[|a| - 1] == b[|b| - 1] by {
          RowsLast(items, a, j, f);
          RowsLast(items, b, j, f);
        }
        assert a[..|a| - 1] == b[..|b| - 1] by {
          RowsFront(items, a, j, f);
          RowsFront(items, b, j, f);
          RowsUnique(items, a[..|a| - 1], b[..|b| - 1], j - 1, f);
        }
        Seqs.SameFrontAndLast(a, b);
      } else {
        RowsSkipLast(items, a, j, f);
        RowsSkipLast(items, b, j, f);
        RowsUnique(items, a, b, j - 1, f);
      }
    }
  }

  /** The rows `f` makes from the filled-in items, in order. */
  method RowsBy(items: seq<FormItem>, f: (FormItem, nat) -> ItemRow) returns (rows: seq<ItemRow>)
    requires forall it, n :: f(it, n).sortOrder == n
    ensures RowsUpTo(items, rows, |items|, f)
  {
    rows := [];
    var j := 0;
    while j < |items|
      invariant RowsUpTo(items, rows, j, f)
    {
      RowsStep(items, rows, j, f);
      if ItemSubmitted(items[j]) {
        rows := rows + [f(items[j], j)];
      }
      j := j + 1;
    }
  }

  /** `rows` are the item rows of `items`: one per filled-in item, in order, each made by
      `ItemRowOf` with the item's original index as sort order. */
  predicate ItemRowsExactly(items: seq<FormItem>, rows: seq<ItemRow>) {
    RowsUpTo(items, rows, |items|, ItemRowOf)
  }

  /** The item rows of one category: one per filled-in item, in order, each carrying its
      original index as sort order. */
  method ItemRows(items: seq<FormItem>) returns (rows: seq<ItemRow>)
    ensures forall k :: 0 <= k < |rows| ==> RowFor(items, rows[k], |items|, ItemRowOf)
    ensures forall k, l :: 0 <= k < l < |rows| ==> rows[k].sortOrder < rows[l].sortOrder
    ensures forall j :: 0 <= j < |items| && ItemSubmitted(items[j]) ==>
              exists k :: 0 <= k < |rows| && rows[k].sortOrder == j
    ensures ItemRowsExactly(items, rows)
  {
    rows := RowsBy(items, ItemRowOf);
  }

  /** `row` was written for the named category at its sort order, which lies below `bound`:
      it carries the category's text fields and exactly the item rows of its filled-in items. */
  predicate CategoryRowFor(cs: seq<FormCategory>, row: CategoryRow, bound: int) {
    && 0 <= row.sortOrder < bound
    && row.sortOrder < |cs|
    && cs[row.sortOrder].name != ""
    && row.name == cs[row.sortOrder].name
    && row.description == cs[row.sortOrder].description
    && row.imageUrl == OrNull(cs[row.sortOrder].imageUrl)
    && ItemRowsExactly(cs[row.sortOrder].items, row.items)
  }

  /** Every row stands for a named category below `i`. */
  predicate CategoryRowsSound(cs: seq<FormCategory>, rows: seq<CategoryRow>, i: int) {
    forall k :: 0 <= k < |rows| ==> CategoryRowFor(cs, rows[k], i)
  }

  /** The rows are in strictly increasing sort order. */
  predicate CategoryRowsIncreasing(rows: seq<CategoryRow>) {
    forall k, l :: 0 <= k < l < |rows| ==> rows[k].sortOrder < rows[l].sortOrder
  }

  /** Every named category below `i` has a row. */
  predicate CategoryRowsComplete(cs: seq<FormCategory>, rows: seq<CategoryRow>, i: int) {
    forall c :: 0 <= c < i && c < |cs| && cs[c].name != "" ==> exists k :: 0 <= k < |rows| && rows[k].sortOrder == c
  }

  /** The loop state after the first `i` categories: the rows written so far are exactly the
      named categories below `i`, in order. */
  predicate CategoryRowsUpTo(cs: seq<FormCategory>, rows: seq<CategoryRow>, i: int) {
    && 0 <= i <= |cs|
    && CategoryRowsSound(cs, rows, i)
    && CategoryRowsIncreasing(rows)
    && CategoryRowsComplete(cs, rows, i)
  }

  lemma CategoryRowsStep(cs: seq<FormCategory>, rows: seq<CategoryRow>, i: int, row: CategoryRow)
    requires CategoryRowsUpTo(cs, rows, i) && i < |cs| && row.sortOrder == i && CategoryRowFor(cs, row, i + 1)
    ensures CategoryRowsUpTo(cs, rows + [row], i + 1)
  {
    var next := rows + [row];
    assert forall k :: 0 <= k < |rows| ==> next[k] == rows[k];
    assert next[|rows|] == row;
  }

  lemma CategoryRowsSkip(cs: seq<FormCategory>, rows: seq<CategoryRow>, i: int)
    requires CategoryRowsUpTo(cs, rows, i) && i < |cs| && cs[i].name == ""
    ensures CategoryRowsUpTo(cs, rows, i + 1)
  {
  }

  /** Two rows that both stand for the category at the same sort order are the same row. */
  lemma CategoryRowDetermined(cs: seq<FormCategory>, r1: CategoryRow, r2: CategoryRow, b1: int, b2: int)
    requires CategoryRowFor(cs, r1, b1) && CategoryRowFor(cs, r2, b2) && r1.sortOrder == r2.sortOrder
    ensures r1 == r2
  {
    var items := cs[r1.sortOrder].items;
    RowsUnique(items, r1.items, r2.items, |items|, ItemRowOf);
  }

  /** When the last category below `i` is named, its row is the last row. */
  lemma CategoryRowsLast(cs: seq<FormCategory>, rows: seq<CategoryRow>, i: int)
    requires 0 < i <= |cs| && cs[i - 1].name != ""
    requires CategoryRowsSound(cs, rows, i) && CategoryRowsIncreasing(rows) && CategoryRowsComplete(cs, rows, i)
    ensures |rows| > 0 && rows[|rows| - 1].sortOrder == i - 1 && CategoryRowFor(cs, rows[|rows| - 1], i)
  {
    var k :| 0 <= k < |rows| && rows[k].sortOrder == i - 1;
    assert CategoryRowFor(cs, rows[|rows| - 1], i);
    assert k == |rows| - 1;
  }

  /** Without its last row, which stands for category `i - 1`, the rows are those below `i - 1`. */
  lemma CategoryRowsFront(cs: seq<FormCategory>, rows: seq<CategoryRow>, i: int)
    requires 0 < i && CategoryRowsUpTo(cs, rows, i)
    requires |rows| > 0 && rows[|rows| - 1].sortOrder == i - 1
    ensures CategoryRowsUpTo(cs, rows[..|rows| - 1], i - 1)
  {
    var front := rows[..|rows| - 1];
    forall m | 0 <= m < |front|
      ensures CategoryRowFor(cs, front[m], i - 1)
    {
      assert front[m] == rows[m];
      assert CategoryRowFor(cs, rows[m], i);
    }
    forall c | 0 <= c < i - 1 && c < |cs| && cs[c].name != ""
      ensures exists m :: 0 <= m < |front| && front[m].sortOrder == c
    {
      var m :| 0 <= m < |rows| && rows[m].sortOrder == c;
      assert front[m].sortOrder == c;
    }
  }

  /** When category `i - 1` is unnamed, the rows are already those below `i - 1`. */
  lemma CategoryRowsSkipLast(cs: seq<FormCategory>, rows: seq<CategoryRow>, i: int)
    requires 0 < i && CategoryRowsUpTo(cs, rows, i) && cs[i - 1].name == ""
    ensures CategoryRowsUpTo(cs, rows, i - 1)
  {
    forall m | 0 <= m < |rows|
      ensures CategoryRowFor(cs, rows[m], i - 1)
    {
      assert CategoryRowFor(cs, rows[m], i);
    }
  }

  /** The loop state pins the rows down: two row lists that both stand for exactly the named
      categories below `i`, in order, with their fields and item rows, are the same list. */
  lemma {:induction false} CategoryRowsUnique(cs: seq<FormCategory>, a: seq<CategoryRow>, b: seq<CategoryRow>, i: int)
    requires CategoryRowsUpTo(cs, a, i) && CategoryRowsUpTo(cs, b, i)
    ensures a == b
    decreases i
  {
    if i == 0 {
      assert |a| == 0 && |b| == 0;
    } else if cs[i - 1].name != "" {
      assert |a| > 0 && |b| > 0 && a[|a| - 1] == b[|b| - 1] by {
        CategoryRowsLast(cs, a, i);
        CategoryRowsLast(cs, b, i);
        CategoryRowDetermined(cs, a[|a| - 1], b[|b| - 1], i, i);
      }
      assert a[..|a| - 1] == b[..|b| - 1] by {
        CategoryRowsFront(cs, a, i);
        CategoryRowsFront(cs, b, i);
        CategoryRowsUnique(cs, a[..|a| - 1], b[..|b| - 1], i - 1);
      }
      Seqs.SameFrontAndLast(a, b);
    } else {
      CategoryRowsSkipLast(cs, a, i);
      CategoryRowsSkipLast(cs, b, i);
      CategoryRowsUnique(cs, a, b, i - 1);
    }
  }

  /** The rows of every named category, and nothing else: the contract `SubmittedRows` meets,
      which `CategoryRowsUnique` shows admits one list only. */
  predicate CategoryRowsExactly(cs: seq<FormCategory>, rows: seq<CategoryRow>) {
    CategoryRowsUpTo(cs, rows, |cs|)
  }

  /** The rows submission writes: one per named category, in order, with its original index
      as sort order, its text fields, and exactly the item rows of its filled-in items. */
  method SubmittedRows(cs: seq<FormCategory>) returns (rows: seq<CategoryRow>)
    ensures forall k :: 0 <= k < |rows| ==>
              rows[k].sortOrder < |cs| && cs[rows[k].sortOrder].name != ""
              && rows[k].name == cs[rows[k].sortOrder].name
    ensures forall k, l :: 0 <= k < l < |rows| ==> rows[k].sortOrder < rows[l].sortOrder
    ensures forall i :: 0 <= i < |cs| && cs[i].name != "" ==>
              exists k :: 0 <= k < |rows| && rows[k].sortOrder == i
    ensures forall k :: 0 <= k < |rows| ==> forall m :: 0 <= m < |rows[k].items| ==>
              rows[k].items[m].sortOrder < |cs[rows[k].sortOrder].items| &&
              ItemSubmitted(cs[rows[k].sortOrder].items[rows[k].items[m].sortOrder])
    ensures CategoryRowsExactly(cs, rows)
    ensures forall k :: 0 <= k < |rows| ==>
              rows[k].sortOrder < |cs|
              && rows[k].description == cs[rows[k].sortOrder].description
              && rows[k].imageUrl == OrNull(cs[rows[k].sortOrder].imageUrl)
              && ItemRowsExactly(cs[rows[k].sortOrder].items, rows[k].items)
  {
    rows := [];
    var i := 0;
    while i < |cs|
      invariant CategoryRowsUpTo(cs, rows, i)
    {
      if cs[i].name != "" {
        var items := ItemRows(cs[i].items);
        var row := CategoryRow(cs[i].name, cs[i].description, OrNull(cs[i].imageUrl), i, items);
        CategoryRowsStep(cs, rows, i, row);
        rows := rows + [row];
      } else {
        CategoryRowsSkip(cs, rows, i);
      }
      i := i + 1;
    }
    assert forall k :: 0 <= k < |rows| ==> CategoryRowFor(cs, rows[k], |cs|);
  }
}

=== FILE: intent.dfy ===
/** The first stage of the chat pipeline, before any gateway call: the allergy
    guard and the ordered chain of dietary and popularity rules that can answer a
    message straight from the menu. Every test here runs on the lower-cased
    message, as the chat component does. */
module Intent {
  import opened Domain
  import Seqs
  import Text

  // ----- Allergy guard -----

  /** The alternatives of the allergy pattern; `allerg(y|ies|ic)` spelled out. */
  const AllergyWords: seq<string> := [
    "allergy", "allergies", "allergic", "peanut", "nut", "shellfish", "dairy",
    "egg", "soy", "wheat", "gluten", "sesame", "fish"
  ]

  /** The allergy pattern matches: one of its words stands as a whole word. */
  predicate IsAllergyQuery(q: string) {
    Text.HasAnyWholeWord(q, AllergyWords)
  }

  /** `currentRestaurant.phone || 'the restaurant'`. */
  function ContactOf(phone: string): (r: string)
    ensures r != ""
    ensures phone != "" ==> r == phone
  {
    if phone == "" then "the restaurant" else phone
  }

  /** The fixed allergy notice, naming the restaurant's phone number. */
  function AllergyNotice(phone: string): (r: string)
    ensures Text.Contains(r, ContactOf(phone))
    ensures Text.Contains(r, "allergy concerns")
  {
    var r := NoticeOpening + "allergy concerns" + NoticeRequest + ContactOf(phone) + NoticeTail;
    Pieces(NoticeOpening, "allergy concerns", NoticeRequest, ContactOf(phone), NoticeTail);
    r
  }

  /** Where the second and fourth pieces of a five-piece concatenation sit. */
  lemma Pieces(a: string, b: string, c: string, d: string, e: string)
    ensures Text.SubstringAt(a + b + c + d + e, b, |a|)
    ensures Text.SubstringAt(a + b + c + d + e, d, |a| + |b| + |c|)
  {
    var s := a + b + c + d + e;
    assert s[|a|..|a| + |b|] == b;
    assert s[|a| + |b| + |c|..|a| + |b| + |c| + |d|] == d;
  }

  const NoticeOpening := "⚠️ IMPORTANT ALLERGY NOTICE\n\nI understand you have "

  const NoticeRequest := ". For your safety, please contact us directly at "

  const NoticeTail := " to speak with our staff about:\n\n• Specific allergen information\n• Cross-contamination risks\n• Ingredient details\n• Kitchen preparation methods\n\nWhile I can show you our menu items, **I cannot guarantee** any dish is completely safe for severe allergies. We recommend calling us before placing your order so our team can guide you on safe options and ensure proper kitchen precautions.\n\nWould you like to see our menu while you discuss safe options with our team?"

  /** The buttons under the allergy notice. */
  const AllergyActions: seq<SuggestedAction> := [
    SuggestedAction("View Full Menu", ShowMenu),
    SuggestedAction("Show Popular Dishes", ShowFeatured)
  ]

  // ----- The rule chain -----

  /** The five rules, in the order the chain tries them. */
  datatype Rule = VeganRule | GlutenFreeRule | NoFishRule | FishRule | PopularRule

  function Priority(rule: Rule): nat {
    match rule
    case VeganRule => 0
    case GlutenFreeRule => 1
    case NoFishRule => 2
    case FishRule => 3
    case PopularRule => 4
  }

  /** The whole-word alternatives that trigger each rule. */
  function Triggers(rule: Rule): seq<string> {
    match rule
    case VeganRule => ["vegan", "vegetarian"]
    case GlutenFreeRule => ["gluten-free", "gluten free", "glutenfree"]
    case NoFishRule => ["no fish", "without fish", "no seafood"]
    case FishRule => ["fish", "seafood", "salmon", "tuna"]
    case PopularRule => ["popular", "best", "recommend", "featured", "top"]
  }

  predicate Mentions(rule: Rule, q: string) {
    Text.HasAnyWholeWord(q, Triggers(rule))
  }

  /** The `if … else if …` chain: the first rule the message mentions, if any. */
  function Classify(q: string): Option<Rule> {
    if Mentions(VeganRule, q) then Some(VeganRule)
    else if Mentions(GlutenFreeRule, q) then Some(GlutenFreeRule)
    else if Mentions(NoFishRule, q) then Some(NoFishRule)
    else if Mentions(FishRule, q) then Some(FishRule)
    else if Mentions(PopularRule, q) then Some(PopularRule)
    else None
  }

  /** The chain picks a rule exactly when the message mentions it and mentions no rule of
      higher priority. */
  lemma ClassifyPicksFirst(q: string, rule: Rule)
    ensures Classify(q) == Some(rule) <==>
              Mentions(rule, q) && forall other: Rule :: Priority(other) < Priority(rule) ==> !Mentions(other, q)
  {
    var earlier := forall other: Rule :: Priority(other) < Priority(rule) ==> !Mentions(other, q);
    var m0, m1, m2, m3 := Mentions(VeganRule, q), Mentions(GlutenFreeRule, q), Mentions(NoFishRule, q), Mentions(FishRule, q);
    match rule
    case VeganRule =>
    case GlutenFreeRule =>
      assert earlier <==> !m0;
    case NoFishRule =>
      assert earlier <==> !m0 && !m1;
    case FishRule =>
      assert earlier <==> !m0 && !m1 && !m2;
    case PopularRule =>
      assert earlier <==> !m0 && !m1 && !m2 && !m3;
  }

  /** The chain picks no rule exactly when the message mentions none. */
  lemma ClassifyNone(q: string)
    ensures Classify(q).None? <==> forall other: Rule :: !Mentions(other, q)
  {
    if Classify(q).None? {
      forall other: Rule ensures !Mentions(other, q) {
        match other
        case VeganRule =>
        case GlutenFreeRule =>
        case NoFishRule =>
        case FishRule =>
        case PopularRule =>
      }
    }
  }

  // ----- What each rule keeps -----

  /** The words of the seafood pattern; it has no word boundaries, so any occurrence counts. */
  const SeafoodWords: seq<string> := [
    "fish", "salmon", "tuna", "shrimp", "crab", "lobster", "seafood", "sashimi", "nigiri", "eel"
  ]

  predicate VeggieTagged(x: MenuItem) {
    exists k | 0 <= k < |x.dietaryTags| :: Text.ContainsAnyCI(x.dietaryTags[k], ["vegan", "vegetarian"])
  }

  predicate GlutenTagged(x: MenuItem) {
    exists k | 0 <= k < |x.dietaryTags| :: Text.ContainsAnyCI(x.dietaryTags[k], ["gluten"])
  }

  /** The seafood pattern matches the item's name and description joined by a space. */
  predicate SeafoodDish(x: MenuItem) {
    Text.ContainsAnyCI(x.name + " " + x.description, SeafoodWords)
  }

  /** What a rule asks of an item, availability aside. */
  predicate Matches(rule: Rule, x: MenuItem) {
    match rule
    case VeganRule => VeggieTagged(x)
    case GlutenFreeRule => GlutenTagged(x)
    case NoFishRule => !SeafoodDish(x)
    case FishRule => SeafoodDish(x)
    case PopularRule => x.isFeatured
  }

  /** The direct filter: available items the rule matches, except that the popularity rule
      takes every featured item, available or not. */
  predicate DirectKeeps(rule: Rule, x: MenuItem) {
    if rule == PopularRule then x.isFeatured else x.isAvailable && Matches(rule, x)
  }

  /** The fixed text of each rule's direct answer. */
  function DirectText(rule: Rule): Phrase {
    match rule
    case VeganRule => VeganPicks
    case GlutenFreeRule => GlutenFreePicks
    case NoFishRule => NoFishPicks
    case FishRule => FishPicks
    case PopularRule => PopularPicks
  }

  /** The first `n` menu items, in menu order, that pass `p`. */
  function FirstMatches(menu: seq<MenuItem>, p: MenuItem -> bool, n: nat): (r: seq<MenuItem>)
    ensures |r| == if |Seqs.Filter(menu, p)| < n then |Seqs.Filter(menu, p)| else n
    ensures r == Seqs.Filter(menu, p)[..|r|]
    ensures |r| <= n
    ensures Seqs.IsSubseq(r, menu)
    ensures forall x :: x in r ==> x in menu && p(x)
    ensures |r| < n ==> forall x :: x in menu && p(x) ==> x in r
    ensures n > 0 ==> (|r| == 0 <==> forall x :: x in menu ==> !p(x))
  {
    Seqs.TakeFilterIsSubseq(menu, p, n);
    Seqs.SubseqMembers(Seqs.Take(Seqs.Filter(menu, p), n), menu);
    var f := Seqs.Filter(menu, p);
    var r := Seqs.Take(f, n);
    assert |f| > 0 ==> f[0] in f;
    forall x | x in r ensures p(x) {
      var k :| 0 <= k < |r| && r[k] == x;
      assert f[k] == x;
    }
    assert r == f[..|r|];
    r
  }

  /** The test `directFilteredItems` applies for a rule. */
  function Keeps(rule: Rule): MenuItem -> bool {
    (x: MenuItem) => DirectKeeps(rule, x)
  }

  /** `directFilteredItems`: nothing when no rule applies, otherwise up to twelve items,
      in menu order, that the rule keeps; fewer than twelve only when no other item
      qualifies; they are the first twelve the rule keeps. */
  function DirectItems(menu: seq<MenuItem>, q: string): (r: Option<seq<MenuItem>>)
    ensures r.None? <==> Classify(q).None?
    ensures r.Some? ==>
              var f := Seqs.Filter(menu, Keeps(Classify(q).value));
              |r.value| == (if |f| < 12 then |f| else 12) && r.value == f[..|r.value|]
    ensures r.Some? ==> |r.value| <= 12 && Seqs.IsSubseq(r.value, menu)
    ensures r.Some? ==> forall x :: x in r.value ==> DirectKeeps(Classify(q).value, x)
    ensures r.Some? && |r.value| < 12 ==>
              forall x :: x in menu && DirectKeeps(Classify(q).value, x) ==> x in r.value
  {
    match Classify(q)
    case None => None
    case Some(rule) => Some(FirstMatches(menu, Keeps(rule), 12))
  }

  /** Apart from the popularity rule, every directly listed item is available. */
  lemma DirectItemsAvailable(menu: seq<MenuItem>, q: string)
    requires Classify(q).Some? && Classify(q) != Some(PopularRule)
    ensures forall x :: x in DirectItems(menu, q).value ==> x.isAvailable
  {
  }

  /** The two fish rules split the available items between them: an available item is kept
      by exactly one, and their two filters together hold every available item once. */
  lemma {:induction false} FishRulesPartition(menu: seq<MenuItem>)
    ensures forall x: MenuItem :: x.isAvailable ==> (DirectKeeps(NoFishRule, x) <==> !DirectKeeps(FishRule, x))
    ensures multiset(Seqs.Filter(menu, (x: MenuItem) => DirectKeeps(NoFishRule, x)))
              + multiset(Seqs.Filter(menu, (x: MenuItem) => DirectKeeps(FishRule, x)))
            == multiset(Seqs.Filter(menu, (x: MenuItem) => x.isAvailable))
    decreases |menu|
  {
    if |menu| > 0 {
      FishRulesPartition(menu[1..]);
    }
  }

  // ----- The allergy guard shadows parts of the chain -----

  lemma LowerCharWord(c: char)
    ensures Text.IsWordChar(Text.LowerChar(c)) == Text.IsWordChar(c)
  {
  }

  /** A piece of a whole-word match that is cut at word/non-word changes is itself a whole word. */
  lemma InnerWord(q: string, w: string, i: int, k: nat, j: nat)
    requires Text.WholeWordAt(q, w, i)
    requires k < j <= |w|
    requires 0 < k ==> Text.IsWordChar(w[k - 1]) != Text.IsWordChar(w[k])
    requires j < |w| ==> Text.IsWordChar(w[j - 1]) != Text.IsWordChar(w[j])
    ensures Text.WholeWordAt(q, w[k..j], i + k)
  {
    LowerSliceAgree(q, w, i, k, j);
    BoundaryInside(q, w, i, k);
    BoundaryInside(q, w, i, j);
    assert |w[k..j]| == j - k;
  }

  /** Inside a whole-word match, a point between a word and a non-word character of `w` is a
      word boundary of the text. */
  lemma BoundaryInside(q: string, w: string, i: int, t: nat)
    requires Text.WholeWordAt(q, w, i)
    requires t <= |w|
    requires 0 < t < |w| ==> Text.IsWordChar(w[t - 1]) != Text.IsWordChar(w[t])
    ensures Text.Boundary(q, i + t)
  {
    if 0 < t < |w| {
      WordCharsAgree(q, w, i);
      assert Text.IsWordChar(q[i + t - 1]) == Text.IsWordChar(w[t - 1]);
      assert Text.IsWordChar(q[i + t]) == Text.IsWordChar(w[t]);
    }
  }

  /** Where `w` matches ignoring case, the text and `w` agree on which characters are word
      characters. */
  lemma WordCharsAgree(q: string, w: string, i: int)
    requires 0 <= i && i + |w| <= |q| && Text.Lower(q[i..i + |w|]) == Text.Lower(w)
    ensures forall p :: 0 <= p < |w| ==> Text.IsWordChar(q[i + p]) == Text.IsWordChar(w[p])
  {
    var m := q[i..i + |w|];
    forall p | 0 <= p < |w| ensures Text.IsWordChar(q[i + p]) == Text.IsWordChar(w[p]) {
      assert Text.Lower(m)[p] == Text.Lower(w)[p];
      assert m[p] == q[i + p];
      LowerCharWord(q[i + p]);
      LowerCharWord(w[p]);
    }
  }

  /** A case-insensitive match of `w` is one of each of its slices. */
  lemma LowerSliceAgree(q: string, w: string, i: int, k: nat, j: nat)
    requires 0 <= i && i + |w| <= |q| && Text.Lower(q[i..i + |w|]) == Text.Lower(w)
    requires k < j <= |w|
    ensures Text.Lower(q[i + k..i + j]) == Text.Lower(w[k..j])
  {
    var m := q[i..i + |w|];
    forall p | 0 <= p < j - k ensures Text.Lower(q[i + k..i + j])[p] == Text.Lower(w[k..j])[p] {
      assert Text.Lower(m)[k + p] == Text.Lower(w)[k + p];
      assert m[k + p] == q[i + k + p];
    }
  }

  lemma AnyOfTwo(q: string, a: string, b: string)
    ensures Text.HasAnyWholeWord(q, [a, b]) <==> Text.HasWholeWord(q, a) || Text.HasWholeWord(q, b)
  {
    if Text.HasWholeWord(q, a) { assert [a, b][0] == a; }
    if Text.HasWholeWord(q, b) { assert [a, b][1] == b; }
  }

  lemma AnyOfThree(q: string, a: string, b: string, c: string)
    ensures Text.HasAnyWholeWord(q, [a, b, c]) <==> Text.HasWholeWord(q, a) || Text.HasWholeWord(q, b) || Text.HasWholeWord(q, c)
  {
    if Text.HasWholeWord(q, a) { assert [a, b, c][0] == a; }
    if Text.HasWholeWord(q, b) { assert [a, b, c][1] == b; }
    if Text.HasWholeWord(q, c) { assert [a, b, c][2] == c; }
  }

  /** A whole-word match of `w` holds a whole-word match of `w[k..j]` when the cut points fall
      between a word and a non-word character. */
  lemma InnerWordOf(q: string, w: string, k: nat, j: nat)
    requires k < j <= |w|
    requires 0 < k ==> Text.IsWordChar(w[k - 1]) != Text.IsWordChar(w[k])
    requires j < |w| ==> Text.IsWordChar(w[j - 1]) != Text.IsWordChar(w[j])
    ensures Text.HasWholeWord(q, w) ==> Text.HasWholeWord(q, w[k..j])
  {
    if Text.HasWholeWord(q, w) {
      var i :| 0 <= i <= |q| - |w| && Text.WholeWordAt(q, w, i);
      InnerWord(q, w, i, k, j);
    }
  }

  /** "no fish" and "without fish" contain the whole word "fish"; "gluten-free" and
      "gluten free" contain the whole word "gluten". */
  lemma ShadowingWords(q: string)
    ensures Text.HasWholeWord(q, "no fish") ==> Text.HasWholeWord(q, "fish")
    ensures Text.HasWholeWord(q, "without fish") ==> Text.HasWholeWord(q, "fish")
    ensures Text.HasWholeWord(q, "gluten-free") ==> Text.HasWholeWord(q, "gluten")
    ensures Text.HasWholeWord(q, "gluten free") ==> Text.HasWholeWord(q, "gluten")
  {
    assert "no fish"[3..7] == "fish";
    InnerWordOf(q, "no fish", 3, 7);
    assert "without fish"[8..12] == "fish";
    InnerWordOf(q, "without fish", 8, 12);
    assert "gluten-free"[0..6] == "gluten";
    InnerWordOf(q, "gluten-free", 0, 6);
    assert "gluten free"[0..6] == "gluten";
    InnerWordOf(q, "gluten free", 0, 6);
  }

  /** Because the allergy guard runs first, a message that reaches the chain can select the
      gluten-free rule only through "glutenfree", the no-fish rule only through "no seafood",
      and the fish rule never through the word "fish". */
  lemma AllergyGuardShadowsRules(q: string)
    ensures !IsAllergyQuery(q) && Classify(q) == Some(GlutenFreeRule) ==> Text.HasWholeWord(q, "glutenfree")
    ensures !IsAllergyQuery(q) && Classify(q) == Some(NoFishRule) ==> Text.HasWholeWord(q, "no seafood")
    ensures !IsAllergyQuery(q) && Classify(q) == Some(FishRule) ==>
              Text.HasAnyWholeWord(q, ["seafood", "salmon", "tuna"])
  {
    ShadowingWords(q);
    assert AllergyWords[12] == "fish" && AllergyWords[10] == "gluten";
    AnyOfThree(q, "gluten-free", "gluten free", "glutenfree");
    AnyOfThree(q, "no fish", "without fish", "no seafood");
    AnyOfThree(q, "seafood", "salmon", "tuna");
    var fishWords := ["fish", "seafood", "salmon", "tuna"];
    if Text.HasAnyWholeWord(q, fishWords) && !Text.HasWholeWord(q, "fish") {
      var k :| 0 <= k < 4 && Text.HasWholeWord(q, fishWords[k]);
      assert fishWords[k] == ["seafood", "salmon", "tuna"][k - 1];
    }
  }
}

=== FILE: menu_section.dfy ===
/** The menu page: which items a category tab shows, the sorted list of dietary tags
    found on the menu, the dietary filter, and which of the fixed dietary buttons
    are offered. */
module MenuSection {
  import opened Domain
  import Seqs
  import Ctx = Restaurant

  // ----- Category tab -----

  /** `selectedCategory || 'all'`: no selection and the empty id both mean every category. */
  function ActiveCategory(selected: Option<string>): string {
    if selected.None? || selected.value == "" then "all" else selected.value
  }

  /** `items`: the whole menu on the "all" tab (unavailable items included), otherwise the
      available items of that category. */
  function TabItems(menu: seq<MenuItem>, selected: Option<string>): (r: seq<MenuItem>)
    ensures ActiveCategory(selected) == "all" ==> r == menu
    ensures ActiveCategory(selected) != "all" ==>
              forall x :: x in r <==> x in menu && x.isAvailable && x.categoryId == ActiveCategory(selected)
    ensures Seqs.IsSubseq(r, menu)
  {
    var c := ActiveCategory(selected);
    if c == "all" then
      Seqs.SubseqRefl(menu);
      menu
    else Ctx.ItemsByCategory(menu, c)
  }

  // ----- String order -----

  /** The order of the default `Array.prototype.sort`: lexicographic by character. */
  predicate StrLt(a: string, b: string)
    decreases |a|
  {
    |b| > 0 && (|a| == 0 || a[0] < b[0] || (a[0] == b[0] && StrLt(a[1..], b[1..])))
  }

  lemma {:induction false} StrLtIrreflexive(a: string)
    ensures !StrLt(a, a)
    decreases |a|
  {
    if |a| > 0 {
      StrLtIrreflexive(a[1..]);
    }
  }

  lemma {:induction false} StrLtTransitive(a: string, b: string, c: string)
    requires StrLt(a, b) && StrLt(b, c)
    ensures StrLt(a, c)
    decreases |a|
  {
    if |a| > 0 && a[0] == b[0] && b[0] == c[0] {
      StrLtTransitive(a[1..], b[1..], c[1..]);
    }
  }

  lemma {:induction false} StrLtTotal(a: string, b: string)
    requires a != b
    ensures StrLt(a, b) || StrLt(b, a)
    decreases |a|
  {
    if |a| > 0 && |b| > 0 && a[0] == b[0] {
      assert a == [a[0]] + a[1..] && b == [b[0]] + b[1..];
      StrLtTotal(a[1..], b[1..]);
    }
  }

  /** Strictly increasing in `StrLt`; in particular free of duplicates. */
  predicate StrictlySorted(t: seq<string>) {
    forall i, j :: 0 <= i < j < |t| ==> StrLt(t[i], t[j])
  }

  lemma SortedIsDistinct(t: seq<string>)
    requires StrictlySorted(t)
    ensures forall i, j :: 0 <= i < j < |t| ==> t[i] != t[j]
  {
    forall i, j | 0 <= i < j < |t| ensures t[i] != t[j] {
      StrLtIrreflexive(t[i]);
    }
  }

  /** Inserts `x` at its place in a strictly sorted list, unless it is already there. */
  function InsertTag(t: seq<string>, x: string): (r: seq<string>)
    requires StrictlySorted(t)
    ensures StrictlySorted(r)
    ensures forall y :: y in r <==> y in t || y == x
    decreases |t|
  {
    if |t| == 0 then [x]
    else if t[0] == x then t
    else if StrLt(x, t[0]) then
      forall j | 0 < j < |t| ensures StrLt(x, t[j]) {
        StrLtTransitive(x, t[0], t[j]);
      }
      [x] + t
    else
      StrLtTotal(x, t[0]);
      var rest := InsertTag(t[1..], x);
      forall y | y in rest ensures StrLt(t[0], y) {
        if y != x {
          var j :| 1 <= j < |t| && t[j] == y;
        }
      }
      [t[0]] + rest
  }

  /** The distinct strings of `s`, sorted. */
  function SortUnique(s: seq<string>): (r: seq<string>)
    ensures StrictlySorted(r)
    ensures forall y :: y in r <==> y in s
    decreases |s|
  {
    if |s| == 0 then [] else InsertTag(SortUnique(s[..|s| - 1]), s[|s| - 1])
  }

  /** Two strictly sorted lists with the same elements are equal: the sorted order is unique. */
  lemma {:induction false} SortedUnique(a: seq<string>, b: seq<string>)
    requires StrictlySorted(a) && StrictlySorted(b)
    requires forall y :: y in a <==> y in b
    ensures a == b
    decreases |a|
  {
    SameElementsBothEmpty(a, b);
    if |a| > 0 && |b| > 0 {
      HeadsEqual(a, b);
      forall y ensures y in a[1..] <==> y in b[1..] {
        SortedTail(a, y);
        SortedTail(b, y);
      }
      SortedUnique(a[1..], b[1..]);
    }
  }

  lemma SameElementsBothEmpty(a: seq<string>, b: seq<string>)
    requires forall y :: y in a <==> y in b
    ensures |a| == 0 <==> |b| == 0
  {
    if |a| > 0 { assert a[0] in a; }
    if |b| > 0 { assert b[0] in b; }
  }

  lemma {:induction false} StrLtAsymmetric(a: string, b: string)
    ensures StrLt(a, b) ==> !StrLt(b, a)
    decreases |a|
  {
    if |a| > 0 && |b| > 0 {
      StrLtAsymmetric(a[1..], b[1..]);
    }
  }

  /** The head of a strictly sorted list is below every other element. */
  lemma HeadIsLeast(a: seq<string>, y: string)
    requires StrictlySorted(a) && y in a
    ensures y == a[0] || StrLt(a[0], y)
  {
    var j :| 0 <= j < |a| && a[j] == y;
  }

  lemma HeadsEqual(a: seq<string>, b: seq<string>)
    requires StrictlySorted(a) && StrictlySorted(b) && |a| > 0 && |b| > 0
    requires forall y :: y in a <==> y in b
    ensures a[0] == b[0]
  {
    HeadIsLeast(a, b[0]);
    HeadIsLeast(b, a[0]);
    StrLtAsymmetric(a[0], b[0]);
  }

  /** In a strictly sorted list, the tail holds exactly the elements other than the head. */
  lemma SortedTail(a: seq<string>, y: string)
    requires StrictlySorted(a) && |a| > 0
    ensures y in a[1..] <==> y in a && y != a[0]
  {
    SortedIsDistinct(a);
    if y in a && y != a[0] {
      var j :| 0 <= j < |a| && a[j] == y;
      assert a[1..][j - 1] == y;
    }
  }

  // ----- Dietary tags -----

  /** Every item's tags, concatenated in menu order. */
  function AllTags(menu: seq<MenuItem>): (r: seq<string>)
    ensures forall y :: y in r <==> exists i :: 0 <= i < |menu| && y in menu[i].dietaryTags
    decreases |menu|
  {
    if |menu| == 0 then []
    else
      var n := |menu| - 1;
      var r := AllTags(menu[..n]) + menu[n].dietaryTags;
      forall y | (exists i :: 0 <= i < |menu| && y in menu[i].dietaryTags) ensures y in r {
        var i :| 0 <= i < |menu| && y in menu[i].dietaryTags;
        if i < n { assert menu[..n][i] == menu[i]; }
      }
      r
  }

  /** `availableDietaryTags`: the distinct tags found on the menu, in sort order. */
  function AvailableDietaryTags(menu: seq<MenuItem>): (r: seq<string>)
    ensures StrictlySorted(r)
    ensures forall i, j :: 0 <= i < j < |r| ==> r[i] != r[j]
    ensures forall y :: y in r <==> exists i :: 0 <= i < |menu| && y in menu[i].dietaryTags
  {
    var r := SortUnique(AllTags(menu));
    SortedIsDistinct(r);
    r
  }

  /** The tag list does not depend on the order of the menu. */
  lemma TagsIgnoreMenuOrder(menu: seq<MenuItem>, other: seq<MenuItem>)
    requires multiset(menu) == multiset(other)
    ensures AvailableDietaryTags(menu) == AvailableDietaryTags(other)
  {
    var a := AvailableDietaryTags(menu);
    var b := AvailableDietaryTags(other);
    forall y ensures y in a <==> y in b {
      if y in a {
        var i :| 0 <= i < |menu| && y in menu[i].dietaryTags;
        assert menu[i] in multiset(other);
        var j :| 0 <= j < |other| && other[j] == menu[i];
      }
      if y in b {
        var j :| 0 <= j < |other| && y in other[j].dietaryTags;
        assert other[j] in multiset(menu);
        var i :| 0 <= i < |menu| && menu[i] == other[j];
      }
    }
    SortedUnique(a, b);
  }

  // ----- Dietary filter -----

  predicate HasTag(filter: string, x: MenuItem) {
    filter in x.dietaryTags
  }

  /** `filteredItems`: the tab's items carrying the chosen tag, or all of them for "all". */
  function FilteredItems(items: seq<MenuItem>, filter: string): (r: seq<MenuItem>)
    ensures filter != "all" ==> forall x :: x in r <==> x in items && filter in x.dietaryTags
    ensures Seqs.IsSubseq(r, items)
  {
    var p := (x: MenuItem) => filter == "all" || HasTag(filter, x);
    Seqs.FilterIsSubseq(items, p);
    Seqs.Filter(items, p)
  }

  /** The "all" filter shows the tab's items unchanged. */
  lemma FilterAllShowsTab(items: seq<MenuItem>)
    ensures FilteredItems(items, "all") == items
  {
    Seqs.FilterKeepsAll(items, (x: MenuItem) => "all" == "all" || HasTag("all", x));
  }

  // ----- Dietary buttons -----

  datatype DietaryOption = DietaryOption(value: string, caption: string)

  const DietaryOptions: seq<DietaryOption> := [
    DietaryOption("vegetarian", "Vegetarian"),
    DietaryOption("vegan", "Vegan"),
    DietaryOption("gluten-free", "Gluten-Free")
  ]

  /** `availableOptions`: the fixed options, in their order, whose tag occurs in `tags`. */
  function AvailableOptions(tags: seq<string>): (r: seq<DietaryOption>)
    ensures forall o :: o in r <==> o in DietaryOptions && o.value in tags
    ensures Seqs.IsSubseq(r, DietaryOptions)
    ensures |r| <= 3
  {
    var p := (o: DietaryOption) => o.value in tags;
    Seqs.FilterIsSubseq(DietaryOptions, p);
    Seqs.Filter(DietaryOptions, p)
  }

  /** A dietary button is offered exactly when some menu item carries its tag, and then the
      "all" tab filtered by it is not empty. */
  lemma OptionOfferedIffUsed(menu: seq<MenuItem>, o: DietaryOption)
    requires o in DietaryOptions
    ensures o in AvailableOptions(AvailableDietaryTags(menu)) <==>
              exists i :: 0 <= i < |menu| && o.value in menu[i].dietaryTags
    ensures o in AvailableOptions(AvailableDietaryTags(menu)) ==>
              |FilteredItems(TabItems(menu, None), o.value)| > 0
  {
    if o in AvailableOptions(AvailableDietaryTags(menu)) {
      var i :| 0 <= i < |menu| && o.value in menu[i].dietaryTags;
      assert o.value != "all";
      assert menu[i] in FilteredItems(menu, o.value);
    }
  }
}

=== FILE: order_history.dfy ===
/** The order history panel: "order again" (every past line put back through the
    cart's add operation), the status badge colour and icon, and the choice of date
    format by the order's age. */
module OrderHistory {
  import opened Domain
  import Cart

  // ----- Order again -----

  /** A line of a stored order. Fields the datastore may leave out are `Option`s; a
      stored quantity of 0 is as good as a missing one. */
  datatype PastItem = PastItem(
    menuItemId: Option<string>,
    name: string,
    price: int,
    quantity: Option<int>,
    customizations: Option<seq<Customization>>)

  /** `item.quantity || 1`. */
  function QuantityOrOne(q: Option<int>): (r: int)
    ensures r != 0
    ensures q.Some? && q.value != 0 ==> r == q.value
  {
    if q.None? || q.value == 0 then 1 else q.value
  }

  /** The cart line `handleOrderAgain` builds from a stored line. */
  function LineOf(p: PastItem): (l: CartLine)
    ensures l.quantity == QuantityOrOne(p.quantity)
    ensures l.menuItemId == (if p.menuItemId.Some? then p.menuItemId.value else "")
    ensures l.customizations == (if p.customizations.Some? then p.customizations.value else [])
  {
    CartLine(
      if p.menuItemId.Some? then p.menuItemId.value else "",
      p.name,
      p.price,
      QuantityOrOne(p.quantity),
      if p.customizations.Some? then p.customizations.value else [])
  }

  /** The total quantity "order again" puts back: `quantity || 1` summed over the lines. */
  function ReorderQuantity(items: seq<PastItem>): int
    decreases |items|
  {
    if |items| == 0 then 0 else ReorderQuantity(items[..|items| - 1]) + QuantityOrOne(items[|items| - 1].quantity)
  }

  /** Adds the lines in order, as `forEach(addToCart)` does. */
  function AddAll(c: Cart.Cart, items: seq<PastItem>): (r: Cart.Cart)
    ensures Cart.ItemCount(r) == Cart.ItemCount(c) + ReorderQuantity(items)
    ensures Cart.KeysUnique(c) ==> Cart.KeysUnique(r)
    ensures |r| <= |c| + |items|
    decreases |items|
  {
    if |items| == 0 then c
    else
      var n := |items| - 1;
      var prev := AddAll(c, items[..n]);
      var line := LineOf(items[n]);
      Cart.AddToCartCount(prev, line);
      Cart.AddToCartKeepsKeysUnique(prev, line);
      Cart.AddToCart(prev, line)
  }

  /** `handleOrderAgain`: nothing happens when the order has no item list. */
  function OrderAgain(c: Cart.Cart, items: Option<seq<PastItem>>): (r: Cart.Cart)
    ensures items.None? ==> r == c
    ensures items.Some? ==> Cart.ItemCount(r) == Cart.ItemCount(c) + ReorderQuantity(items.value)
    ensures Cart.KeysUnique(c) ==> Cart.KeysUnique(r)
  {
    if items.None? then c else AddAll(c, items.value)
  }

  lemma NoMatchAppends(c: Cart.Cart, line: CartLine)
    requires forall j :: 0 <= j < |c| ==> !Cart.SameKey(c[j], line)
    ensures Cart.AddToCart(c, line) == c + [line]
  {
  }

  /** `c` holds exactly the lines built from `items`, in order. */
  predicate Rebuilt(c: Cart.Cart, items: seq<PastItem>) {
    |c| == |items| && forall k :: 0 <= k < |items| ==> c[k] == LineOf(items[k])
  }

  predicate DistinctLines(items: seq<PastItem>) {
    forall i, j :: 0 <= i < j < |items| ==> !Cart.SameKey(LineOf(items[i]), LineOf(items[j]))
  }

  lemma AddAllLast(c: Cart.Cart, items: seq<PastItem>)
    requires |items| > 0
    ensures AddAll(c, items) == Cart.AddToCart(AddAll(c, items[..|items| - 1]), LineOf(items[|items| - 1]))
  {
  }

  lemma DistinctPrefix(items: seq<PastItem>, n: nat)
    requires DistinctLines(items) && n <= |items|
    ensures DistinctLines(items[..n])
  {
    var init := items[..n];
    forall i, j | 0 <= i < j < |init| ensures !Cart.SameKey(LineOf(init[i]), LineOf(init[j])) {
      assert init[i] == items[i] && init[j] == items[j];
    }
  }

  lemma RebuiltAppend(prev: Cart.Cart, items: seq<PastItem>)
    requires |items| > 0 && DistinctLines(items)
    requires Rebuilt(prev, items[..|items| - 1])
    ensures Cart.AddToCart(prev, LineOf(items[|items| - 1])) == prev + [LineOf(items[|items| - 1])]
    ensures Rebuilt(prev + [LineOf(items[|items| - 1])], items)
  {
    var n := |items| - 1;
    var line := LineOf(items[n]);
    forall j | 0 <= j < |prev| ensures !Cart.SameKey(prev[j], line) {
      assert prev[j] == LineOf(items[..n][j]) && items[..n][j] == items[j];
    }
    NoMatchAppends(prev, line);
    var r := prev + [line];
    forall k | 0 <= k < |items| ensures r[k] == LineOf(items[k]) {
      if k < n {
        assert r[k] == prev[k] && items[..n][k] == items[k];
      }
    }
  }

  /** Ordering the same lines again onto an empty cart, where every line has its own item and
      customisations, rebuilds them one cart line each, in order. */
  lemma {:induction false} ReorderDistinctLines(items: seq<PastItem>)
    requires DistinctLines(items)
    ensures Rebuilt(AddAll([], items), items)
    decreases |items|
  {
    if |items| > 0 {
      var n := |items| - 1;
      DistinctPrefix(items, n);
      ReorderDistinctLines(items[..n]);
      AddAllLast([], items);
      RebuiltAppend(AddAll([], items[..n]), items);
    }
  }

  // ----- Status badge -----

  /** The status groups both badge functions distinguish. */
  datatype StatusGroup = Waiting | InKitchen | Finished | Cancelled | Unknown

  function GroupOf(status: string): StatusGroup {
    if status == "pending" then Waiting
    else if status == "confirmed" || status == "preparing" then InKitchen
    else if status == "ready" || status == "delivered" then Finished
    else if status == "cancelled" then Cancelled
    else Unknown
  }

  datatype IconShape = ClockIcon | PackageIcon | CheckCircleIcon | XCircleIcon

  /** An icon: its shape and its tint. */
  datatype StatusIcon = StatusIcon(shape: IconShape, tint: string)

  /** `getStatusIcon`. */
  function StatusIconOf(status: string): StatusIcon {
    match status
    case "pending" => StatusIcon(ClockIcon, "text-yellow-600")
    case "confirmed" => StatusIcon(PackageIcon, "text-blue-600")
    case "preparing" => StatusIcon(PackageIcon, "text-blue-600")
    case "ready" => StatusIcon(CheckCircleIcon, "text-green-600")
    case "delivered" => StatusIcon(CheckCircleIcon, "text-green-600")
    case "cancelled" => StatusIcon(XCircleIcon, "text-red-600")
    case _ => StatusIcon(ClockIcon, "text-gray-600")
  }

  /** `getStatusColor`. */
  function StatusColorOf(status: string): string {
    match status
    case "pending" => "bg-yellow-100 text-yellow-800"
    case "confirmed" => "bg-blue-100 text-blue-800"
    case "preparing" => "bg-blue-100 text-blue-800"
    case "ready" => "bg-green-100 text-green-800"
    case "delivered" => "bg-green-100 text-green-800"
    case "cancelled" => "bg-red-100 text-red-800"
    case _ => "bg-gray-100 text-gray-800"
  }

  /** The icon and the colour each tell exactly the status group apart: two statuses get the
      same icon iff they get the same colour iff they are in the same group. */
  lemma BadgesAgree(a: string, b: string)
    ensures StatusIconOf(a) == StatusIconOf(b) <==> GroupOf(a) == GroupOf(b)
    ensures StatusColorOf(a) == StatusColorOf(b) <==> GroupOf(a) == GroupOf(b)
  {
    IconByGroup(a);
    IconByGroup(b);
    ColorByGroup(a);
    ColorByGroup(b);
    GroupBadgesDistinct(GroupOf(a), GroupOf(b));
  }

  /** The icon of each group. */
  function GroupIcon(g: StatusGroup): StatusIcon {
    match g
    case Waiting => StatusIcon(ClockIcon, "text-yellow-600")
    case InKitchen => StatusIcon(PackageIcon, "text-blue-600")
    case Finished => StatusIcon(CheckCircleIcon, "text-green-600")
    case Cancelled => StatusIcon(XCircleIcon, "text-red-600")
    case Unknown => StatusIcon(ClockIcon, "text-gray-600")
  }

  /** The colour of each group. */
  function GroupColor(g: StatusGroup): string {
    match g
    case Waiting => "bg-yellow-100 text-yellow-800"
    case InKitchen => "bg-blue-100 text-blue-800"
    case Finished => "bg-green-100 text-green-800"
    case Cancelled => "bg-red-100 text-red-800"
    case Unknown => "bg-gray-100 text-gray-800"
  }

  lemma IconByGroup(s: string)
    ensures StatusIconOf(s) == GroupIcon(GroupOf(s))
  {
  }

  lemma ColorByGroup(s: string)
    ensures StatusColorOf(s) == GroupColor(GroupOf(s))
  {
  }

  /** Different groups get different icons and different colours. */
  lemma GroupBadgesDistinct(g: StatusGroup, h: StatusGroup)
    ensures GroupIcon(g) == GroupIcon(h) <==> g == h
    ensures GroupColor(g) == GroupColor(h) <==> g == h
  {
  }

  // ----- Date format -----

  datatype DateFormat = TimeOnly | WeekdayAndTime | MonthAndDay

  const HourMs := 1000 * 60 * 60

  /** `formatDate`'s choice for an order `ageMs` milliseconds old; an unparsable date has no
      age (NaN), fails both comparisons and gets the month-and-day form. */
  function FormatOf(ageMs: Option<int>): (f: DateFormat)
    ensures f == TimeOnly <==> ageMs.Some? && ageMs.value < 24 * HourMs
    ensures f == WeekdayAndTime <==> ageMs.Some? && 24 * HourMs <= ageMs.value < 168 * HourMs
  {
    if ageMs.None? then MonthAndDay
    else if ageMs.value < 24 * HourMs then TimeOnly
    else if ageMs.value < 168 * HourMs then WeekdayAndTime
    else MonthAndDay
  }

  function FormatRank(f: DateFormat): nat {
    match f
    case TimeOnly => 0
    case WeekdayAndTime => 1
    case MonthAndDay => 2
  }

  /** An older order never gets a more detailed format than a newer one. */
  lemma FormatMonotone(newer: int, older: int)
    requires newer <= older
    ensures FormatRank(FormatOf(Some(newer))) <= FormatRank(FormatOf(Some(older)))
  {
  }
}

=== FILE: restaurant.dfy ===
/** Catalogue queries of the restaurant context: items of a category, the
    featured list (ranked by rating, then review count, at most six), and the
    opening-hours check on minutes of the day. */
module Restaurant {
  import opened Domain
  import Seqs
  import Text

  // ----- Category and featured queries -----

  predicate InCategoryAndAvailable(c: string, x: MenuItem) {
    x.categoryId == c && x.isAvailable
  }

  /** `getMenuItemsByCategory`: the available items of category `c`, in catalogue order. */
  function ItemsByCategory(items: seq<MenuItem>, c: string): (r: seq<MenuItem>)
    ensures forall x :: x in r <==> x in items && x.categoryId == c && x.isAvailable
    ensures Seqs.IsSubseq(r, items)
  {
    Seqs.FilterIsSubseq(items, x => InCategoryAndAvailable(c, x));
    Seqs.Filter(items, x => InCategoryAndAvailable(c, x))
  }

  /** `x.average_rating || 0`. */
  function RatingKey(x: MenuItem): int {
    match x.averageRating
    case None => 0
    case Some(v) => v
  }

  /** `x.review_count || 0`. */
  function ReviewKey(x: MenuItem): int {
    match x.reviewCount
    case None => 0
    case Some(v) => v
  }

  /** `a` is listed strictly before `b`: higher rating, or equal rating and more reviews. */
  predicate RanksAbove(a: MenuItem, b: MenuItem) {
    RatingKey(a) > RatingKey(b) || (RatingKey(a) == RatingKey(b) && ReviewKey(a) > ReviewKey(b))
  }

  /** The comparator exactly as the source writes it: the ratings themselves are compared
      for inequality, so an undefined rating and a rating of 0 differ, yet their defaulted
      difference is 0 and the review counts are never consulted. */
  function SourceCompare(a: MenuItem, b: MenuItem): int {
    if a.averageRating != b.averageRating then RatingKey(b) - RatingKey(a)
    else ReviewKey(b) - ReviewKey(a)
  }

  /** The comparator with both keys defaulted to 0 before comparing. */
  function RankCompare(a: MenuItem, b: MenuItem): (r: int)
    ensures r < 0 <==> RanksAbove(a, b)
    ensures r > 0 <==> RanksAbove(b, a)
  {
    if RatingKey(a) != RatingKey(b) then RatingKey(b) - RatingKey(a)
    else ReviewKey(b) - ReviewKey(a)
  }

  /** The source's comparator is not consistent: "compares equal" is not transitive. */
  lemma SourceCompareInconsistent()
    ensures var a := MenuItem("a", "c", "A", "", 0, true, true, [], None, Some(5));
            var b := MenuItem("b", "c", "B", "", 0, true, true, [], Some(0), Some(1));
            var c := MenuItem("c", "c", "C", "", 0, true, true, [], None, Some(1));
            SourceCompare(a, b) == 0 && SourceCompare(b, c) == 0 && SourceCompare(a, c) != 0
  {
  }

  /** With the keys defaulted first, the comparator is a consistent total preorder, and it
      agrees with the source's wherever both ratings are defined. */
  lemma RankCompareConsistent(a: MenuItem, b: MenuItem, c: MenuItem)
    ensures RankCompare(a, b) == 0 && RankCompare(b, c) == 0 ==> RankCompare(a, c) == 0
    ensures RankCompare(a, b) < 0 && RankCompare(b, c) <= 0 ==> RankCompare(a, c) < 0
    ensures RankCompare(a, b) < 0 <==> RankCompare(b, a) > 0
    ensures a.averageRating.Some? && b.averageRating.Some? ==> SourceCompare(a, b) == RankCompare(a, b)
  {
  }

  /** Sorted for the ranking: no element ranks above an earlier one. */
  predicate RankSorted(s: seq<MenuItem>) {
    forall i, j :: 0 <= i < j < |s| ==> !RanksAbove(s[j], s[i])
  }

  function RankOf(x: MenuItem): (int, int) { (RatingKey(x), ReviewKey(x)) }

  /** Selects the items whose rank keys equal `k`. */
  function HasRank(k: (int, int)): MenuItem -> bool {
    x => RankOf(x) == k
  }

  /** Inserts `x` after every element that ranks at least as high: a stable insertion. */
  function InsertByRank(t: seq<MenuItem>, x: MenuItem): (r: seq<MenuItem>)
    ensures multiset(r) == multiset(t) + multiset{x}
    ensures RankSorted(t) ==> RankSorted(r)
    decreases |t|
  {
    if |t| == 0 then [x]
    else if RanksAbove(x, t[0]) then
      InsertInFront(t, x);
      [x] + t
    else
      var rest := InsertByRank(t[1..], x);
      InsertBehind(t, x, rest);
      [t[0]] + rest
  }

  /** An item ranking above the head of a ranked list ranks above all of it. */
  lemma InsertInFront(t: seq<MenuItem>, x: MenuItem)
    requires |t| > 0 && RanksAbove(x, t[0])
    ensures RankSorted(t) ==> RankSorted([x] + t)
  {
    if RankSorted(t) {
      forall j | 0 <= j < |t| ensures !RanksAbove(t[j], x) {
        if j > 0 { assert !RanksAbove(t[j], t[0]); }
      }
      ConsRanked(x, t);
    }
  }

  /** Keeping the head of a ranked list in front of the insertion into its tail keeps it
      ranked, when the new item does not rank above the head. */
  lemma InsertBehind(t: seq<MenuItem>, x: MenuItem, rest: seq<MenuItem>)
    requires |t| > 0 && !RanksAbove(x, t[0])
    requires multiset(rest) == multiset(t[1..]) + multiset{x}
    requires RankSorted(t[1..]) ==> RankSorted(rest)
    ensures multiset([t[0]] + rest) == multiset(t) + multiset{x}
    ensures RankSorted(t) ==> RankSorted([t[0]] + rest)
  {
    assert t == [t[0]] + t[1..];
    if RankSorted(t) {
      var tail := t[1..];
      assert RankSorted(tail);
      assert forall k :: 0 <= k < |tail| ==> !RanksAbove(tail[k], t[0]) by {
        forall k | 0 <= k < |tail| ensures !RanksAbove(tail[k], t[0]) {
          assert tail[k] == t[k + 1];
        }
      }
      forall j | 0 <= j < |rest| ensures !RanksAbove(rest[j], t[0]) {
        assert rest[j] in multiset(rest);
        if rest[j] != x {
          assert rest[j] in multiset(tail);
        }
      }
      ConsRanked(t[0], rest);
    }
  }

  /** Putting an item in front of a ranked list that has nothing ranking above it keeps the
      list ranked. */
  lemma ConsRanked(h: MenuItem, rest: seq<MenuItem>)
    requires RankSorted(rest)
    requires forall j :: 0 <= j < |rest| ==> !RanksAbove(rest[j], h)
    ensures RankSorted([h] + rest)
  {
    var r := [h] + rest;
    forall i, j | 0 <= i < j < |r| ensures !RanksAbove(r[j], r[i]) {
      assert r[j] == rest[j - 1];
      if i > 0 { assert r[i] == rest[i - 1]; }
    }
  }

  /** Stable sort by rank (best first), as `Array.prototype.sort` with the ranking comparator. */
  function SortByRank(s: seq<MenuItem>): (r: seq<MenuItem>)
    ensures multiset(r) == multiset(s)
    ensures RankSorted(r)
    decreases |s|
  {
    if |s| == 0 then []
    else
      assert s == s[..|s| - 1] + [s[|s| - 1]];
      InsertByRank(SortByRank(s[..|s| - 1]), s[|s| - 1])
  }

  lemma {:induction false} NoneWithRank(t: seq<MenuItem>, k: (int, int))
    requires forall y :: y in t ==> RankOf(y) != k
    ensures Seqs.Filter(t, HasRank(k)) == []
    decreases |t|
  {
    if |t| > 0 {
      assert t[0] in t;
      NoneWithRank(t[1..], k);
    }
  }

  /** Insertion puts `x` after every element of the same rank. */
  lemma {:induction false} InsertByRankStable(t: seq<MenuItem>, x: MenuItem, k: (int, int))
    requires RankSorted(t)
    ensures Seqs.Filter(InsertByRank(t, x), HasRank(k))
            == Seqs.Filter(t, HasRank(k)) + (if RankOf(x) == k then [x] else [])
    decreases |t|
  {
    if |t| == 0 {
    } else if RanksAbove(x, t[0]) {
      var r := InsertByRank(t, x);
      assert r == [x] + t;
      assert r[1..] == t;
      if RankOf(x) == k {
        forall y | y in t ensures RankOf(y) != k {
          var j :| 0 <= j < |t| && t[j] == y;
          if j > 0 { assert !RanksAbove(t[j], t[0]); }
        }
        NoneWithRank(t, k);
      }
    } else {
      InsertByRankStable(t[1..], x, k);
      var r := InsertByRank(t, x);
      assert r[0] == t[0] && r[1..] == InsertByRank(t[1..], x);
    }
  }

  /** Items of equal rank keep their catalogue order. */
  lemma {:induction false} SortByRankStable(s: seq<MenuItem>, k: (int, int))
    ensures Seqs.Filter(SortByRank(s), HasRank(k)) == Seqs.Filter(s, HasRank(k))
    decreases |s|
  {
    if |s| > 0 {
      var init := s[..|s| - 1];
      var last := s[|s| - 1];
      var sortedInit := SortByRank(init);
      SortByRankStable(init, k);
      InsertByRankStable(sortedInit, last, k);
      Seqs.LastSplit(s);
      Seqs.FilterAppend(init, [last], HasRank(k));
      assert Seqs.Filter([last], HasRank(k)) == (if RankOf(last) == k then [last] else []);
      assert SortByRank(s) == InsertByRank(sortedInit, last);
      assert Seqs.Filter(SortByRank(s), HasRank(k)) == Seqs.Filter(sortedInit, HasRank(k)) + (if RankOf(last) == k then [last] else []);
      assert Seqs.Filter(s, HasRank(k)) == Seqs.Filter(init, HasRank(k)) + Seqs.Filter([last], HasRank(k));
    }
  }

  predicate FeaturedAndAvailable(x: MenuItem) { x.isFeatured && x.isAvailable }

  /** The first `n` elements of a ranked list are ranked, and rank at least as high as
      every element left out. */
  lemma RankedPrefix(sorted: seq<MenuItem>, n: nat)
    requires RankSorted(sorted)
    ensures RankSorted(Seqs.Take(sorted, n))
    ensures multiset(Seqs.Take(sorted, n)) <= multiset(sorted)
    ensures |sorted| <= n ==> Seqs.Take(sorted, n) == sorted
    ensures forall x, y :: x in sorted && x !in Seqs.Take(sorted, n) && y in Seqs.Take(sorted, n) ==> !RanksAbove(x, y)
  {
    var r := Seqs.Take(sorted, n);
    Seqs.TakeSplit(sorted, n);
    Seqs.TakeKeeps(sorted, n);
    assert multiset(sorted) == multiset(r) + multiset(sorted[|r|..]);
    forall x, y | x in sorted && x !in r && y in r ensures !RanksAbove(x, y) {
      var i :| 0 <= i < |sorted| && sorted[i] == x;
      var j :| 0 <= j < |r| && r[j] == y;
      assert sorted[j] == y;
      assert j < |r| <= i;
    }
  }

  /** `getFeaturedItems`: the six best-ranked featured, available items. */
  function FeaturedItems(items: seq<MenuItem>): (r: seq<MenuItem>)
    ensures |r| == if |Seqs.Filter(items, FeaturedAndAvailable)| < 6 then |Seqs.Filter(items, FeaturedAndAvailable)| else 6
    ensures forall x :: x in r ==> x in items && x.isFeatured && x.isAvailable
    ensures RankSorted(r)
    ensures multiset(r) <= multiset(Seqs.Filter(items, FeaturedAndAvailable))
    ensures |Seqs.Filter(items, FeaturedAndAvailable)| <= 6 ==>
              multiset(r) == multiset(Seqs.Filter(items, FeaturedAndAvailable))
    ensures forall x, y :: x in Seqs.Filter(items, FeaturedAndAvailable) && x !in r && y in r ==> !RanksAbove(x, y)
  {
    var cands := Seqs.Filter(items, FeaturedAndAvailable);
    var sorted := SortByRank(cands);
    RankedPrefix(sorted, 6);
    var r := Seqs.Take(sorted, 6);
    assert |sorted| == |cands| by {
      assert |multiset(sorted)| == |multiset(cands)|;
    }
    assert forall x :: x in r ==> x in cands by {
      forall x | x in r ensures x in cands {
        assert x in multiset(r);
      }
    }
    assert forall x :: x in cands ==> x in sorted by {
      forall x | x in cands ensures x in sorted {
        assert x in multiset(cands);
      }
    }
    r
  }

  /** Ties in the featured list keep catalogue order: per rank, the list is a prefix of the
      catalogue's featured, available items of that rank. */
  lemma FeaturedStable(items: seq<MenuItem>, k: (int, int))
    ensures var f := Seqs.Filter(FeaturedItems(items), HasRank(k));
            var c := Seqs.Filter(Seqs.Filter(items, FeaturedAndAvailable), HasRank(k));
            |f| <= |c| && f == c[..|f|]
  {
    var cands := Seqs.Filter(items, FeaturedAndAvailable);
    var sorted := SortByRank(cands);
    SortByRankStable(cands, k);
    var r := FeaturedItems(items);
    Seqs.TakeSplit(sorted, 6);
    Seqs.FilterAppend(r, sorted[|r|..], HasRank(k));
  }

  // ----- Opening hours -----

  /** `Number(p)` for the decimal forms a clock string holds: surrounding white space is
      ignored, an empty string is 0, a run of digits is its value; anything else is NaN (None). */
  function NumberOf(p: string): Option<nat> {
    var t := Text.Trim(p);
    if Text.AllDigits(t) then Some(Text.DigitsValue(t)) else None
  }

  /** `const [h, m] = s.split(':').map(Number); h * 60 + m`, with None for NaN. */
  function ClockMinutes(s: string): Option<int> {
    var parts := Text.Split(s, ':');
    if |parts| < 2 then None
    else match (NumberOf(parts[0]), NumberOf(parts[1]))
      case (Some(h), Some(m)) => Some(h * 60 + m)
      case _ => None
  }

  /** The zero-padded "HH:MM" form in which hours are stored. */
  function ClockString(h: nat, m: nat): string
    requires h < 100 && m < 100
  {
    [Text.Digit(h / 10), Text.Digit(h % 10), ':', Text.Digit(m / 10), Text.Digit(m % 10)]
  }

  /** The value of a decimal digit character. */
  function DigitValue(c: char): nat
    requires Text.IsDigit(c)
  {
    c as int - '0' as int
  }

  lemma TwoDigitsValue(a: char, b: char)
    requires Text.IsDigit(a) && Text.IsDigit(b)
    ensures NumberOf([a, b]) == Some(DigitValue(a) * 10 + DigitValue(b))
  {
    var t := [a, b];
    assert Text.AllDigits(t);
    assert Text.Trim(t) == t by { Text.TrimDigits(t); }
    assert Text.DigitsValue(t) == DigitValue(a) * 10 + DigitValue(b) by {
      var p := [a];
      assert t[..1] == p;
      assert p[..0] == [];
      assert Text.DigitsValue(p) == DigitValue(a);
    }
  }

  /** A clock string of four digits splits into its hour and minute digits. */
  lemma ClockCharsSplit(a: char, b: char, c: char, d: char)
    requires Text.IsDigit(a) && Text.IsDigit(b) && Text.IsDigit(c) && Text.IsDigit(d)
    ensures Text.Split([a, b, ':', c, d], ':') == [[a, b], [c, d]]
  {
    var hh := [a, b];
    var mm := [c, d];
    assert ':' !in hh && ':' !in mm;
    assert [hh, mm][1..] == [mm];
    assert Text.Join([hh, mm], ':') == [a, b, ':', c, d];
    Text.SplitJoin([hh, mm], ':');
  }

  lemma ClockCharsMinutes(a: char, b: char, c: char, d: char)
    requires Text.IsDigit(a) && Text.IsDigit(b) && Text.IsDigit(c) && Text.IsDigit(d)
    ensures ClockMinutes([a, b, ':', c, d])
            == Some((DigitValue(a) * 10 + DigitValue(b)) * 60 + DigitValue(c) * 10 + DigitValue(d))
  {
    var x, hh, mm := [a, b, ':', c, d], [a, b], [c, d];
    ClockCharsSplit(a, b, c, d);
    TwoDigitsValue(a, b);
    TwoDigitsValue(c, d);
    var hv, mv := DigitValue(a) * 10 + DigitValue(b), DigitValue(c) * 10 + DigitValue(d);
    assert NumberOf(hh) == Some(hv) && NumberOf(mm) == Some(mv);
    MinutesOfParts(x, hh, mm);
    assert ClockMinutes(x) == Some(hv * 60 + mv);
  }

  /** Reading a stored "HH:MM" string gives back its minutes of the day. */
  lemma ClockRoundTrip(h: nat, m: nat)
    requires h < 100 && m < 100
    ensures ClockMinutes(ClockString(h, m)) == Some(h * 60 + m)
  {
    var a, b, c, d := Text.Digit(h / 10), Text.Digit(h % 10), Text.Digit(m / 10), Text.Digit(m % 10);
    DigitPair(h);
    DigitPair(m);
    ClockCharsMinutes(a, b, c, d);
  }

  /** The two digit characters of a number below a hundred read back as that number. */
  lemma DigitPair(n: nat)
    requires n < 100
    ensures Text.IsDigit(Text.Digit(n / 10)) && Text.IsDigit(Text.Digit(n % 10))
    ensures DigitValue(Text.Digit(n / 10)) * 10 + DigitValue(Text.Digit(n % 10)) == n
  {
  }

  /** A clock string that splits into two numbers reads as their minutes of the day. */
  lemma MinutesOfParts(s: string, hh: string, mm: string)
    requires Text.Split(s, ':') == [hh, mm]
    requires NumberOf(hh).Some? && NumberOf(mm).Some?
    ensures ClockMinutes(s) == Some(NumberOf(hh).value * 60 + NumberOf(mm).value)
  {
    var parts := Text.Split(s, ':');
    assert |parts| == 2 && parts[0] == hh && parts[1] == mm;
  }


  /** The day's check shared by both `isOpen`s: not marked closed, and the current minute lies
      in the inclusive interval from opening to closing. A NaN bound makes it false. */
  predicate OpenDuring(d: DayHours, now: int) {
    && !d.isClosed
    && ClockMinutes(d.open).Some?
    && ClockMinutes(d.close).Some?
    && ClockMinutes(d.open).value <= now <= ClockMinutes(d.close).value
  }

  /** `isOpen` of the restaurant context; the stored hours name every weekday. */
  function IsOpen(r: Option<Restaurant>, day: Weekday, now: int): (b: bool)
    requires r.Some? ==> day in r.value.hours
    ensures r.None? ==> !b
    ensures r.Some? && r.value.hours[day].isClosed ==> !b
    ensures r.Some? ==> (b <==> OpenDuring(r.value.hours[day], now))
  {
    r.Some? && OpenDuring(r.value.hours[day], now)
  }

  /** Hours whose closing time is before their opening time are never open: there is no
      wrap past midnight. */
  lemma OvernightHoursNeverOpen(d: DayHours, now: int)
    requires ClockMinutes(d.open).Some? && ClockMinutes(d.close).Some?
    requires ClockMinutes(d.close).value < ClockMinutes(d.open).value
    ensures !OpenDuring(d, now)
  {
  }

  /** Inclusive at both ends: open at the opening minute and at the closing minute. */
  lemma OpenAtBothEnds(h1: nat, m1: nat, h2: nat, m2: nat)
    requires h1 < 100 && m1 < 100 && h2 < 100 && m2 < 100
    requires h1 * 60 + m1 <= h2 * 60 + m2
    ensures OpenDuring(DayHours(ClockString(h1, m1), ClockString(h2, m2), false), h1 * 60 + m1)
    ensures OpenDuring(DayHours(ClockString(h1, m1), ClockString(h2, m2), false), h2 * 60 + m2)
    ensures !OpenDuring(DayHours(ClockString(h1, m1), ClockString(h2, m2), false), h2 * 60 + m2 + 1)
  {
    ClockRoundTrip(h1, m1);
    ClockRoundTrip(h2, m2);
  }
}

=== FILE: sanitizer.dfy ===
/** The second stage of the chat pipeline: what the chat component does with the
    gateway's reply text. `SHOW:` lines name dishes to attach as cards; a reply
    that reads as an allergy warning gets no automatic cards; otherwise dish
    names mentioned in the text, or failing that the user's question, choose the
    cards, and the text is cut down to a short lead-in ending in a colon. */
module Sanitizer {
  import opened Domain
  import Seqs
  import Text
  import Intent

  // ----- Allergy signature of a reply -----

  /** ECMAScript line terminators: the characters `.` in a regular expression does not match. */
  predicate IsLineTerminator(c: char) {
    c == '\n' || c == '\r' || c == '\U{2028}' || c == '\U{2029}'
  }

  predicate NoLineBreak(s: string, from: int, to: int) {
    forall k :: from <= k < to && 0 <= k < |s| ==> !IsLineTerminator(s[k])
  }

  /** `/a.*b/i`: `a` and, later on the same line, `b`, ignoring case. */
  predicate SameLine(s: string, a: string, b: string) {
    exists i, j | 0 <= i && i + |a| <= j <= |s| - |b| ::
      Text.SubstringAt(Text.Lower(s), Text.Lower(a), i)
      && Text.SubstringAt(Text.Lower(s), Text.Lower(b), j)
      && NoLineBreak(s, i + |a|, j)
  }

  /** `isAllergyResponse`: the reply carries one of the three allergy-warning signatures. */
  predicate IsAllergyReply(s: string) {
    || SameLine(s, "⚠️", "ALLERGY")
    || Text.Contains(Text.Lower(s), Text.Lower("allergy concerns"))
    || SameLine(s, "For your safety", "contact")
  }

  /** The chat component's own allergy notice carries the signature, so a reply echoing it
      never gets automatic cards. */
  lemma AllergyNoticeIsAllergyReply(phone: string)
    ensures IsAllergyReply(Intent.AllergyNotice(phone))
  {
    var n := Intent.AllergyNotice(phone);
    var w := "allergy concerns";
    var i :| 0 <= i <= |n| - |w| && Text.SubstringAt(n, w, i);
    LowerSubstring(n, w, i);
  }

  /** An occurrence survives lower-casing both sides. */
  lemma LowerSubstring(s: string, w: string, i: int)
    requires Text.SubstringAt(s, w, i)
    ensures Text.SubstringAt(Text.Lower(s), Text.Lower(w), i)
  {
    forall k | 0 <= k < |w| ensures Text.Lower(s)[i + k] == Text.Lower(w)[k] {
      assert s[i..i + |w|][k] == s[i + k];
    }
  }

  // ----- SHOW: lines -----

  /** A line that, trimmed, starts with `SHOW:` (case matters). */
  predicate IsShowLine(line: string) {
    Text.StartsWith(Text.Trim(line), "SHOW:")
  }

  predicate IsTextLine(line: string) {
    !IsShowLine(line)
  }

  /** `substring(5)` of the trimmed line, trimmed again. */
  function ShowName(line: string): string {
    var t := Text.Trim(line);
    Text.Trim(t[if |t| < 5 then |t| else 5..])
  }

  /** The loop over the reply's lines: SHOW names go to `names`, every other line to `kept`,
      each in the order it comes. */
  method SplitShowLines(lines: seq<string>) returns (names: seq<string>, kept: seq<string>)
    ensures names == Seqs.Map(Seqs.Filter(lines, IsShowLine), ShowName)
    ensures kept == Seqs.Filter(lines, IsTextLine)
  {
    names, kept := SplitBy(lines, IsShowLine, IsTextLine, ShowName);
  }

  /** The same loop for any test `p`, its negation `notP` and any rewriting `f` of picked lines. */
  method SplitBy(lines: seq<string>, p: string -> bool, notP: string -> bool, f: string -> string)
    returns (picked: seq<string>, rest: seq<string>)
    requires forall l :: notP(l) == !p(l)
    ensures picked == Seqs.Map(Seqs.Filter(lines, p), f)
    ensures rest == Seqs.Filter(lines, notP)
  {
    picked, rest := [], [];
    var i := 0;
    while i < |lines|
      invariant 0 <= i <= |lines|
      invariant picked == Seqs.Map(Seqs.Filter(lines[..i], p), f)
      invariant rest == Seqs.Filter(lines[..i], notP)
    {
      var line := lines[i];
      SplitStep(lines, i, p, notP, f);
      if p(line) {
        picked := picked + [f(line)];
      } else {
        rest := rest + [line];
      }
      i := i + 1;
    }
    assert lines[..|lines|] == lines;
  }

  /** One step of the loop: the next line extends the picks when it passes `p` and the rest
      otherwise. */
  lemma SplitStep(s: seq<string>, i: nat, p: string -> bool, notP: string -> bool, f: string -> string)
    requires i < |s|
    requires forall l :: notP(l) == !p(l)
    ensures p(s[i]) ==> Seqs.Map(Seqs.Filter(s[..i + 1], p), f) == Seqs.Map(Seqs.Filter(s[..i], p), f) + [f(s[i])]
                        && Seqs.Filter(s[..i + 1], notP) == Seqs.Filter(s[..i], notP)
    ensures !p(s[i]) ==> Seqs.Map(Seqs.Filter(s[..i + 1], p), f) == Seqs.Map(Seqs.Filter(s[..i], p), f)
                         && Seqs.Filter(s[..i + 1], notP) == Seqs.Filter(s[..i], notP) + [s[i]]
  {
    PickedStep(s, i, p, f);
    FilterStep(s, i, notP);
    assert notP(s[i]) == !p(s[i]);
  }

  /** Extending a prefix by one element extends the rewritten picks by that element's rewriting
      when it passes. */
  lemma PickedStep(s: seq<string>, i: nat, p: string -> bool, f: string -> string)
    requires i < |s|
    ensures Seqs.Map(Seqs.Filter(s[..i + 1], p), f)
            == Seqs.Map(Seqs.Filter(s[..i], p), f) + (if p(s[i]) then [f(s[i])] else [])
  {
    FilterStep(s, i, p);
    if p(s[i]) {
      MapStep(Seqs.Filter(s[..i], p), s[i], f);
    } else {
      assert Seqs.Filter(s[..i + 1], p) == Seqs.Filter(s[..i], p);
    }
  }

  lemma MapStep(s: seq<string>, x: string, f: string -> string)
    ensures Seqs.Map(s + [x], f) == Seqs.Map(s, f) + [f(x)]
  {
  }

  /** Extending a prefix by one element extends its filter by that element when it passes. */
  lemma FilterStep(s: seq<string>, i: nat, p: string -> bool)
    requires i < |s|
    ensures Seqs.Filter(s[..i + 1], p) == Seqs.Filter(s[..i], p) + (if p(s[i]) then [s[i]] else [])
  {
    assert s[..i + 1] == s[..i] + [s[i]];
    Seqs.FilterAppend(s[..i], [s[i]], p);
  }

  /** The reply text with the SHOW lines taken out, trimmed. */
  function CleanedText(raw: string): string {
    Text.Trim(Text.Join(Seqs.Filter(Text.Split(raw, '\n'), IsTextLine), '\n'))
  }

  /** The dish names the SHOW lines ask for, in order. */
  function ShowNames(raw: string): seq<string> {
    Seqs.Map(Seqs.Filter(Text.Split(raw, '\n'), IsShowLine), ShowName)
  }

  /** A reply with no SHOW line keeps its whole text, only trimmed. */
  lemma NoShowLinesKeepsText(raw: string)
    requires forall k :: 0 <= k < |Text.Split(raw, '\n')| ==> !IsShowLine(Text.Split(raw, '\n')[k])
    ensures CleanedText(raw) == Text.Trim(raw)
    ensures ShowNames(raw) == []
  {
    var lines := Text.Split(raw, '\n');
    assert forall l :: l in lines ==> IsTextLine(l);
    assert Seqs.Filter(lines, IsTextLine) == lines by { Seqs.FilterKeepsAll(lines, IsTextLine); }
    assert Text.Join(lines, '\n') == raw by { Text.JoinSplit(raw, '\n'); }
    var shows := Seqs.Filter(lines, IsShowLine);
    assert shows == [] by { Seqs.FilterNone(lines, IsShowLine); }
  }

  /** Cleaning is complete: splitting the joined remaining lines gives them back, and none of
      them is a SHOW line. */
  lemma CleanedLinesHaveNoShow(raw: string)
    ensures var kept := Seqs.Filter(Text.Split(raw, '\n'), IsTextLine);
            |kept| > 0 ==> Text.Split(Text.Join(kept, '\n'), '\n') == kept
    ensures forall l :: l in Seqs.Filter(Text.Split(raw, '\n'), IsTextLine) ==> !IsShowLine(l)
  {
    var lines := Text.Split(raw, '\n');
    var kept := Seqs.Filter(lines, IsTextLine);
    forall k | 0 <= k < |kept| ensures '\n' !in kept[k] {
      assert kept[k] in lines;
    }
    if |kept| > 0 {
      Text.SplitJoin(kept, '\n');
    }
  }

  // ----- Resolving names -----

  /** `menuItems.find(item => item.name.toLowerCase() === name.toLowerCase())`. */
  function FindByName(menu: seq<MenuItem>, name: string): (r: Option<MenuItem>)
    ensures r.None? <==> forall x :: x in menu ==> Text.Lower(x.name) != Text.Lower(name)
    ensures r.Some? ==> exists k :: 0 <= k < |menu| && menu[k] == r.value
                          && Text.Lower(menu[k].name) == Text.Lower(name)
                          && forall j :: 0 <= j < k ==> Text.Lower(menu[j].name) != Text.Lower(name)
    decreases |menu|
  {
    if |menu| == 0 then None
    else if Text.Lower(menu[0].name) == Text.Lower(name) then Some(menu[0])
    else
      var r := FindByName(menu[1..], name);
      assert forall x :: x in menu[1..] ==> x in menu;
      assert r.None? ==> forall x :: x in menu ==> x == menu[0] || x in menu[1..];
      if r.Some? then
        var k :| 0 <= k < |menu[1..]| && menu[1..][k] == r.value
                 && Text.Lower(menu[1..][k].name) == Text.Lower(name)
                 && forall j :: 0 <= j < k ==> Text.Lower(menu[1..][j].name) != Text.Lower(name);
        assert menu[k + 1] == r.value;
        assert forall j :: 1 <= j < k + 1 ==> menu[j] == menu[1..][j - 1];
        r
      else r
  }

  /** `names.map(find).filter(defined)`: each name's first match, unmatched names dropped;
      a name given twice gives its item twice. */
  function Resolve(menu: seq<MenuItem>, names: seq<string>): (r: seq<MenuItem>)
    ensures |r| <= |names|
    ensures forall x :: x in r ==> x in menu
    decreases |names|
  {
    if |names| == 0 then []
    else
      var n := |names| - 1;
      var found := FindByName(menu, names[n]);
      Resolve(menu, names[..n]) + (if found.Some? then [found.value] else [])
  }

  /** `find` applied to each name in turn, keeping the values found, in order. */
  function Collect<A>(names: seq<string>, find: string -> Option<A>): (r: seq<A>)
    ensures |r| <= |names|
    decreases |names|
  {
    if |names| == 0 then []
    else
      var n := |names| - 1;
      Collect(names[..n], find) + (if find(names[n]).Some? then [find(names[n]).value] else [])
  }

  /** When every lookup succeeds, the collected values are the lookups' values, position by
      position; when none does, nothing is collected. */
  lemma {:induction false} CollectLookups<A>(names: seq<string>, find: string -> Option<A>)
    ensures (forall k :: 0 <= k < |names| ==> find(names[k]).Some?) ==>
              |Collect(names, find)| == |names|
              && forall k :: 0 <= k < |names| ==> Collect(names, find)[k] == find(names[k]).value
    ensures (forall k :: 0 <= k < |names| ==> find(names[k]).None?) ==> Collect(names, find) == []
    decreases |names|
  {
    if |names| > 0 {
      var n := |names| - 1;
      var init := names[..n];
      assert forall k :: 0 <= k < n ==> init[k] == names[k];
      CollectLookups(init, find);
    }
  }

  function Lookup(menu: seq<MenuItem>): string -> Option<MenuItem> {
    (name: string) => FindByName(menu, name)
  }

  lemma {:induction false} ResolveIsCollect(menu: seq<MenuItem>, names: seq<string>)
    ensures Resolve(menu, names) == Collect(names, Lookup(menu))
    decreases |names|
  {
    if |names| > 0 {
      ResolveIsCollect(menu, names[..|names| - 1]);
    }
  }

  /** When every SHOW line names a dish, each yields its first match, in line order; when none
      does, nothing is shown. */
  lemma ResolveFound(menu: seq<MenuItem>, names: seq<string>)
    ensures (forall k :: 0 <= k < |names| ==> FindByName(menu, names[k]).Some?) ==>
              |Resolve(menu, names)| == |names|
              && forall k :: 0 <= k < |names| ==> Resolve(menu, names)[k] == FindByName(menu, names[k]).value
    ensures (forall k :: 0 <= k < |names| ==> FindByName(menu, names[k]).None?) ==> Resolve(menu, names) == []
  {
    ResolveIsCollect(menu, names);
    CollectLookups(names, Lookup(menu));
    assert forall k :: 0 <= k < |names| ==> Lookup(menu)(names[k]) == FindByName(menu, names[k]);
  }

  /** A single SHOW line yields the first dish of that name, ignoring case, or nothing. */
  lemma ResolveOne(menu: seq<MenuItem>, name: string)
    ensures Resolve(menu, [name]) == if FindByName(menu, name).Some? then [FindByName(menu, name).value] else []
  {
    assert [name][..0] == [];
  }

  /** Resolving keeps the order of the SHOW lines: resolving two runs of names one after the
      other is resolving them together. */
  lemma {:induction false} ResolveAppend(menu: seq<MenuItem>, a: seq<string>, b: seq<string>)
    ensures Resolve(menu, a + b) == Resolve(menu, a) + Resolve(menu, b)
    decreases |b|
  {
    if |b| == 0 {
      assert a + b == a;
    } else {
      var n := |b| - 1;
      assert (a + b)[..|a + b| - 1] == a + b[..n];
      ResolveAppend(menu, a, b[..n]);
    }
  }

  /** A SHOW line naming a dish, in any letter case, attaches that dish when no other dish has
      the same name up to case. */
  lemma ResolveOwnName(menu: seq<MenuItem>, x: MenuItem, name: string)
    requires x in menu && Text.Lower(name) == Text.Lower(x.name)
    requires forall y :: y in menu && Text.Lower(y.name) == Text.Lower(x.name) ==> y == x
    ensures Resolve(menu, [name]) == [x]
  {
    assert [name][..0] == [];
    var f := FindByName(menu, name);
    assert f.Some?;
  }

  // ----- Fallback tiers -----

  /** Tier one: every menu item, available or not, whose name occurs in the text as a whole
      word, ignoring case, in menu order. */
  function DetectNames(menu: seq<MenuItem>, content: string): (r: seq<MenuItem>)
    ensures forall x :: x in r <==> x in menu && Text.HasWholeWord(content, x.name)
    ensures Seqs.IsSubseq(r, menu)
  {
    var p := (x: MenuItem) => Text.HasWholeWord(content, x.name);
    Seqs.FilterIsSubseq(menu, p);
    Seqs.Filter(menu, p)
  }

  /** The words that make the user's message a question about the menu. */
  const MenuQueryWords: seq<string> := [
    "show", "what", "items", "dishes", "menu", "food", "have", "options", "recommend", "best",
    "popular", "good", "vegetarian", "vegan", "fish", "meat", "gluten", "dairy", "spicy",
    "without", "no", "want", "get", "order"
  ]

  predicate IsMenuQuery(q: string) {
    Text.HasAnyWholeWord(q, MenuQueryWords)
  }

  /** What tier two asks of an item: availability, and the rule's condition when a rule applies. */
  predicate QueryKeeps(rule: Option<Intent.Rule>, x: MenuItem) {
    x.isAvailable && (rule.None? || Intent.Matches(rule.value, x))
  }

  /** `QueryKeeps` for one rule, as the filter tier two applies to the menu. */
  function KeepsFor(rule: Option<Intent.Rule>): MenuItem -> bool {
    (x: MenuItem) => QueryKeeps(rule, x)
  }

  predicate IsFeatured(x: MenuItem) {
    x.isFeatured
  }

  /** Tier two, chosen by the (lower-cased) user message: nothing unless it is a menu
      question; else up to twelve available items the same rule chain selects (all available
      items when no rule applies); and when none qualify but the message asks for popular
      dishes, up to six featured items, available or not. */
  function QueryItems(menu: seq<MenuItem>, q: string): (r: seq<MenuItem>)
    ensures !IsMenuQuery(q) ==> r == []
    ensures |r| <= 12 && Seqs.IsSubseq(r, menu)
    ensures forall x :: x in r ==>
              QueryKeeps(Intent.Classify(q), x) || (Intent.Mentions(Intent.PopularRule, q) && x.isFeatured)
    ensures IsMenuQuery(q) && |r| < 12 ==>
              forall x :: x in menu && QueryKeeps(Intent.Classify(q), x) ==> x in r
    ensures var kept := Seqs.Filter(menu, KeepsFor(Intent.Classify(q)));
            IsMenuQuery(q) && kept != [] ==>
              |r| == (if |kept| < 12 then |kept| else 12) && r == kept[..|r|]
    ensures var featured := Seqs.Filter(menu, IsFeatured);
            IsMenuQuery(q) && Seqs.Filter(menu, KeepsFor(Intent.Classify(q))) == [] ==>
              if Intent.Mentions(Intent.PopularRule, q)
              then |r| == (if |featured| < 6 then |featured| else 6) && r == featured[..|r|]
              else r == []
  {
    if !IsMenuQuery(q) then []
    else
      var rule := Intent.Classify(q);
      var f := Intent.FirstMatches(menu, KeepsFor(rule), 12);
      if |f| > 0 then f
      else if Intent.Mentions(Intent.PopularRule, q) then Intent.FirstMatches(menu, IsFeatured, 6)
      else []
  }

  /** Tier two after a direct miss: when the direct filter of a dietary or fish rule found
      nothing, tier two's own filter finds nothing either, and only the popular-dishes
      fallback can still attach cards. */
  lemma QueryAfterDirectMiss(menu: seq<MenuItem>, q: string)
    requires Intent.Classify(q).Some? && Intent.Classify(q) != Some(Intent.PopularRule)
    requires Intent.DirectItems(menu, q) == Some([])
    ensures QueryItems(menu, q) ==
              if IsMenuQuery(q) && Intent.Mentions(Intent.PopularRule, q)
              then Intent.FirstMatches(menu, IsFeatured, 6) else []
  {
    var rule := Intent.Classify(q);
    forall x | x in menu ensures !QueryKeeps(rule, x) {
      assert QueryKeeps(rule, x) == Intent.DirectKeeps(rule.value, x);
    }
  }

  /** After the direct popularity rule found nothing, the menu has no featured item, and tier
      two attaches nothing. */
  lemma QueryAfterPopularMiss(menu: seq<MenuItem>, q: string)
    requires Intent.Classify(q) == Some(Intent.PopularRule)
    requires Intent.DirectItems(menu, q) == Some([])
    ensures QueryItems(menu, q) == []
  {
    assert forall x :: x in menu ==> !x.isFeatured;
  }

  predicate IsAvailable(x: MenuItem) {
    x.isAvailable
  }

  /** When no rule applies, tier two of a menu question is the first twelve available items,
      or all of them when there are fewer; with none available, it is empty. */
  lemma QueryWithoutRule(menu: seq<MenuItem>, q: string)
    requires Intent.Classify(q).None?
    ensures forall x :: x in QueryItems(menu, q) ==> x.isAvailable
    ensures IsMenuQuery(q) && |QueryItems(menu, q)| < 12 ==>
              forall x :: x in menu && x.isAvailable ==> x in QueryItems(menu, q)
    ensures var avail := Seqs.Filter(menu, IsAvailable);
            IsMenuQuery(q) ==>
              |QueryItems(menu, q)| == (if |avail| < 12 then |avail| else 12)
              && QueryItems(menu, q) == avail[..|QueryItems(menu, q)|]
  {
    Intent.ClassifyNone(q);
    assert !Intent.Mentions(Intent.PopularRule, q);
    Seqs.FilterExt(menu, KeepsFor(Intent.Classify(q)), IsAvailable);
  }

  // ----- Simplifying the text -----

  /** `/\$\d+/`: a dollar sign followed by a digit. */
  predicate HasPrice(t: string) {
    exists k | 0 <= k < |t| - 1 :: t[k] == '$' && Text.IsDigit(t[k + 1])
  }

  /** `/^\d+\./`: digits from the start, then a full stop. */
  predicate StartsNumbered(t: string) {
    var d := Text.LeadingDigits(t);
    0 < |d| < |t| && t[|d|] == '.'
  }

  /** The line filter: the trimmed line is non-empty, under 150 characters, shows no price,
      is not a numbered list entry and names none of the attached dishes. */
  predicate KeepLine(detected: seq<MenuItem>, line: string) {
    var t := Text.Trim(line);
    && t != ""
    && !HasPrice(t)
    && !StartsNumbered(t)
    && (forall k :: 0 <= k < |detected| ==> !Text.HasWholeWord(t, detected[k].name))
    && |t| < 150
  }

  /** The lines of the text that the line filter keeps, in order. */
  function KeptLines(content: string, detected: seq<MenuItem>): (r: seq<string>)
    ensures Seqs.IsSubseq(r, Text.Split(content, '\n'))
    ensures forall l :: l in r <==> l in Text.Split(content, '\n') && KeepLine(detected, l)
    ensures forall l :: multiset(r)[l] ==
              if KeepLine(detected, l) then multiset(Text.Split(content, '\n'))[l] else 0
  {
    var p := (l: string) => KeepLine(detected, l);
    Seqs.FilterIsSubseq(Text.Split(content, '\n'), p);
    Seqs.FilterMultiset(Text.Split(content, '\n'), p);
    Seqs.Filter(Text.Split(content, '\n'), p)
  }

  /** `content.replace(/[,.]$/, '') + ':'` unless the text already ends with a colon. */
  function EndWithColon(s: string): (r: string)
    ensures Text.EndsWith(r, ":")
    ensures Text.EndsWith(s, ":") ==> r == s
    ensures !Text.EndsWith(s, ":") ==>
              var body := r[..|r| - 1];
              && Text.StartsWith(s, body)
              && |s| - 1 <= |body|
              && (|body| < |s| <==> |s| > 0 && (s[|s| - 1] == ',' || s[|s| - 1] == '.'))
  {
    if Text.EndsWith(s, ":") then s
    else if |s| > 0 && (s[|s| - 1] == ',' || s[|s| - 1] == '.') then s[..|s| - 1] + ":"
    else s + ":"
  }

  lemma EndWithColonIdempotent(s: string)
    ensures EndWithColon(EndWithColon(s)) == EndWithColon(s)
  {
  }

  const LeadIn := "Here are the dishes that match your request:"

  /** The three outcomes of simplifying the text around attached cards. */
  datatype Outcome = KeptText | FirstSentenceText | StockLeadIn

  /** Which outcome applies: the kept lines when they make ten characters or more, otherwise
      the reply's first sentence when it is 11 to 199 characters long, otherwise the stock
      lead-in. */
  function OutcomeOf(kept: string, first: string): Outcome {
    if |kept| >= 10 then KeptText
    else if 10 < |first| < 200 then FirstSentenceText
    else StockLeadIn
  }

  /** The kept lines joined back into one text and trimmed. */
  function KeptLinesText(content: string, detected: seq<MenuItem>): string {
    Text.Trim(Text.Join(KeptLines(content, detected), '\n'))
  }

  /** The simplified text shown above attached cards. */
  function Simplify(content: string, detected: seq<MenuItem>, raw: string): (r: string)
    ensures Text.EndsWith(r, ":")
    ensures var kept := KeptLinesText(content, detected);
            var first := Text.FirstSentence(raw);
            match OutcomeOf(kept, first)
            case KeptText => r == EndWithColon(kept)
            case FirstSentenceText => r == first + ":" && Text.StartsWith(raw, first)
            case StockLeadIn => r == LeadIn
  {
    var kept := KeptLinesText(content, detected);
    var first := Text.FirstSentence(raw);
    match OutcomeOf(kept, first)
    case KeptText => EndWithColon(kept)
    case FirstSentenceText => first + ":"
    case StockLeadIn => LeadIn
  }

  /** Every line behind a kept-text outcome is non-empty when trimmed, shorter than 150
      characters, shows no price, is not numbered and names none of the attached dishes. */
  lemma SimplifiedLinesClean(content: string, detected: seq<MenuItem>, l: string, x: MenuItem)
    requires l in KeptLines(content, detected) && x in detected
    ensures Text.Trim(l) != "" && |Text.Trim(l)| < 150
    ensures !HasPrice(Text.Trim(l)) && !StartsNumbered(Text.Trim(l))
    ensures !Text.HasWholeWord(Text.Trim(l), x.name)
  {
    var k :| 0 <= k < |detected| && detected[k] == x;
  }

  // ----- The whole stage -----

  /** The assistant's message made from a reply: its text and its cards. */
  datatype Reply = Reply(content: string, items: seq<MenuItem>)

  /** The cards chosen when no SHOW line resolves and the reply is no allergy warning: tier one,
      or tier two when tier one finds nothing. */
  function Detected(menu: seq<MenuItem>, content: string, q: string): (r: seq<MenuItem>)
    ensures |DetectNames(menu, content)| > 0 ==> r == DetectNames(menu, content)
    ensures |DetectNames(menu, content)| == 0 ==> r == QueryItems(menu, q)
    ensures forall x :: x in r ==> x in menu
  {
    var d := DetectNames(menu, content);
    if |d| > 0 then d
    else
      Seqs.SubseqMembers(QueryItems(menu, q), menu);
      QueryItems(menu, q)
  }

  /** The reply handling of `handleSendMessage` for the reply text `raw` and the lower-cased
      user message `q`. */
  function Sanitize(menu: seq<MenuItem>, raw: string, q: string): (r: Reply)
    ensures forall x :: x in r.items ==> x in menu
    ensures |Resolve(menu, ShowNames(raw))| > 0 ==>
              r == Reply(CleanedText(raw), Resolve(menu, ShowNames(raw)))
    ensures |Resolve(menu, ShowNames(raw))| == 0 && IsAllergyReply(raw) ==> r == Reply(CleanedText(raw), [])
    ensures |Resolve(menu, ShowNames(raw))| == 0 && |r.items| > 0 ==>
              !IsAllergyReply(raw) && Text.EndsWith(r.content, ":")
              && r.items == Detected(menu, CleanedText(raw), q)
              && r.content == Simplify(CleanedText(raw), r.items, raw)
    ensures |Resolve(menu, ShowNames(raw))| == 0 && !IsAllergyReply(raw) ==>
              var detected := Detected(menu, CleanedText(raw), q);
              && r.items == detected
              && r.content == (if |detected| > 0 then Simplify(CleanedText(raw), detected, raw)
                               else CleanedText(raw))
    ensures |r.items| == 0 ==> r.content == CleanedText(raw)
  {
    var content := CleanedText(raw);
    var shown := Resolve(menu, ShowNames(raw));
    if |shown| > 0 || IsAllergyReply(raw) then Reply(content, shown)
    else
      var detected := Detected(menu, content, q);
      if |detected| == 0 then Reply(content, [])
      else Reply(Simplify(content, detected, raw), detected)
  }

  /** A plain reply (no SHOW line, no allergy warning) that names a menu dish as a whole word
      gets that dish as a card, under the simplified lead-in. */
  lemma PlainReplyNamingDishGetsCard(menu: seq<MenuItem>, raw: string, q: string, x: MenuItem)
    requires forall k :: 0 <= k < |Text.Split(raw, '\n')| ==> !IsShowLine(Text.Split(raw, '\n')[k])
    requires !IsAllergyReply(raw)
    requires x in menu && Text.HasWholeWord(Text.Trim(raw), x.name)
    ensures x in Sanitize(menu, raw, q).items
    ensures Sanitize(menu, raw, q).items == DetectNames(menu, Text.Trim(raw))
    ensures Text.EndsWith(Sanitize(menu, raw, q).content, ":")
  {
    NoShowLinesKeepsText(raw);
    assert x in DetectNames(menu, CleanedText(raw));
  }
}

=== FILE: seqs.dfy ===
/** Generic sequence vocabulary shared by every part of the model: filtering,
    truncation (JavaScript's `slice(0, n)`), order-preserving sublists and
    first-occurrence de-duplication (JavaScript's `new Set(...)` iteration order). */
module Seqs {

  /** `Array.prototype.filter`: keeps, in order, the elements satisfying `p`. */
  function Filter<T(!new)>(s: seq<T>, p: T -> bool): (r: seq<T>)
    ensures |r| <= |s|
    ensures forall x :: x in r <==> x in s && p(x)
    decreases |s|
  {
    if |s| == 0 then [] else (if p(s[0]) then [s[0]] else []) + Filter(s[1..], p)
  }

  /** `slice(0, n)`: the first `n` elements, or all of them when there are fewer. */
  function Take<T>(s: seq<T>, n: nat): (r: seq<T>)
    ensures |r| == if |s| < n then |s| else n
    ensures forall k :: 0 <= k < |r| ==> r[k] == s[k]
  {
    if |s| <= n then s else s[..n]
  }

  /** `a` can be obtained from `b` by deleting elements: an order-preserving sublist. */
  predicate IsSubseq<T(==)>(a: seq<T>, b: seq<T>)
    decreases |b|
  {
    if |a| == 0 then true
    else if |b| == 0 then false
    else if a[0] == b[0] then IsSubseq(a[1..], b[1..])
    else IsSubseq(a, b[1..])
  }

  /** Index of the first occurrence of `x` in `s`. */
  function FirstIndex<T(==)>(s: seq<T>, x: T): (i: nat)
    requires x in s
    ensures i < |s| && s[i] == x && x !in s[..i]
  {
    if s[0] == x then 0 else 1 + FirstIndex(s[1..], x)
  }

  /** A position holding `x` with no earlier `x` is the first index of `x`. */
  lemma {:induction false} FirstIndexAt<T>(s: seq<T>, x: T, k: nat)
    requires k < |s| && s[k] == x && x !in s[..k]
    ensures FirstIndex(s, x) == k
    decreases k
  {
    if k > 0 {
      assert s[0] == s[..k][0];
      assert s[1..][k - 1] == x;
      assert s[1..][..k - 1] == s[..k][1..];
      FirstIndexAt(s[1..], x, k - 1);
    }
  }

  /** The distinct elements of `s`, in order of first occurrence. */
  function Distinct<T(==,!new)>(s: seq<T>): (r: seq<T>)
    ensures forall x :: x in r <==> x in s
    ensures forall i, j :: 0 <= i < j < |r| ==> r[i] != r[j]
    ensures forall i, j :: 0 <= i < j < |r| ==> FirstIndex(s, r[i]) < FirstIndex(s, r[j])
    decreases |s|
  {
    if |s| == 0 then []
    else
      var init := s[..|s| - 1];
      var d := Distinct(init);
      var x := s[|s| - 1];
      FirstIndexOfPrefix(init, x, s);
      if x in d then d else d + [x]
  }

  /** An element already present in a prefix keeps its first index in the whole sequence. */
  lemma {:induction false} FirstIndexOfPrefix<T>(init: seq<T>, x: T, s: seq<T>)
    requires |s| == |init| + 1 && init == s[..|init|]
    ensures forall y :: y in init ==> FirstIndex(s, y) == FirstIndex(init, y)
    ensures x == s[|init|] && x !in init ==> FirstIndex(s, x) == |init|
    decreases |init|
  {
    if |init| > 0 {
      FirstIndexOfPrefix(init[1..], x, s[1..]);
      forall y | y in init
        ensures FirstIndex(s, y) == FirstIndex(init, y)
      {
        if s[0] != y {
          assert init == [init[0]] + init[1..];
        }
      }
    }
  }

  lemma LastSplit<T>(s: seq<T>)
    requires |s| > 0
    ensures s == s[..|s| - 1] + [s[|s| - 1]]
  {
  }

  lemma TakeSplit<T>(s: seq<T>, n: nat)
    ensures s == Take(s, n) + s[|Take(s, n)|..]
  {
  }

  lemma {:induction false} SubseqRefl<T>(a: seq<T>)
    ensures IsSubseq(a, a)
    decreases |a|
  {
    if |a| > 0 {
      SubseqRefl(a[1..]);
    }
  }

  /** Dropping the first element of a sublist keeps it a sublist. */
  lemma {:induction false} SubseqDropHead<T>(a: seq<T>, c: seq<T>)
    requires |a| > 0 && IsSubseq(a, c)
    ensures IsSubseq(a[1..], c)
    decreases |c|, |a|, 0
  {
    if a[0] == c[0] {
      SubseqExtend(a[1..], c);
    } else {
      SubseqDropHead(a, c[1..]);
      SubseqExtend(a[1..], c);
    }
  }

  /** A sublist of the tail of `b` is a sublist of `b`. */
  lemma {:induction false} SubseqExtend<T>(a: seq<T>, b: seq<T>)
    requires |b| > 0 && IsSubseq(a, b[1..])
    ensures IsSubseq(a, b)
    decreases |b|, |a|, 1
  {
    if |a| > 0 && a[0] == b[0] {
      SubseqDropHead(a, b[1..]);
    }
  }

  lemma {:induction false} FilterIsSubseq<T(!new)>(s: seq<T>, p: T -> bool)
    ensures IsSubseq(Filter(s, p), s)
    decreases |s|
  {
    if |s| > 0 {
      FilterIsSubseq(s[1..], p);
      if p(s[0]) {
        assert Filter(s, p) == [s[0]] + Filter(s[1..], p);
        assert Filter(s, p)[1..] == Filter(s[1..], p);
      } else {
        assert Filter(s, p) == Filter(s[1..], p);
        SubseqExtend(Filter(s[1..], p), s);
      }
    }
  }

  /** A prefix of a sublist is a sublist. */
  lemma {:induction false} PrefixIsSubseq<T>(a: seq<T>, b: seq<T>, k: nat)
    requires k <= |a| && IsSubseq(a, b)
    ensures IsSubseq(a[..k], b)
    decreases |b|
  {
    if k > 0 {
      if a[0] == b[0] {
        PrefixIsSubseq(a[1..], b[1..], k - 1);
        assert a[..k][1..] == a[1..][..k - 1];
      } else {
        PrefixIsSubseq(a, b[1..], k);
      }
    }
  }

  /** The first `n` elements of a filter form an order-preserving sublist of the input. */
  lemma TakeFilterIsSubseq<T(!new)>(s: seq<T>, p: T -> bool, n: nat)
    ensures IsSubseq(Take(Filter(s, p), n), s)
  {
    FilterIsSubseq(s, p);
    var f := Filter(s, p);
    if |f| > n {
      PrefixIsSubseq(f, s, n);
    }
  }

  /** Every element of a sublist occurs in the larger list. */
  lemma {:induction false} SubseqMembers<T>(a: seq<T>, b: seq<T>)
    requires IsSubseq(a, b)
    ensures forall x :: x in a ==> x in b
    decreases |b|
  {
    if |a| > 0 {
      if a[0] == b[0] {
        SubseqMembers(a[1..], b[1..]);
        assert a == [a[0]] + a[1..];
      } else {
        SubseqMembers(a, b[1..]);
      }
    }
  }

  /** Filtering twice is filtering once by the conjunction. */
  lemma {:induction false} FilterFilter<T(!new)>(s: seq<T>, p: T -> bool, q: T -> bool, pq: T -> bool)
    requires forall x :: pq(x) == (p(x) && q(x))
    ensures Filter(Filter(s, p), q) == Filter(s, pq)
    decreases |s|
  {
    if |s| > 0 {
      FilterFilter(s[1..], p, q, pq);
      var f := Filter(s, p);
      if p(s[0]) {
        assert f == [s[0]] + Filter(s[1..], p);
        assert f[0] == s[0] && f[1..] == Filter(s[1..], p);
        assert Filter(f, q) == (if q(s[0]) then [s[0]] else []) + Filter(f[1..], q);
      } else {
        assert f == Filter(s[1..], p);
      }
    }
  }

  /** Filtering keeps every occurrence of a kept element and none of a dropped one. */
  lemma {:induction false} FilterMultiset<T(!new)>(s: seq<T>, p: T -> bool)
    ensures forall x :: multiset(Filter(s, p))[x] == if p(x) then multiset(s)[x] else 0
    decreases |s|
  {
    if |s| > 0 {
      FilterMultiset(s[1..], p);
      assert s == [s[0]] + s[1..];
    }
  }

  /** Filters with pointwise-equal predicates agree. */
  lemma {:induction false} FilterExt<T(!new)>(s: seq<T>, p: T -> bool, q: T -> bool)
    requires forall x :: x in s ==> p(x) == q(x)
    ensures Filter(s, p) == Filter(s, q)
    decreases |s|
  {
    if |s| > 0 {
      FilterExt(s[1..], p, q);
    }
  }

  /** A filter that every element passes keeps the whole sequence. */
  lemma {:induction false} FilterKeepsAll<T(!new)>(s: seq<T>, p: T -> bool)
    requires forall x :: x in s ==> p(x)
    ensures Filter(s, p) == s
    decreases |s|
  {
    if |s| > 0 {
      FilterKeepsAll(s[1..], p);
      assert s == [s[0]] + s[1..];
    }
  }

  /** Nothing survives a filter that no element satisfies. */
  lemma {:induction false} FilterNone<T(!new)>(s: seq<T>, p: T -> bool)
    requires forall x :: x in s ==> !p(x)
    ensures Filter(s, p) == []
    decreases |s|
  {
    if |s| > 0 {
      FilterNone(s[1..], p);
    }
  }

  /** Every element before position `n` survives `Take(s, n)`. */
  lemma TakeKeeps<T>(s: seq<T>, n: nat)
    ensures forall i :: 0 <= i < |s| && i < n ==> s[i] in Take(s, n)
  {
    forall i | 0 <= i < |s| && i < n
      ensures s[i] in Take(s, n)
    {
      assert Take(s, n)[i] == s[i];
    }
  }

  /** `Filter` distributes over concatenation. */
  lemma {:induction false} FilterAppend<T(!new)>(a: seq<T>, b: seq<T>, p: T -> bool)
    ensures Filter(a + b, p) == Filter(a, p) + Filter(b, p)
    decreases |a|
  {
    if |a| > 0 {
      FilterAppend(a[1..], b, p);
      var head := if p(a[0]) then [a[0]] else [];
      assert (a + b)[0] == a[0] && (a + b)[1..] == a[1..] + b;
      assert Filter(a + b, p) == head + Filter(a[1..] + b, p);
      assert Filter(a, p) == head + Filter(a[1..], p);
    } else {
      assert a + b == b;
    }
  }

  /** `Array.prototype.map`. */
  function Map<A, B>(s: seq<A>, f: A -> B): (r: seq<B>)
    ensures |r| == |s|
    ensures forall k :: 0 <= k < |s| ==> r[k] == f(s[k])
  {
    seq(|s|, k requires 0 <= k < |s| => f(s[k]))
  }

  /** `s.filter((_, j) => j !== i)`: every element except the one at index `i`. */
  function DropIndex<T>(s: seq<T>, i: int): (r: seq<T>)
    ensures 0 <= i < |s| ==> r == s[..i] + s[i + 1..]
    ensures !(0 <= i < |s|) ==> r == s
    decreases |s|
  {
    if |s| == 0 then []
    else (if i == 0 then [] else [s[0]]) + DropIndex(s[1..], i - 1)
  }

  /** `s.map((x, j) => j === i ? f(x) : x)`: the element at index `i` replaced by its image. */
  function MapAt<T>(s: seq<T>, i: int, f: T -> T): (r: seq<T>)
    ensures |r| == |s|
    ensures forall k :: 0 <= k < |s| ==> r[k] == if k == i then f(s[k]) else s[k]
  {
    seq(|s|, k requires 0 <= k < |s| => if k == i then f(s[k]) else s[k])
  }

  /** Two non-empty sequences with the same front and the same last element are equal. */
  lemma SameFrontAndLast<T>(a: seq<T>, b: seq<T>)
    requires |a| > 0 && |b| > 0 && a[..|a| - 1] == b[..|b| - 1] && a[|a| - 1] == b[|b| - 1]
    ensures a == b
  {
    assert a == a[..|a| - 1] + [a[|a| - 1]];
    assert b == b[..|b| - 1] + [b[|b| - 1]];
  }
}

=== FILE: text.dfy ===
/** String vocabulary of the model. Strings are `seq<char>`; the JavaScript
    operations the source relies on are modelled here: `trim()` (with the full
    ECMAScript white-space and line-terminator set), `toLowerCase()` on ASCII
    letters, `includes`, `startsWith`/`endsWith`, `split`/`join` on one
    separator character, and the regular-expression word boundary `\b`. */
module Text {
  import Seqs
  import opened Domain

  /** ECMAScript WhiteSpace and LineTerminator code points: what `trim()` removes. */
  predicate IsJsSpace(c: char) {
    if c <= ' ' then c == ' ' || '\t' <= c <= '\r'
    else if c < '\U{00A0}' then false
    else c == '\U{00A0}' || c == '\U{1680}' || ('\U{2000}' <= c <= '\U{200A}')
         || c == '\U{2028}' || c == '\U{2029}' || c == '\U{202F}' || c == '\U{205F}'
         || c == '\U{3000}' || c == '\U{FEFF}'
  }

  /** `trimStart()`: drops the leading white space. */
  function TrimStart(s: string): (r: string)
    ensures |r| <= |s| && r == s[|s| - |r|..]
    ensures |r| > 0 ==> !IsJsSpace(r[0])
    ensures forall k :: 0 <= k < |s| - |r| ==> IsJsSpace(s[k])
    decreases |s|
  {
    if |s| > 0 && IsJsSpace(s[0]) then TrimStart(s[1..]) else s
  }

  /** `trimEnd()`: drops the trailing white space. */
  function TrimEnd(s: string): (r: string)
    ensures |r| <= |s| && r == s[..|r|]
    ensures |r| > 0 ==> !IsJsSpace(r[|r| - 1])
    ensures forall k :: |r| <= k < |s| ==> IsJsSpace(s[k])
    decreases |s|
  {
    if |s| > 0 && IsJsSpace(s[|s| - 1]) then TrimEnd(s[..|s| - 1]) else s
  }

  /** The number of leading white-space characters. */
  function LeadingSpace(s: string): nat
  {
    |s| - |TrimStart(s)|
  }

  /** `trim()`: the text between the leading and the trailing white space. */
  function Trim(s: string): (r: string)
    ensures |r| > 0 ==> !IsJsSpace(r[0]) && !IsJsSpace(r[|r| - 1])
    ensures LeadingSpace(s) + |r| <= |s| && r == s[LeadingSpace(s)..LeadingSpace(s) + |r|]
    ensures forall k :: 0 <= k < LeadingSpace(s) ==> IsJsSpace(s[k])
    ensures forall k :: LeadingSpace(s) + |r| <= k < |s| ==> IsJsSpace(s[k])
  {
    var t := TrimStart(s);
    var r := TrimEnd(t);
    PrefixOfSuffix(s, t, r);
    r
  }

  /** A prefix `r` of a suffix `t` of `s` is a slice of `s`, and what follows `r` in `t`
      follows it in `s`. */
  lemma PrefixOfSuffix(s: string, t: string, r: string)
    requires |t| <= |s| && t == s[|s| - |t|..]
    requires |r| <= |t| && r == t[..|r|]
    requires forall k :: |r| <= k < |t| ==> IsJsSpace(t[k])
    ensures r == s[|s| - |t|..|s| - |t| + |r|]
    ensures forall k :: |s| - |t| + |r| <= k < |s| ==> IsJsSpace(s[k])
  {
    var n := |s| - |t|;
    forall k | n + |r| <= k < |s|
      ensures IsJsSpace(s[k])
    {
      assert s[k] == t[k - n];
    }
  }

  /** Trimming an already trimmed string changes nothing. */
  lemma TrimIdempotent(s: string)
    ensures Trim(Trim(s)) == Trim(s)
  {
    var t := Trim(s);
    assert TrimStart(t) == t;
    assert TrimEnd(t) == t;
  }

  predicate IsUpper(c: char) { 'A' <= c <= 'Z' }

  predicate IsDigit(c: char) { '0' <= c <= '9' }

  /** `toLowerCase()` on one character, for the ASCII letters. */
  function LowerChar(c: char): char {
    if IsUpper(c) then (c as int - 'A' as int + 'a' as int) as char else c
  }

  /** `toLowerCase()`, character by character. */
  function Lower(s: string): (r: string)
    ensures |r| == |s|
    ensures forall k :: 0 <= k < |s| ==> r[k] == LowerChar(s[k])
  {
    seq(|s|, k requires 0 <= k < |s| => LowerChar(s[k]))
  }

  lemma LowerIdempotent(s: string)
    ensures Lower(Lower(s)) == Lower(s)
  {
  }

  predicate StartsWith(s: string, p: string) {
    |p| <= |s| && s[..|p|] == p
  }

  predicate EndsWith(s: string, p: string) {
    |p| <= |s| && s[|s| - |p|..] == p
  }

  /** `w` occurs in `s` starting at position `i`. */
  predicate SubstringAt(s: string, w: string, i: int) {
    0 <= i && i + |w| <= |s| && s[i..i + |w|] == w
  }

  /** `s.includes(w)`. */
  predicate Contains(s: string, w: string) {
    exists i | 0 <= i <= |s| - |w| :: SubstringAt(s, w, i)
  }

  /** The regular expression `/w1|w2|.../i` with no anchors: some word occurs, ignoring case. */
  predicate ContainsAnyCI(s: string, words: seq<string>) {
    exists k | 0 <= k < |words| :: Contains(Lower(s), Lower(words[k]))
  }

  /** A regular-expression word character: `[A-Za-z0-9_]`. */
  predicate IsWordChar(c: char) {
    IsUpper(c) || ('a' <= c <= 'z') || IsDigit(c) || c == '_'
  }

  predicate WordCharAt(s: string, k: int) {
    0 <= k < |s| && IsWordChar(s[k])
  }

  /** `\b` holds at position `p`: exactly one of the characters around it is a word character. */
  predicate Boundary(s: string, p: int) {
    WordCharAt(s, p - 1) != WordCharAt(s, p)
  }

  /** `/\bw\b/i` matches at position `i`. */
  predicate WholeWordAt(s: string, w: string, i: int) {
    0 <= i && i + |w| <= |s| && Lower(s[i..i + |w|]) == Lower(w) && Boundary(s, i) && Boundary(s, i + |w|)
  }

  /** `/\bw\b/i.test(s)`. */
  predicate HasWholeWord(s: string, w: string) {
    exists i | 0 <= i <= |s| - |w| :: WholeWordAt(s, w, i)
  }

  /** `/\b(w1|w2|...)\b/i.test(s)`: backtracking makes this any alternative at any position. */
  predicate HasAnyWholeWord(s: string, words: seq<string>) {
    exists k | 0 <= k < |words| :: HasWholeWord(s, words[k])
  }

  // ----- Numbers -----

  /** A run of decimal digits (possibly empty). */
  predicate AllDigits(t: string) {
    forall k :: 0 <= k < |t| ==> IsDigit(t[k])
  }

  /** The value of a run of decimal digits. */
  function DigitsValue(t: string): nat
    requires AllDigits(t)
    decreases |t|
  {
    if |t| == 0 then 0 else DigitsValue(t[..|t| - 1]) * 10 + (t[|t| - 1] as int - '0' as int)
  }

  /** The digit character of a value below ten. */
  function Digit(d: nat): char
    requires d < 10
  {
    ('0' as int + d) as char
  }

  /** The longest prefix of decimal digits. */
  function LeadingDigits(s: string): (r: string)
    ensures AllDigits(r) && StartsWith(s, r)
    ensures |r| < |s| ==> !IsDigit(s[|r|])
    decreases |s|
  {
    if |s| > 0 && IsDigit(s[0]) then [s[0]] + LeadingDigits(s[1..]) else ""
  }

  /** `parseInt(s)` in base ten: leading white space, an optional sign, then the longest run
      of digits; no digits is NaN (None). */
  function ParseInt(s: string): (r: Option<int>)
    ensures var t := TrimStart(s);
            var signed := |t| > 0 && (t[0] == '-' || t[0] == '+');
            var d := LeadingDigits(if signed then t[1..] else t);
            r.None? <==> |d| == 0
  {
    var t := TrimStart(s);
    var neg := |t| > 0 && t[0] == '-';
    var signed := |t| > 0 && (t[0] == '-' || t[0] == '+');
    var d := LeadingDigits(if signed then t[1..] else t);
    var v: int := if |d| == 0 then 0 else DigitsValue(d);
    if |d| == 0 then None
    else if neg then Some(-v)
    else Some(v)
  }

  /** The digit run of a string that starts with digits followed by a non-digit. */
  lemma {:induction false} LeadingDigitsOf(d: string, rest: string)
    requires AllDigits(d)
    requires |rest| > 0 ==> !IsDigit(rest[0])
    ensures LeadingDigits(d + rest) == d
    decreases |d|
  {
    if |d| > 0 {
      LeadingDigitsOf(d[1..], rest);
      assert (d + rest)[1..] == d[1..] + rest;
    } else {
      assert d + rest == rest;
    }
  }

  lemma DigitStartsNoSpace(s: string)
    requires |s| > 0 && IsDigit(s[0])
    ensures TrimStart(s) == s
  {
    DigitNotSpace(s[0]);
  }

  lemma TrimDigits(t: string)
    requires AllDigits(t)
    ensures Trim(t) == t
  {
    if |t| > 0 {
      DigitStartsNoSpace(t);
      DigitNotSpace(t[|t| - 1]);
      assert TrimEnd(t) == t;
    }
  }

  lemma DigitNotSpace(c: char)
    requires IsDigit(c)
    ensures !IsJsSpace(c)
  {
  }

  /** `parseInt` reads a leading run of digits and ignores whatever follows it. */
  lemma ParseIntDigits(d: string, rest: string)
    requires AllDigits(d) && |d| > 0
    requires |rest| > 0 ==> !IsDigit(rest[0])
    ensures ParseInt(d + rest) == Some(DigitsValue(d))
  {
    var s := d + rest;
    assert s[0] == d[0];
    assert TrimStart(s) == s by { DigitStartsNoSpace(s); }
    assert LeadingDigits(s) == d by { LeadingDigitsOf(d, rest); }
  }

  /** `s.split(sep)` for a one-character separator: the maximal separator-free pieces. */
  function Split(s: string, sep: char): (parts: seq<string>)
    ensures |parts| >= 1
    ensures forall k :: 0 <= k < |parts| ==> sep !in parts[k]
    decreases |s|
  {
    if sep in s then
      var i := Seqs.FirstIndex(s, sep);
      [s[..i]] + Split(s[i + 1..], sep)
    else
      [s]
  }

  /** `parts.join(sep)`. */
  function Join(parts: seq<string>, sep: char): string
    decreases |parts|
  {
    if |parts| == 0 then ""
    else if |parts| == 1 then parts[0]
    else parts[0] + [sep] + Join(parts[1..], sep)
  }

  /** Joining the pieces of a split gives the string back. */
  lemma {:induction false} JoinSplit(s: string, sep: char)
    ensures Join(Split(s, sep), sep) == s
    decreases |s|
  {
    if sep in s {
      var i := Seqs.FirstIndex(s, sep);
      JoinSplit(s[i + 1..], sep);
      var rest := Split(s[i + 1..], sep);
      assert Split(s, sep) == [s[..i]] + rest;
      assert Join(Split(s, sep), sep) == s[..i] + [sep] + Join(rest, sep);
      assert s == s[..i] + [sep] + s[i + 1..];
    }
  }

  /** Splitting a join of separator-free pieces gives the pieces back. */
  lemma {:induction false} SplitJoin(parts: seq<string>, sep: char)
    requires |parts| >= 1
    requires forall k :: 0 <= k < |parts| ==> sep !in parts[k]
    ensures Split(Join(parts, sep), sep) == parts
    decreases |parts|
  {
    if |parts| > 1 {
      var rest := parts[1..];
      SplitJoin(rest, sep);
      var s := Join(parts, sep);
      var p0 := parts[0];
      assert s == p0 + [sep] + Join(rest, sep);
      assert s[|p0|] == sep && s[..|p0|] == p0 && s[|p0| + 1..] == Join(rest, sep);
      SplitAt(s, sep, |p0|);
      assert parts == [p0] + rest;
    } else {
      assert sep !in parts[0];
    }
  }

  /** The first separator of a string ends its first piece. */
  lemma SplitAt(s: string, sep: char, i: nat)
    requires i < |s| && s[i] == sep && sep !in s[..i]
    ensures Split(s, sep) == [s[..i]] + Split(s[i + 1..], sep)
  {
    Seqs.FirstIndexAt(s, sep, i);
  }

  /** `s.split(/[.!?]/)[0]`: the text before the first sentence terminator. */
  function FirstSentence(s: string): (r: string)
    ensures StartsWith(s, r)
    ensures forall k :: 0 <= k < |r| ==> r[k] != '.' && r[k] != '!' && r[k] != '?'
    ensures |r| < |s| ==> s[|r|] == '.' || s[|r|] == '!' || s[|r|] == '?'
    decreases |s|
  {
    if |s| == 0 || s[0] == '.' || s[0] == '!' || s[0] == '?' then ""
    else [s[0]] + FirstSentence(s[1..])
  }
}

=== FILE: upsell.dfy ===
/** The chat component's suggestions of extra dishes: `getUpsellItems` (a drink, a
    starter and a dessert from sections of the menu the cart does not yet touch)
    and, at checkout, the cheap side dishes added to them. */
module Upsell {
  import opened Domain
  import Seqs
  import Text
  import Cart
  import Intent

  /** The menu item ids of the cart's lines (`new Set(cart.map(item => item.menu_item_id))`). */
  function CartItemIds(c: Cart.Cart): (r: set<string>)
    ensures forall id :: id in r <==> exists k :: 0 <= k < |c| && c[k].menuItemId == id
  {
    set k | 0 <= k < |c| :: c[k].menuItemId
  }

  /** `menuItems.find(m => m.id === id)`. */
  function FindById(menu: seq<MenuItem>, id: string): (r: Option<MenuItem>)
    ensures r.Some? ==> r.value in menu && r.value.id == id
    ensures r.None? ==> forall x :: x in menu ==> x.id != id
    decreases |menu|
  {
    if |menu| == 0 then None
    else if menu[0].id == id then Some(menu[0])
    else
      var r := FindById(menu[1..], id);
      assert forall x :: x in menu ==> x == menu[0] || x in menu[1..];
      r
  }

  /** The categories the cart already touches: the (non-empty) category id of each line's
      menu item, for lines whose item is on the menu. */
  function CartCategoryIds(c: Cart.Cart, menu: seq<MenuItem>): (r: set<string>)
    ensures forall cat :: cat in r <==>
              cat != "" && exists k :: 0 <= k < |c| && FindById(menu, c[k].menuItemId).Some?
                                      && FindById(menu, c[k].menuItemId).value.categoryId == cat
  {
    set k | 0 <= k < |c| && FindById(menu, c[k].menuItemId).Some?
                         && FindById(menu, c[k].menuItemId).value.categoryId != ""
          :: FindById(menu, c[k].menuItemId).value.categoryId
  }

  /** A category of the restaurant whose lower-cased name contains `word`. */
  predicate NamesSection(cat: MenuCategory, restaurantId: string, word: string) {
    cat.restaurantId == restaurantId && Text.Contains(Text.Lower(cat.name), word)
  }

  /** The first category of the restaurant whose lower-cased name contains `word`. */
  function FindSection(cats: seq<MenuCategory>, restaurantId: string, word: string): (r: Option<MenuCategory>)
    ensures r.Some? ==> r.value in cats && r.value.restaurantId == restaurantId
                        && Text.Contains(Text.Lower(r.value.name), word)
    ensures r.Some? ==> exists i :: 0 <= i < |cats| && cats[i] == r.value
                          && forall j :: 0 <= j < i ==> !NamesSection(cats[j], restaurantId, word)
    ensures r.None? ==> forall c :: c in cats ==>
                          !(c.restaurantId == restaurantId && Text.Contains(Text.Lower(c.name), word))
    decreases |cats|
  {
    if |cats| == 0 then None
    else if NamesSection(cats[0], restaurantId, word) then
      assert cats[0] == cats[0];
      Some(cats[0])
    else
      var r := FindSection(cats[1..], restaurantId, word);
      if r.Some? then
        var i :| 0 <= i < |cats[1..]| && cats[1..][i] == r.value
                 && forall j :: 0 <= j < i ==> !NamesSection(cats[1..][j], restaurantId, word);
        assert cats[i + 1] == r.value;
        assert forall j :: 1 <= j < i + 1 ==> cats[j] == cats[1..][j - 1];
        r
      else
        assert forall c :: c in cats ==> c == cats[0] || c in cats[1..];
        r
  }

  /** The three sections `getUpsellItems` draws from, with how many dishes each may give and
      whether they must be featured. */
  datatype Section = Section(word: string, limit: nat, featuredOnly: bool)

  const Drinks := Section("beverage", 2, false)
  const Starters := Section("appetizer", 1, true)
  const Desserts := Section("dessert", 1, true)

  /** A dish a section may offer: of that category, not in the cart, featured when required.
      Availability is not checked. */
  predicate Offerable(sec: Section, cat: MenuCategory, cartIds: set<string>, x: MenuItem) {
    x.categoryId == cat.id && x.id !in cartIds && (!sec.featuredOnly || x.isFeatured)
  }

  /** The test a section applies to the menu. */
  function OfferableBy(sec: Section, cat: MenuCategory, cartIds: set<string>): MenuItem -> bool {
    (x: MenuItem) => Offerable(sec, cat, cartIds, x)
  }

  /** One section's dishes: none when the restaurant has no such category or the cart already
      touches it, otherwise the first offerable dishes up to the section's limit. */
  function SectionPicks(c: Cart.Cart, menu: seq<MenuItem>, cats: seq<MenuCategory>, restaurantId: string, sec: Section)
    : (r: seq<MenuItem>)
    ensures |r| <= sec.limit && Seqs.IsSubseq(r, menu)
    ensures var cat := FindSection(cats, restaurantId, sec.word);
            cat.Some? && cat.value.id !in CartCategoryIds(c, menu) ==>
              var f := Seqs.Filter(menu, OfferableBy(sec, cat.value, CartItemIds(c)));
              |r| == (if |f| < sec.limit then |f| else sec.limit) && r == f[..|r|]
    ensures forall x :: x in r ==>
              var cat := FindSection(cats, restaurantId, sec.word);
              cat.Some? && cat.value.id !in CartCategoryIds(c, menu) && Offerable(sec, cat.value, CartItemIds(c), x)
  {
    var cat := FindSection(cats, restaurantId, sec.word);
    if cat.None? || cat.value.id in CartCategoryIds(c, menu) then []
    else
      var ids := CartItemIds(c);
      Intent.FirstMatches(menu, OfferableBy(sec, cat.value, ids), sec.limit)
  }

  /** `getUpsellItems`: nothing for an empty cart; otherwise up to two drinks, one featured
      starter and one featured dessert, in that order, cut to three. Only the dessert can be
      cut, and only when two drinks and a starter come before it. */
  function Upsells(c: Cart.Cart, menu: seq<MenuItem>, cats: seq<MenuCategory>, restaurantId: string)
    : (r: seq<MenuItem>)
    ensures |c| == 0 ==> r == []
    ensures |c| > 0 ==>
              var d := SectionPicks(c, menu, cats, restaurantId, Drinks);
              var a := SectionPicks(c, menu, cats, restaurantId, Starters);
              var s := SectionPicks(c, menu, cats, restaurantId, Desserts);
              && |r| == (if |d| + |a| + |s| < 3 then |d| + |a| + |s| else 3)
              && |d| + |a| <= |r|
              && r[..|d|] == d
              && r[|d|..|d| + |a|] == a
              && r[|d| + |a|..] == s[..|r| - |d| - |a|]
              && (|r| < |d| + |a| + |s| ==> |d| == 2 && |a| == 1 && |s| == 1)
    ensures |r| <= 3
    ensures forall x :: x in r ==> x in menu && x.id !in CartItemIds(c) && x.categoryId !in CartCategoryIds(c, menu)
  {
    if |c| == 0 then []
    else
      var d := SectionPicks(c, menu, cats, restaurantId, Drinks);
      var a := SectionPicks(c, menu, cats, restaurantId, Starters);
      var s := SectionPicks(c, menu, cats, restaurantId, Desserts);
      TakeOfThree(d, a, s, 3);
      Seqs.Take(d + a + s, 3)
  }

  /** Cutting `d + a + s` to at least `|d| + |a|` elements keeps `d` and `a` whole, in front,
      and a prefix of `s` after them. */
  lemma TakeOfThree<T>(d: seq<T>, a: seq<T>, s: seq<T>, n: nat)
    requires |d| + |a| <= n
    ensures var r := Seqs.Take(d + a + s, n);
            && (forall x :: x in r ==> x in d || x in a || x in s)
            && |d| + |a| <= |r|
            && r[..|d|] == d
            && r[|d|..|d| + |a|] == a
            && r[|d| + |a|..] == s[..|r| - |d| - |a|]
  {
    var r := Seqs.Take(d + a + s, n);
    var all := d + a + s;
    assert forall k :: 0 <= k < |r| ==> r[k] == all[k];
    forall x | x in r ensures x in d || x in a || x in s {
      var k :| 0 <= k < |r| && r[k] == x;
      assert x in all;
    }
    assert r[..|d|] == d by {
      forall k | 0 <= k < |d| ensures r[..|d|][k] == d[k] {
        assert all[k] == d[k];
      }
    }
    assert r[|d|..|d| + |a|] == a by {
      forall k | 0 <= k < |a| ensures r[|d|..|d| + |a|][k] == a[k] {
        assert all[|d| + k] == a[k];
      }
    }
    assert r[|d| + |a|..] == s[..|r| - |d| - |a|] by {
      forall k | 0 <= k < |r| - |d| - |a| ensures r[|d| + |a|..][k] == s[k] {
        assert all[|d| + |a| + k] == s[k];
      }
    }
  }

  /** Every suggestion comes from one of the three sections, and only a starter or a dessert
      has to be featured. */
  lemma UpsellsFromSections(c: Cart.Cart, menu: seq<MenuItem>, cats: seq<MenuCategory>, restaurantId: string, x: MenuItem)
    requires x in Upsells(c, menu, cats, restaurantId)
    ensures exists sec :: sec in [Drinks, Starters, Desserts]
              && FindSection(cats, restaurantId, sec.word).Some?
              && Offerable(sec, FindSection(cats, restaurantId, sec.word).value, CartItemIds(c), x)
  {
    var d := SectionPicks(c, menu, cats, restaurantId, Drinks);
    var a := SectionPicks(c, menu, cats, restaurantId, Starters);
    var s := SectionPicks(c, menu, cats, restaurantId, Desserts);
    var all := d + a + s;
    assert x in all;
    if x in d {
      assert [Drinks, Starters, Desserts][0] == Drinks;
    } else if x in a {
      assert [Drinks, Starters, Desserts][1] == Starters;
    } else {
      assert x in s;
      assert [Drinks, Starters, Desserts][2] == Desserts;
    }
  }

  // ----- Checkout -----

  /** The name words that mark a small side dish. */
  const SideWords: seq<string> := ["fries", "side", "appetizer", "bite", "roll", "snack", "small"]

  /** A checkout extra: under ten dollars, not in the cart, available, with a side-dish word in
      its lower-cased name. */
  predicate SmallExtra(cartIds: set<string>, x: MenuItem) {
    && x.price < 1000
    && x.id !in cartIds
    && x.isAvailable
    && exists k | 0 <= k < |SideWords| :: Text.Contains(Text.Lower(x.name), SideWords[k])
  }

  /** The test `smallerItems` applies to the menu. */
  function ExtraFor(cartIds: set<string>): MenuItem -> bool {
    (x: MenuItem) => SmallExtra(cartIds, x)
  }

  /** `smallerItems`: the first two checkout extras of the menu. */
  function SmallerItems(c: Cart.Cart, menu: seq<MenuItem>): (r: seq<MenuItem>)
    ensures var f := Seqs.Filter(menu, ExtraFor(CartItemIds(c)));
            |r| == (if |f| < 2 then |f| else 2) && r == f[..|r|]
    ensures |r| <= 2 && Seqs.IsSubseq(r, menu)
    ensures forall x :: x in r ==> SmallExtra(CartItemIds(c), x)
    ensures |r| < 2 ==> forall x :: x in menu && SmallExtra(CartItemIds(c), x) ==> x in r
  {
    var ids := CartItemIds(c);
    Intent.FirstMatches(menu, ExtraFor(ids), 2)
  }

  /** `allUpsells` of `place_order`: the upsells, then the extras, cut to three. None is in the
      cart, and the extras appear only after every upsell. */
  function CheckoutOffers(c: Cart.Cart, menu: seq<MenuItem>, cats: seq<MenuCategory>, restaurantId: string)
    : (r: seq<MenuItem>)
    ensures |r| <= 3
    ensures forall x :: x in r ==> x in menu && x.id !in CartItemIds(c)
    ensures |Upsells(c, menu, cats, restaurantId)| <= |r|
    ensures r[..|Upsells(c, menu, cats, restaurantId)|] == Upsells(c, menu, cats, restaurantId)
    ensures r[|Upsells(c, menu, cats, restaurantId)|..]
            == Seqs.Take(SmallerItems(c, menu), 3 - |Upsells(c, menu, cats, restaurantId)|)
  {
    var u := Upsells(c, menu, cats, restaurantId);
    var s := SmallerItems(c, menu);
    Seqs.SubseqMembers(s, menu);
    TakeOfAppend(u, s, 3);
    Seqs.Take(u + s, 3)
  }

  /** Cutting `a + b` to at least `|a|` elements keeps all of `a` in front, and only elements of `a`
      and `b`. */
  lemma TakeOfAppend(a: seq<MenuItem>, b: seq<MenuItem>, n: nat)
    requires |a| <= n
    ensures Seqs.Take(a + b, n)[..|a|] == a
    ensures Seqs.Take(a + b, n)[|a|..] == Seqs.Take(b, n - |a|)
    ensures forall x :: x in Seqs.Take(a + b, n) ==> x in a || x in b
  {
    var r := Seqs.Take(a + b, n);
    assert forall k :: 0 <= k < |a| ==> r[k] == (a + b)[k] == a[k];
    assert r[|a|..] == Seqs.Take(b, n - |a|) by {
      forall k | 0 <= k < |r| - |a| ensures r[|a|..][k] == Seqs.Take(b, n - |a|)[k] {
        assert r[|a| + k] == (a + b)[|a| + k] == b[k];
      }
    }
    forall x | x in r ensures x in a || x in b {
      var k :| 0 <= k < |r| && r[k] == x;
      assert x == (a + b)[k];
    }
  }

  /** Nothing is offered at checkout exactly when the cart is empty or the menu has neither an
      upsell nor an extra for it. */
  lemma NoOffersIffNothingToOffer(c: Cart.Cart, menu: seq<MenuItem>, cats: seq<MenuCategory>, restaurantId: string)
    ensures |CheckoutOffers(c, menu, cats, restaurantId)| == 0 <==>
              |Upsells(c, menu, cats, restaurantId)| == 0
              && forall x :: x in menu ==> !SmallExtra(CartItemIds(c), x)
  {
    var s := SmallerItems(c, menu);
    if |s| > 0 {
      assert s[0] in s;
    }
  }
}
